=== FILE: README.md ===
# gh-deps in Dafny

gh-deps is a GitHub CLI extension that lists the open dependency-update pull
requests that Renovate, Dependabot and GitHub Actions have opened across an
organisation's or a user's repositories. It shows them in a table and lets
the user merge them from a line prompt or from a full-screen list.

This project models the program's deterministic core as pure Dafny functions
over immutable datatypes, and proves what each piece promises:

- **The interactive list** (`TuiModel`, `TuiFilter`, `TuiCommands`,
  `TuiView`, `TuiInvariants`, `TuiWorld`, after `internal/interactive/tui.go`).
  - `model.Update` is the transition `Update(env, m, msg) -> Step(m', cmd)`
    over the state record. Its messages are a resize, a merge result, a
    rebase result, a refresh result and a key.
  - Its commands are: none, quit, refresh, merge of a pull request, and
    rebase of one.
  - The search filter, the merge and rebase command closures, and the scroll
    window are modelled next to it. So are the title width and the byte-wise
    `truncate`/`formatLabels`.
  - `TuiWorld` adds the commands that are still in flight. Their results can
    arrive in any order, as Bubble Tea's goroutines deliver them.
- **The line prompt** (`Prompt`, after `internal/interactive/prompt.go`):
  - selection parsing over a 64-bit `strconv.Atoi`;
  - the yes/no and quit answers;
  - the blocking rule of the details screen;
  - the whole `Run` loop over a finite list of input lines.
- **The API client** (`Client`, `UpdatePr`, `MergeApi`):
  - the exclusion map;
  - the paginated fetch loop, with the rate limiter and the GraphQL query
    replaced by a sequence of page outcomes;
  - the per-repository pull-request conversion;
  - the Renovate rebase-checkbox rewrite and its abstract PATCH;
  - the owner/repo split before a merge.
- **The models and helpers**:
  - `Bots`: bot detection;
  - `Checks`: CI-status aggregation;
  - `PullRequests` and `Repositories`: repository-name splitting;
  - `Version`: version extraction with the two fixed patterns;
  - `Truncation`: rune truncation;
  - `Table` and `RepoOrder`: the table's sort and cells;
  - `Config`: flag validation.

Supporting modules:

- `Text` holds the parts of Go's `strings`, `strconv` and `unicode` the program
  uses.
- `Utf8` gives the byte view that Go's `len` and slicing see.
- `Outcomes` holds `Option` and `Result`.

The two regular expressions of `internal/parser/version.go` and the checkbox
pattern of `internal/api/update_pr.go` are modelled as hand-written scanners.
Each pattern also has an independent shape predicate that states, piece by
piece, what a match of it is (`Version.DependabotShape`,
`UpdatePr.CheckboxShape`). The lemmas show that each scanner agrees with its
shape: what it reports is a match, and it finds every match the pattern
allows.

For the checkbox pattern, every space run up to the box is forced, and the
box is unique. After the box, the readings of the tail may split its spaces
in different ways, but they never differ in where the match ends.
The optional comment is tried before the reading without it, as in RE2's
leftmost-first order. So a match through the comment ends where the scanner
says. A match that skips the comment ends where the scanner says whenever no
reading after the box goes through a comment.

## Model

| member | source | states |
|---|---|---|
| Bots.DetectIn | internal/models/bot.go:26-34 | scanning bot types in a given order fails exactly when no type's login pattern occurs in the author; otherwise it returns the first type (in that order) whose pattern occurs, and a failure carries the empty type |
| Bots.DetectBot | internal/models/bot.go:23-35 | a failed detection carries the empty bot type; a successful one names one of renovate, dependabot or github-actions |
| Bots.DetectBotMeaning | internal/models/bot.go:15-32 | detection succeeds iff the lower-cased author contains "renovate", "dependabot" or "github-actions", and the detected type's name occurs in the author |
| Bots.LoginsShape | internal/models/bot.go:15-19 | every bot type's patterns are "app/" + name, name + "[bot]" and the bare name |
| Bots.LoginsAreLowerCase | internal/models/bot.go:28 | lower-casing a login pattern leaves it unchanged, so only the author's case matters |
| Bots.PatternContainsName | internal/models/bot.go:15-19 | each of a type's three patterns contains the type's name, so the name alone decides a match |
| Bots.MatchesBotIffName | internal/models/bot.go:24-28 | an author matches a bot type iff its lower-cased form contains the type's name, whatever the author's case |
| Bots.DetectBotSound | internal/models/bot.go:23-35 | whatever the map's iteration order, the result is a valid detection: a matching type, or failure only when no type matches |
| Bots.DetectBotComplete | internal/models/bot.go:23-35 | every valid detection of an author (including either type for a login naming two bots) is the result under some iteration order |
| Bots.DetectBotCaseInsensitive | internal/models/bot.go:24 | detecting on the lower-cased author gives the same result as on the author |
| Bots.DottedCapitalIDetected | internal/models/bot.go:24 | an author with 'İ' (U+0130) in place of the 'i' of "github-actions" is detected under every order, because `strings.ToLower` lowers 'İ' to 'i' |
| Bots.DisplayNameOfDetection | internal/models/bot.go:38-40 | the display name of a detected type is a substring of the lower-cased author |
| Checks.AggregateCheckStatus | internal/models/checkrun.go:32-69 | no checks give (None, 0); otherwise the total is the number of checks, Failure iff some completed check has a conclusion other than success/neutral/skipped, Pending iff no failure and some check is not completed, Success iff neither |
| Checks.IncompleteConclusionIgnored | internal/models/checkrun.go:42-45 | changing the conclusions of checks that are not completed changes neither the failure nor the pending verdict |
| Client.ExcludeKeys | internal/api/client.go:45-56 | the exclusion map holds every entry verbatim, plus target + "/" + entry for each entry without '/', and no other key |
| Client.SummaryOf | internal/api/client.go:225-238 | with checks skipped, no commit or no rollup the summary is (None, 0); otherwise it is the rollup's summary |
| Client.BotAuthor | internal/api/client.go:211-218 | the per-node test keeps a node exactly when its author is detected as a bot |
| Client.KeptExact | internal/api/client.go:204-218 | the kept nodes are exactly the nodes of the page that pass the test |
| Client.ProcessRepo | internal/api/client.go:201-265 | one pull request per bot-authored node of the page, in page order |
| Client.ProcessRepoFields | internal/api/client.go:247-261 | the k-th produced pull request comes from the k-th bot-authored node of the page: it carries the repository's full name and the node's number, body and author, a known bot type that the author matches, the node's check summary, and the version extracted from the body for that bot |
| Client.ProcessRepoKeepsBots | internal/api/client.go:204-218 | every node of the page whose author is a bot yields a pull request |
| Client.NoBotsNoPRs | internal/api/client.go:211-218 | a repository whose authors name no bot contributes no pull requests, whatever order detection uses for each of them |
| Client.WalkSkipsEntries | internal/api/client.go:45-56 | with the exclusion map built from the entries and the target, a repository is skipped iff an entry names it verbatim, or, for an entry without '/', as target/entry; every other repository is processed |
| Client.WalkOf | internal/api/client.go:91-101 | the repository loop skips exactly the keys of the exclusion map and processes every other repository with `processPRsFromRepo` |
| Client.CollectAppend | internal/api/client.go:91-101 | the pull requests of two runs of repositories are those of the first followed by those of the second |
| Client.WalkRepos | internal/api/client.go:91-110 | one page's repository loop: it either stops with the first `limit` pull requests of everything collected so far, once a positive limit is reached, or it returns the collection extended by the page's non-excluded repositories, still under the limit |
| Client.CollectPrefix | internal/api/client.go:103-109 | repositories after the limit is reached cannot change the first `limit` pull requests |
| Client.VisitPage | internal/api/client.go:73-117 | one page of the loop: a failed request ends the walk with that error; reaching a positive limit, or a page with no next page, ends it with the reference answer; otherwise the walk goes on to the next page with the collection extended by this page |
| Client.FetchPullRequests | internal/api/client.go:69-120 | the answer equals the reference: on a failed page, that error (discarding what was collected); with a positive limit reached, the first `limit` pull requests of the in-order concatenation; otherwise all of them. No more than `limit` are returned, and with no positive limit every page is read |
| Client.FetchFrom | internal/api/client.go:123-174 | the page loop from any page on, given what the earlier pages collected, returns the reference answer and reads at least that page |
| Client.FailedPage | internal/api/client.go:75-88 | a rate-limiter or query failure is the last page and the result is the wrapped error message |
| Client.ReachedOnPage | internal/api/client.go:103-109 | when the limit is reached inside a page the result is the first `limit` pull requests |
| Client.LastPage | internal/api/client.go:112-119 | a page without a next page ends the walk with everything collected |
| Config.ParseConfig | internal/app/config.go:19-60 | no org and no user, both, and a negative limit each give their own error, in that order; success holds exactly when one name is given and the limit is non-negative, and then the target is that name, `IsOrganization` tells which, and limit, verbose and skip-checks are the flags' values |
| Config.DefaultLimitApplies | internal/app/config.go:28-29 | without a limit flag a valid configuration asks for 50 pull requests |
| MergeApi.ParseRepository | internal/api/merge.go:82-88 | success iff the input holds exactly one '/'; then owner + "/" + repo is the input and neither part holds '/'; on failure both parts are empty and the error quotes the input |
| MergeApi.ParseRepositoryRoundTrip | internal/api/merge.go:82-88 | any owner and repo without '/' come back from their joined form |
| MergeApi.ParseRepositoryEmptySegments | internal/api/merge.go:83-87 | "/" and "a/" are accepted, with empty segments |
| Prompt.Atoi | internal/interactive/prompt.go:113 | a parsed number fits in an int64; the text is an optional sign and digits only, and the sign decides the number's sign |
| Prompt.AtoiIntToString | internal/interactive/prompt.go:113 | every int64 reads back from its decimal rendering |
| Prompt.AtoiOutOfRange | internal/interactive/prompt.go:113-116 | a number beyond the int64 range is rejected |
| Prompt.ParseSelection | internal/interactive/prompt.go:106-123 | empty trimmed input, a non-number and an out-of-range number each give their error; success iff the trimmed input is a number between 1 and the count, which is returned |
| Prompt.ParseSelectionOfNumber | internal/interactive/prompt.go:106-123 | any listed number, with any surrounding spaces, is selected |
| Prompt.ConfirmedIff | internal/interactive/prompt.go:181-191 | a line confirms iff its trimmed form is "y" or "yes" in any letter case |
| Prompt.TrimSpacePadded | internal/interactive/prompt.go:189 | surrounding spaces around a word are dropped and the word itself is kept |
| Prompt.QuitIff | internal/interactive/prompt.go:49-52 | a line quits iff its trimmed form is "q" or "Q" |
| Prompt.DisplayPRDetails | internal/interactive/prompt.go:126-178 | an error exactly for a conflicting pull request; otherwise an unknown-state warning iff the state is UNKNOWN, and one CI notice matching a failing, pending or missing status, none for success |
| Prompt.ExecuteMerge | internal/interactive/prompt.go:194-216 | a malformed repository gives its parse error; success iff the repository parses and the endpoint replies without error and reports the merge |
| Prompt.ChoiceOf | internal/interactive/prompt.go:49-59 | a line quits iff its answer is "q"; otherwise it picks a number iff `parseSelection` accepts it, and the number indexes the list |
| Prompt.Attempt | internal/interactive/prompt.go:62-90 | after a selection: a failed detail check, a declined confirmation or a failed merge returns to the selection on later input; a merge consumes a confirmation and a continue answer |
| Prompt.RoundOf | internal/interactive/prompt.go:37-91 | a round ends the session exactly when input has run out or the first line quits; a merge ends it or continues as the continue answer says |
| Prompt.Loop | internal/interactive/prompt.go:37-91 | every merged pull request is listed, not conflicting and merged without error; each merge uses at least two lines; the only error is the read failure |
| Prompt.PromptSteps | internal/interactive/prompt.go:43-82 | the prompt's choose/confirm/execute steps only ever select a listed pull request, and a failed read never confirms |
| Prompt.Run | internal/interactive/prompt.go:32-92 | an empty list is an error before any input; an immediate "q" ends with no merges; no input at all is the read error; every merge is of a listed, non-conflicting pull request that the endpoint merged |
| Prompt.SelectionIsNotQuit | internal/interactive/prompt.go:49-55 | a line that parses as a selection is never the quit command |
| Prompt.SelectConfirmMerge | internal/interactive/prompt.go:32-92 | selecting a mergeable pull request, confirming, and declining to continue merges exactly that pull request and ends without error |
| Prompt.FirstLineSelects | internal/interactive/prompt.go:49-59 | typing a listed number picks it |
| Prompt.MergeThenStop | internal/interactive/prompt.go:37-91 | a round that merges and is told not to continue ends the session with that one merge |
| PullRequests.RepoName | internal/models/pr.go:39-45 | without '/' the name is the whole string, otherwise the text between the first and second '/'; never holds '/' |
| PullRequests.RepoNameSplit | internal/models/pr.go:40-44 | splitting on '/' gives at least two segments exactly when there is a '/', and segment 1 is the second segment |
| PullRequests.RepoNameOfOwnerRepo | internal/models/pr.go:39-45 | "owner/repo", and "owner/repo/…", have repo name "repo" |
| Repositories.NewRepository | internal/models/repository.go:13-26 | the full name is kept; with a '/' the owner is the text before it; without, the name is the input and the owner empty; neither part holds '/' |
| Repositories.FirstSegment | internal/models/repository.go:14-18 | with a '/' the first segment of the split is the text before the first '/' |
| Repositories.NameAgreesWithRepoName | internal/models/repository.go:13-26 | a repository's name equals `RepoName` of a pull request with the same full name |
| RepoOrder.BytesLessIrreflexive | internal/formatter/table.go:18 | no repository name sorts before itself |
| RepoOrder.BytesLessTransitive | internal/formatter/table.go:18 | Go's byte-wise string `<` is transitive |
| RepoOrder.BytesLessTotal | internal/formatter/table.go:18 | distinct names are ordered one way or the other |
| RepoOrder.NotBeforeTransitive | internal/formatter/table.go:17-19 | "not after" is transitive, so the sort's comparison is a strict weak order |
| RepoOrder.Insert | internal/formatter/table.go:17-19 | inserting into a sorted list keeps it sorted and adds exactly that element |
| RepoOrder.SortByRepoName | internal/formatter/table.go:17-19 | the result is a permutation of the input, ordered by repository name |
| Table.FormatMergeableState | internal/formatter/table.go:67-78 | one character per state, "-" exactly for states other than MERGEABLE, CONFLICTING and UNKNOWN |
| Table.FormatMergeableStateInjective | internal/formatter/table.go:67-78 | different known states get different marks |
| Table.AccumulateIsJoin | internal/formatter/table.go:86-92 | the label loop builds exactly the comma-joined labels |
| Table.FormatLabels | internal/formatter/table.go:81-94 | no labels give "-"; otherwise the comma-joined labels truncated to 30 runes with an ellipsis |
| Table.RenderTable | internal/formatter/table.go:15-64 | the returned list is a sorted permutation of the input, with one row per pull request built from the pull request at that sorted index |
| Table.NumberedRow | internal/formatter/table.go:33-45 | a numbered row has ten cells and starts with the 1-based row number |
| Table.RowNumberReadsBack | internal/formatter/table.go:31-35 | the number printed in row i reads back as i + 1, the number the prompt's selection expects |
| Table.CellWidths | internal/formatter/table.go:36-43 | the repo cell is a prefix of the repository name of at most 20 runes, the labels cell at most 30, the title cell at most 60 |
| Text.TrimSpace | internal/interactive/prompt.go:107 | the result is a slice of the input with only spaces cut from both ends, and no space at either end; empty iff the input is all spaces |
| Text.Split | internal/models/pr.go:40 | one more segment than separators, none holding the separator, and joining them gives back the input |
| Text.LowerChar | internal/models/bot.go:24 | the result is never an upper-case ASCII letter, and it is ASCII exactly when the input is ASCII, U+0130 or U+212A: the only characters `unicode.ToLower` lowers to ASCII |
| Text.ToLower | internal/models/bot.go:24 | same length, and each character is lower-cased on its own |
| Text.ToLowerIdempotent | internal/models/bot.go:24 | lower-casing twice is lower-casing once |
| Text.DecimalValueOfNatToString | internal/formatter/table.go:35 | the decimal rendering of a number has that number as its value |
| Truncation.TruncateString | internal/formatter/truncate.go:7-14 | the result is the first min(length, maxLen) runes of the input |
| Truncation.TruncateWithEllipsis | internal/formatter/truncate.go:17-28 | a string that fits is kept; a longer one is cut to maxLen runes, plain when maxLen is at most 3, else as the first maxLen-3 runes and "..." |
| Truncation.TruncateStringIdempotent | internal/formatter/truncate.go:7-14 | truncating again to the same length changes nothing |
| Truncation.TruncateWithEllipsisIdempotent | internal/formatter/truncate.go:17-28 | truncating with an ellipsis again to the same length changes nothing |
| TuiCommands.MergeCommand | internal/interactive/tui.go:501-541 | a merge result; conflicting pull requests fail with their own message before the client is used, a bad repository fails with the parse error, and success holds iff the client merged without error |
| TuiCommands.ConflictSkipsClient | internal/interactive/tui.go:503-509 | a conflicting pull request's result does not depend on the client at all |
| TuiCommands.MergeAgreesWithPrompt | internal/interactive/tui.go:511-539 | for a non-conflicting pull request the list screen's merge succeeds iff the line prompt's `executeMerge` does |
| TuiCommands.RebaseCommand | internal/interactive/tui.go:544-593 | a rebase result; a bad repository fails first; a checkbox bot succeeds iff the checkbox rewrite and its PATCH succeed; a command bot succeeds iff posting its comment succeeds; any other bot fails |
| TuiCommands.MissingCheckbox | internal/interactive/tui.go:556-564 | a checkbox bot whose body has no checkbox gets the wrapped "not found" error |
| TuiCommands.MissingCheckboxSendsNothing | internal/interactive/tui.go:556-564 | and then no body is sent: the result does not depend on the PATCH |
| TuiFilter.FilterMembers | internal/interactive/tui.go:477-489 | the filtered list holds exactly the pull requests whose lower-cased search text contains the lower-cased query |
| TuiFilter.FilterAppend | internal/interactive/tui.go:480-489 | filtering commutes with concatenation, so the original order is kept |
| TuiFilter.EmptyQueryKeepsAll | internal/interactive/tui.go:471-474 | the empty query matches every pull request, so the shortcut agrees with the loop |
| TuiFilter.FilterKeepsAll | internal/interactive/tui.go:477-489 | when every pull request matches, filtering returns the list unchanged, in order |
| TuiFilter.Clamp | internal/interactive/tui.go:491-497 | the cursor ends on a row (or 0 on an empty list); one already on a row stays, one past the end goes to the last row |
| TuiFilter.FilterPRs | internal/interactive/tui.go:470-498 | an empty query shows every pull request with the cursor on the first; otherwise the matching ones, with the cursor clamped onto them |
| TuiFilter.FilterPRsMembers | internal/interactive/tui.go:470-498 | whatever the query, the rows shown are exactly the matching pull requests |
| TuiModel.Initial | internal/interactive/tui.go:690-703 | the starting state shows every pull request, with the cursor on the first, no mode or flag set and an 80×24 screen; both lists are the one slice passed in, so they share an array |
| TuiModel.RemoveFirstAbsent | internal/interactive/tui.go:96-101 | without an entry of the same repository and number nothing is removed |
| TuiModel.RemoveFirstAt | internal/interactive/tui.go:96-101 | otherwise exactly the first such entry is removed |
| TuiModel.OnMergeResult | internal/interactive/tui.go:85-116 | the merge flag drops and the rebase flag is untouched; a success, and only a success, starts a refresh and raises the refresh flag |
| TuiModel.RemoveInPlace | internal/interactive/tui.go:94 | `append(s[:i], s[i+1:]...)` shifts entries i+1..n-1 of the backing array down by one and leaves entry n-1 and everything beyond n as they were |
| TuiModel.FirstSame | internal/interactive/tui.go:96-101 | the lookup stops at the first entry with the merged pull request's repository and number, or finds none |
| TuiModel.FirstSameUnique | internal/interactive/tui.go:96-101 | an entry whose repository and number no other entry has is found at its own index |
| TuiModel.RemoveMerged | internal/interactive/tui.go:93-101 | the filtered list always loses one row; when the two lists share an array, the filtered list stays a prefix of the other |
| TuiModel.RemoveMergedSpec | internal/interactive/tui.go:93-101 | with separate arrays the row leaves the filtered list and the first same entry leaves the other; with one shared array and the merged entry unique, the filtered list still loses the row, but unless it was the last row the other list keeps its length, without the merged entry and with the last filtered row twice |
| TuiModel.SharedRemoval | internal/interactive/tui.go:93-101 | the shared-array case of the removal, entry by entry |
| TuiModel.DropMergedRow | internal/interactive/tui.go:91-105 | only the two lists and the cursor change |
| TuiModel.MergeResultSpec | internal/interactive/tui.go:85-116 | a failure only reports the message as an error; a success removes the row under the cursor as it is at arrival and announces the refresh; with separate arrays the merged pull request leaves both lists; with the shared array of the empty query it leaves the filtered list, while the other list keeps the shifted array (see `RemoveMergedSpec`) and still has the filtered list as a prefix; the cursor stays, except that on the last row of several it moves up one; with the cursor off the list nothing is removed |
| TuiModel.MergeLeavesDuplicate | internal/interactive/tui.go:91-101 | with the empty query, merging the first of three pull requests a, b, c leaves the filtered list [b, c] but the full list [b, c, c], and filtering again with the empty query lists c twice |
| TuiModel.OnRebaseResult | internal/interactive/tui.go:118-126 | the rebase flag drops and the message is reported as success or error; nothing else changes |
| TuiModel.OnRefreshResult | internal/interactive/tui.go:128-159 | the refresh flag drops and the other flags are untouched; an error keeps both lists and reports it; fresh data changes only the lists, the cursor and the message |
| TuiModel.RefreshLoads | internal/interactive/tui.go:137-157 | fresh data becomes a sorted permutation of what was fetched; with no query every row is shown and the cursor goes to the top; with a query the rows shown are the matching ones in sorted order and the cursor is clamped to them; the count is reported |
| TuiModel.OtherSingleChar | internal/interactive/tui.go:168-289 | a one-character key reaches the `default` arm iff it is not one of q, y, n, j, k, r, o and / |
| TuiModel.ClearMessage | internal/interactive/tui.go:162-166 | outside confirm mode a key clears the status line, inside it nothing changes |
| TuiModel.Requery | internal/interactive/tui.go:183-292 | the new query is set and the list filtered again with the cursor clamped; the lists share an array exactly when the query is empty; nothing else changes |
| TuiModel.OnAccept | internal/interactive/tui.go:220-262 | in confirm mode with nothing merging or rebasing the confirmation closes and its merge or rebase command goes out with its flag; otherwise confirm mode does nothing; in search mode the search closes; in browse mode the row under the cursor is offered, as a rebase iff it conflicts and its bot can rebase |
| TuiModel.OnOpen | internal/interactive/tui.go:206-218 | only the status line can change; outside search and confirm mode with a row under the cursor it reports the outcome of opening that row's URL |
| TuiModel.OnKey | internal/interactive/tui.go:168-294 | only the refresh, open and accept arms write a status line, and accept only when it confirms |
| TuiInvariants.InitialInv | internal/interactive/tui.go:690-703 | the starting state satisfies the invariant: cursor on a row or 0, search and confirm mode exclusive, a confirmation holds its pull request, a rebase offer is a confirmation, the query is ASCII without reserved characters, and a filtered list that shares the full list's array is a prefix of it |
| TuiInvariants.MergeResultInv | internal/interactive/tui.go:85-116 | a merge result keeps the invariant |
| TuiInvariants.RefreshResultInv | internal/interactive/tui.go:128-159 | a refresh result keeps the invariant |
| TuiInvariants.TypedKeyKeepsQueryOk | internal/interactive/tui.go:289-293 | appending a one-byte key that reaches `default` keeps the query ASCII and free of reserved characters |
| TuiInvariants.AcceptInv | internal/interactive/tui.go:220-262 | the "enter"/"y" arm keeps the invariant |
| TuiInvariants.OpenInv | internal/interactive/tui.go:206-218 | the "o" arm keeps the invariant |
| TuiInvariants.RequeryInv | internal/interactive/tui.go:470-498 | filtering again with an admissible query keeps the invariant |
| TuiInvariants.KeyInv | internal/interactive/tui.go:168-294 | every key arm keeps the invariant |
| TuiInvariants.UpdateInv | internal/interactive/tui.go:78-298 | every message keeps the invariant |
| TuiInvariants.CommandOrigins | internal/interactive/tui.go:78-298 | a merge or rebase command leaves only from an open confirmation of that pull request with nothing merging or rebasing, and raises its flag; a refresh comes from "r" with every guard but `rebasing` down, or from a successful merge; quitting comes from a key |
| TuiInvariants.KeyFlags | internal/interactive/tui.go:168-294 | a key raises an in-flight flag only together with its command and lowers none |
| TuiInvariants.KeyMsgFlags | internal/interactive/tui.go:161-294 | the same after the status line is cleared |
| TuiInvariants.MergeMsgFlags | internal/interactive/tui.go:85-116 | a merge result lowers the merge flag and raises the refresh flag only with its command |
| TuiInvariants.FlagsFollowCommands | internal/interactive/tui.go:78-298 | every flag is raised exactly when its command goes out and lowered only by its own result |
| TuiInvariants.ConfirmDispatch | internal/interactive/tui.go:221-243 | confirming with nothing in flight closes the confirmation and sends exactly one command, a rebase when one was offered and a merge otherwise; with something in flight nothing changes |
| TuiInvariants.ConfirmOffer | internal/interactive/tui.go:249-261 | in browse mode the row under the cursor is offered, as a rebase iff it conflicts and its bot supports rebase |
| TuiInvariants.RefreshDuringRebase | internal/interactive/tui.go:198 | "r" does not look at `rebasing`: a refresh can start during a rebase |
| TuiInvariants.MoveWhileMerging | internal/interactive/tui.go:278-281 | moving down works while a merge is in flight |
| TuiInvariants.KeyClearsMessage | internal/interactive/tui.go:162-166 | outside confirm mode every key but "r" and "o" leaves the status line empty; in confirm mode only accept can change it |
| TuiInvariants.TypingExtendsQuery | internal/interactive/tui.go:289-293 | in search mode a one-byte key that no arm claims is appended and the list filtered again |
| TuiInvariants.BackspaceDropsLastByte | internal/interactive/tui.go:283-287 | backspace drops the query's last byte, which is its last character |
| TuiInvariants.ReservedNeverTyped | internal/interactive/tui.go:168-293 | q, y, n, j, k, r, o and / never become part of the query |
| TuiView.MaxVisible | internal/interactive/tui.go:344-347 | the list gets the height less ten rows, but at least five |
| TuiView.VisibleWindow | internal/interactive/tui.go:349-360 | the window lies within the list, is as long as the list or the visible rows allow, and contains the cursor |
| TuiView.WindowCentred | internal/interactive/tui.go:349-353 | away from both ends the cursor sits in the middle of the window |
| TuiView.WindowAtEnd | internal/interactive/tui.go:354-359 | near the end the window ends at the last row |
| TuiView.TitleWidth | internal/interactive/tui.go:457-461 | the title gets the width less 90 columns, but at least 30 |
| TuiView.TruncateBytes | internal/interactive/tui.go:655-663 | byte-wise truncation: a short string is kept; a long one is cut to maxLen bytes, ending in "..." when maxLen exceeds 3 |
| TuiView.TruncateBytesAscii | internal/interactive/tui.go:655-663 | on ASCII text the byte cut agrees with the table's rune cut |
| TuiView.FormatLabels | internal/interactive/tui.go:647-653 | no labels give "-"; otherwise the comma-joined labels cut to the byte budget |
| TuiView.FormatLabelsAgreesWithTable | internal/interactive/tui.go:647-653 | on ASCII labels the list's labels cell at width 30 is the table's |
| TuiView.LineCells | internal/interactive/tui.go:446-467 | a list line has eight cells: repo within 20 bytes, bot and version within 12, labels within 15 when there are labels, and the title cut to exactly the smaller of its byte length and the title width |
| TuiWorld.Next | internal/interactive/tui.go:78-298 | delivering an event moves the screen as `Update` says and counts the command it starts as outstanding |
| TuiWorld.StartInv | internal/interactive/tui.go:690-703 | at the start nothing is outstanding and every flag is down |
| TuiWorld.NextInv | internal/interactive/tui.go:78-298 | whatever order results arrive in, at most one merge and one rebase are outstanding, each exactly while its flag is up, and a raised refresh flag means some refresh is outstanding |
| TuiWorld.RefreshStep | internal/interactive/tui.go:196-203 | "r" in browse mode with nothing merging or refreshing starts one refresh and changes nothing else |
| TuiWorld.OfferStep | internal/interactive/tui.go:249-261 | "enter" in browse mode offers the row under the cursor as a merge and changes nothing else |
| TuiWorld.ConfirmStep | internal/interactive/tui.go:221-240 | "y" on a merge offer starts one merge and keeps the lists and cursor |
| TuiWorld.DownStep | internal/interactive/tui.go:278-281 | "j" in browse mode moves down a row and changes nothing else |
| TuiWorld.MergedStep | internal/interactive/tui.go:85-112 | a successful merge result starts one more refresh; it removes the row under the cursor from both lists when they are separate arrays, and on the shared array of the empty query it removes the row from the filtered list and leaves the shifted array as the other list |
| TuiWorld.DoubleRefresh | internal/interactive/tui.go:108-203 | pressing "r" and then merging leaves two refreshes outstanding, because the merge result starts one without looking at `refreshing` |
| TuiWorld.MergeRemovesRowAtArrival | internal/interactive/tui.go:85-116 | confirming the first of two pull requests and moving down while the merge runs removes the second one, and the merged one stays listed |
| UpdatePr.LineEnd | internal/api/update_pr.go:86 | `$` in multi-line mode: the first newline at or after the position, or the end |
| UpdatePr.MatchAt | internal/api/update_pr.go:86 | the scanner's match at a line start holds a space between '[' and ']' after it and ends at the end of a line |
| UpdatePr.CommentEnd | internal/api/update_pr.go:86 | a comment found at a position spans `<!--`, no '>' and `-->` |
| UpdatePr.CommentEndExact | internal/api/update_pr.go:86 | every `<!--[^>]*-->` at a position is the one found, because `[^>]` cannot pass the first '>' |
| UpdatePr.RebaseInContains | internal/api/update_pr.go:86 | the word test used by the pattern is `strings.Contains` of "rebase" in the slice |
| UpdatePr.BoxAtComplete | internal/api/update_pr.go:86 | any way `\s*-\s*\[\s\]` matches at a position has its '[' where the box scanner puts it |
| UpdatePr.TailEndComplete | internal/api/update_pr.go:86 | any reading of the tail after the box is found; a reading through the comment ends where the scanner says |
| UpdatePr.MatchAtSound | internal/api/update_pr.go:86 | what the scanner reports at a line start is a match of the pattern there, with the same box and end |
| UpdatePr.MatchAtComplete | internal/api/update_pr.go:86 | every match of the pattern at a line start is found with the same box, and with the same end when it goes through the comment |
| UpdatePr.TailEndPlain | internal/api/update_pr.go:86 | a reading of the tail that skips the comment is the one found, with its end, when no reading goes through a comment |
| UpdatePr.MatchAtPlainEnd | internal/api/update_pr.go:86 | a match that skips the comment, when no reading after its box goes through one, is the scanner's match with the same box and end |
| UpdatePr.MatchAtIff | internal/api/update_pr.go:86 | at a line start the scanner succeeds iff the pattern matches there |
| UpdatePr.Matcher | internal/api/update_pr.go:86 | every match the scanner reports has a box, between '[' and ']', after its start and ends after the box, inside the body |
| UpdatePr.FindMatch | internal/api/update_pr.go:88 | the leftmost line start where the pattern matches, none before it; none at all when it finds nothing |
| UpdatePr.Boxes | internal/api/update_pr.go:93 | the boxes `ReplaceAllString` rewrites lie after the search start, each between '[' and ']'; there are none iff nothing matches, and the first belongs to the leftmost match |
| UpdatePr.Hits | internal/api/update_pr.go:93 | the matches `ReplaceAllString` visits: the first is the leftmost, each next one is the leftmost from the previous match's end, and nothing matches after the last |
| UpdatePr.BoxesOfHits | internal/api/update_pr.go:93 | the boxes rewritten are the boxes of those successive matches, one each, in order |
| UpdatePr.TicksEveryMatch | internal/api/update_pr.go:93 | the rewritten body has 'x' in the box of every successive match, and every changed character is one of those boxes |
| UpdatePr.Tick | internal/api/update_pr.go:93 | the body with exactly the listed boxes replaced by 'x', same length |
| UpdatePr.CheckRenovateRebaseCheckbox | internal/api/update_pr.go:80-96 | fails with "not found" iff the scanner matches at no line start; otherwise the body keeps its length, only spaces between '[' and ']' change, each to 'x', and at least one does |
| UpdatePr.CheckboxFoundIff | internal/api/update_pr.go:86-90 | the rewrite fails iff the pattern, as `CheckboxShape` states it, matches at no position of the body |
| UpdatePr.FirstBoxLeftmost | internal/api/update_pr.go:86-93 | after a successful rewrite the first box ticked is the box of a match of the pattern with no match at an earlier position |
| UpdatePr.TriggerRenovateRebase | internal/api/update_pr.go:99-111 | without a checkbox it fails and sends nothing; otherwise it sends exactly the rewritten body and fails iff the update does, wrapping its error |
| UpdatePr.TicksSingleLine | internal/api/update_pr.go:82-93 | a one-line "- [ ]…" that mentions "rebase", such as Renovate's rebase line, comes back as "- [x]…" |
| UpdatePr.SingleLineBoxes | internal/api/update_pr.go:86-93 | on one line "- [ ]…" mentioning "rebase" exactly the box at index 3 is rewritten |
| UpdatePr.NothingAtEnd | internal/api/update_pr.go:86 | no match starts at the end of a body that does not end in a newline |
| Utf8.EncodeRune | internal/interactive/tui.go:656 | a character is 1 to 4 bytes, one byte exactly when it is ASCII |
| Utf8.EncodeConcat | internal/interactive/tui.go:291 | the bytes of a concatenation are the concatenated bytes |
| Utf8.EncodeAscii | internal/interactive/tui.go:285 | ASCII text has one byte per character, equal to its code |
| Utf8.ByteLengthOne | internal/interactive/tui.go:290 | a key of byte length 1 is exactly one ASCII character |
| Utf8.DropLastByteAscii | internal/interactive/tui.go:285 | on ASCII text dropping the last byte drops the last character |
| Version.DependabotAt | internal/parser/version.go:13 | a scan at a position that succeeds is a match of "from X to Y" there, whose second capture ends at a space or the end |
| Version.DependabotComplete | internal/parser/version.go:13 | every match of the pattern at a position is found, with the same first capture and a second capture at least as long |
| Version.RenovateAt | internal/parser/version.go:16 | a scan that succeeds is a match of the arrow pattern, whose second capture ends where the class `[^`\s]` does |
| Version.RenovateComplete | internal/parser/version.go:16 | every match of the arrow pattern at a position is found, with the same first capture and a maximal second one |
| Version.DependabotAtIff | internal/parser/version.go:13 | the scanner succeeds at a position iff the pattern matches there |
| Version.RenovateAtIff | internal/parser/version.go:16 | the same for the arrow pattern |
| Version.Search | internal/parser/version.go:36 | the first position at or after the start where the scanner matches, none before it; none iff none anywhere |
| Version.DependabotSearchSpec | internal/parser/version.go:13-36 | `FindStringSubmatch` with the "from X to Y" pattern finds nothing iff it matches at no position; otherwise the match is leftmost and the second capture stops at a space or the end |
| Version.RenovateSearchSpec | internal/parser/version.go:16-36 | the same for the arrow pattern, with the second capture stopping at a backtick, space or the end |
| Version.ExtractVersion | internal/parser/version.go:21-44 | unknown bots give "-"; otherwise "-" iff the bot's pattern matches nowhere, and else the trimmed captures of the leftmost match, the second as long as it can be, rendered as "X -> Y" |
| Version.ExtractDependabot | internal/parser/version.go:13-43 | the "from X to Y" reading of a body: "-" iff no match, else the leftmost match's trimmed captures |
| Version.ExtractRenovate | internal/parser/version.go:16-43 | the arrow reading of a body: "-" iff no match, else the leftmost match's trimmed captures |
| Version.GitHubActionsLikeRenovate | internal/parser/version.go:29-31 | GitHub Actions bodies are read exactly as Renovate's |
| Version.DependabotSentence | internal/parser/version.go:13-41 | "from X to Y" with space-free versions gives "X -> Y" |
| Version.RenovateBackticked | internal/parser/version.go:16-41 | Renovate's cell "`X` -> `Y`" gives "X -> Y", without the backticks |
| Version.ExtractVersionAtStart | internal/parser/version.go:36-41 | a match at the start of the body is the one rendered |

## Left out

- The HTTP and GraphQL transport is left out: `MergePullRequest`, `UpdatePullRequestBody`, `CreateComment`, `CheckRateLimit`, the rate limiter's `Wait` and the GraphQL `Query`. Each one is a function-valued parameter, or a page outcome, giving its reply or error.
- The Bubble Tea runtime and lipgloss styles are left out: the styles, the frame text of `View`, the padding of `formatPRLine`, and the confirmation box. Only the window, width and truncation arithmetic is modelled.
- Goroutines are not modelled. Command results are inputs to `Update`, and `TuiWorld` lets them arrive in any order.
- `openBrowser` reads the environment and starts a process. Its outcome is a parameter of `Env`.
- Standard input and output are left out:
  - printing is not modelled;
  - the line prompt reads a finite list of lines;
  - every failed read counts as end of input, since the scanner error and EOF lead to the same branch.
- The global `flag` parsing is left out. `Config.ParseConfig` takes the parsed flag values.
- The creation time is the string `createdDate`, taken as already rendered as YYYY-MM-DD. In Go it is a `time.Time` (internal/api/graphql.go:23, internal/models/pr.go:24), and `FormattedDate` formats it with the time package (internal/models/pr.go:34-36). That formatting is not modelled.
- Prompt.DisplayPRDetails: the exact warning text is not modelled, only which notices appear.
- `SupportsRebase`, `UsesCheckboxRebase`, `RebaseCommand` and `StatusCheckRollupToSummary` are not defined in the modelled files. They are uninterpreted parameters (`Env`, `RebaseSupport`, `Settings`).
- Text.ToLower: lowers 'A'..'Z', U+0130 and U+212A, which are the only characters `unicode.ToLower` lowers to ASCII. Every other non-ASCII character is kept as it is, where Go may lower it to another non-ASCII character. So the model's and Go's results have the same ASCII characters in the same places. This is exact for the prompt's "y"/"yes"/"q" answers and for the ASCII bot patterns, since `strings.Contains` of an ASCII pattern only looks at ASCII bytes. It is approximate for filter text with non-ASCII letters.
- Bots.DetectBot: Go's map iteration order is a parameter, a permutation of the three bot types. Go picks a fresh order on every `range`, so `Client.Settings` gives one per pull request, keyed by repository and node. A login that names two bots may be detected as either.
- RepoOrder.SortByRepoName: an insertion sort stands in for the unstable `sort.Slice`. Its contract promises only what `sort.Slice` does: a permutation sorted by repository name. The order among equal names is not specified.
- Slice aliasing is modelled only where the program creates it. `filterPRs` and `RunTUI` make the two lists one slice when the query is empty, and the state's `shared` flag records that. A merge's in-place removals then act on one array (`RemoveMerged`). Entries of the array beyond the longer list are not kept, since no code reads them.
- The verbose debug output of the client and the prompt is not modelled.
- Client.FetchPullRequests: this one method models both `FetchOrgPullRequests` and `FetchUserPullRequests`, which differ only in the query type. `FetchRepositoryPullRequests` is one call of `ProcessRepo`.
- The source's types do not match their users. `PullRequest` (internal/models/pr.go:18-31) declares no `Labels` field. The GraphQL node `PullRequestNode` in internal/api/graphql.go has no `Labels`, `Mergeable` or `Commits`. Yet internal/api/client.go:226-260, internal/formatter/table.go:40-52 and internal/interactive/tui.go:451-484 use them. The model follows the users and gives the records those fields.
- The call sites in internal/app/app.go do not match the modelled signatures. `NewClient` is called with two arguments against five declared, and `RunTUI` with four against seven. The model follows the declarations in client.go and tui.go.
- The `refreshPRs` command is the abstract `Refresh` command. Its result comes back as an arbitrary refresh message, because it is the client fetch modelled in `Client`.
- Model fields that `Update` never reads are not in the state record: client, context, target, organisation flag, limit and verbose.
- The search query is a string of characters, while Go's `len(m.query)` counts bytes. The invariant keeps the query ASCII, so the two agree; `TuiInvariants.BackspaceDropsLastByte` states that.

=== FILE: bots.dfy ===
/** Bot detection from the author's login (internal/models/bot.go). */
module Bots {
  import opened Text

  /** A Go `BotType` is a plain string; "" means "not a bot". */
  type BotType = string

  const Renovate: BotType := "renovate"
  const Dependabot: BotType := "dependabot"
  const GitHubActions: BotType := "github-actions"

  predicate IsKnownBot(b: BotType) {
    b == Renovate || b == Dependabot || b == GitHubActions
  }

  /** The `BotLogins` table: the login patterns of each bot type. */
  function Logins(b: BotType): seq<string> {
    if b == Renovate then ["app/renovate", "renovate[bot]", "renovate"]
    else if b == Dependabot then ["app/dependabot", "dependabot[bot]", "dependabot"]
    else if b == GitHubActions then ["app/github-actions", "github-actions[bot]", "github-actions"]
    else []
  }

  /** The lower-cased author contains one of the (lower-cased) patterns of `b`. */
  predicate MatchesBot(author: string, b: BotType) {
    exists k :: 0 <= k < |Logins(b)| && Contains(ToLower(author), ToLower(Logins(b)[k]))
  }

  /** Go ranges over the `BotLogins` map in an order it picks at run time; the
      model takes that order as an input: each bot type exactly once. */
  predicate ValidOrder(order: seq<BotType>) {
    |order| == 3 && Renovate in order && Dependabot in order && GitHubActions in order
  }

  datatype Detection = Detection(botType: BotType, ok: bool)

  function DetectIn(order: seq<BotType>, author: string): (r: Detection)
    ensures !r.ok ==> r.botType == ""
    ensures !r.ok <==> forall k :: 0 <= k < |order| ==> !MatchesBot(author, order[k])
    ensures r.ok ==> r.botType in order && MatchesBot(author, r.botType)
    ensures r.ok ==> exists k :: 0 <= k < |order| && order[k] == r.botType
                                && forall j :: 0 <= j < k ==> !MatchesBot(author, order[j])
  {
    if |order| == 0 then Detection("", false)
    else if MatchesBot(author, order[0]) then Detection(order[0], true)
    else
      var r := DetectIn(order[1..], author);
      assert forall k :: 1 <= k < |order| ==> order[k] == order[1..][k - 1];
      assert r.ok ==> exists k :: 0 <= k < |order| && order[k] == r.botType
                                  && forall j :: 0 <= j < k ==> !MatchesBot(author, order[j]) by {
        if r.ok {
          var k :| 0 <= k < |order[1..]| && order[1..][k] == r.botType
                   && forall j :: 0 <= j < k ==> !MatchesBot(author, order[1..][j]);
          assert order[k + 1] == r.botType;
        }
      }
      r
  }

  /** `DetectBot`: the first bot type, in map order, one of whose login
      patterns occurs in the lower-cased author. */
  function DetectBot(order: seq<BotType>, author: string): (r: Detection)
    requires ValidOrder(order)
    ensures !r.ok ==> r.botType == ""
    ensures r.ok ==> IsKnownBot(r.botType)
  {
    DetectIn(order, ToLower(author))
  }

  /** The lower-cased author contains a bare bot name. */
  predicate NamesABot(author: string) {
    Contains(ToLower(author), Renovate) || Contains(ToLower(author), Dependabot)
    || Contains(ToLower(author), GitHubActions)
  }

  /** A detected type is one whose patterns the author matches, and there is
      a detection exactly when the lower-cased author contains a bare bot
      name, whatever the map order. */
  lemma DetectBotMeaning(order: seq<BotType>, author: string)
    requires ValidOrder(order)
    ensures var r := DetectBot(order, author);
      && (r.ok ==> MatchesBot(author, r.botType))
      && (r.ok <==> NamesABot(author))
  {
    MatchesBotIffName(author, Renovate);
    MatchesBotIffName(author, Dependabot);
    MatchesBotIffName(author, GitHubActions);
  }

  /** `DisplayName` is the type's own string. */
  function DisplayName(b: BotType): string {
    b
  }

  /** Each known bot's patterns are its name behind "app/", its name before
      "[bot]", and the bare name. */
  lemma LoginsShape(b: BotType)
    requires IsKnownBot(b)
    ensures Logins(b) == ["app/" + b, b + "[bot]", b]
  {
    if b == Renovate {
      assert "app/" + b == "app/renovate" && b + "[bot]" == "renovate[bot]";
    } else if b == Dependabot {
      assert "app/" + b == "app/dependabot" && b + "[bot]" == "dependabot[bot]";
    } else {
      assert "app/" + b == "app/github-actions" && b + "[bot]" == "github-actions[bot]";
    }
  }

  lemma LowerCaseLiteral(s: string)
    requires forall i :: 0 <= i < |s| ==> s[i] as int < 128 && !('A' <= s[i] <= 'Z')
    ensures ToLower(s) == s
  {
  }

  lemma LoginsAreLowerCase(b: BotType)
    ensures forall k :: 0 <= k < |Logins(b)| ==> ToLower(Logins(b)[k]) == Logins(b)[k]
  {
    if IsKnownBot(b) {
      LoginsShape(b);
      LowerCaseLiteral("app/");
      LowerCaseLiteral("[bot]");
      if b == Renovate {
        LowerCaseLiteral(Renovate);
      } else if b == Dependabot {
        LowerCaseLiteral(Dependabot);
      } else {
        LowerCaseLiteral(GitHubActions);
      }
      ToLowerConcat("app/", b);
      ToLowerConcat(b, "[bot]");
    }
  }

  /** Each login pattern of a known bot contains the bot's bare name. */
  lemma PatternContainsName(b: BotType, k: nat)
    requires IsKnownBot(b) && k < 3
    ensures k < |Logins(b)| && Contains(Logins(b)[k], b)
  {
    LoginsShape(b);
    if k == 0 {
      assert OccursAt("app/" + b, b, 4);
    } else if k == 1 {
      assert OccursAt(b + "[bot]", b, 0);
    } else {
      assert OccursAt(b, b, 0);
    }
  }

  /** Every login pattern contains the bot's bare name, and the bare name is
      itself a pattern, so matching some pattern is containing the name. */
  lemma MatchesBotIffName(author: string, b: BotType)
    requires IsKnownBot(b)
    ensures MatchesBot(author, b) <==> Contains(ToLower(author), b)
    ensures MatchesBot(ToLower(author), b) <==> MatchesBot(author, b)
  {
    var lowered := ToLower(author);
    ToLowerIdempotent(author);
    LoginsAreLowerCase(b);
    var logins := Logins(b);
    assert logins[2] == b;
    if MatchesBot(author, b) {
      var k :| 0 <= k < |logins| && Contains(lowered, ToLower(logins[k]));
      PatternContainsName(b, k);
      ContainsTransitive(lowered, logins[k], b);
    }
    if Contains(lowered, b) {
      assert Contains(lowered, ToLower(logins[2]));
    }
  }

  /** The set of answers `DetectBot` may give for `author` over all map orders. */
  predicate IsDetection(author: string, d: Detection) {
    if d.ok then IsKnownBot(d.botType) && MatchesBot(author, d.botType)
    else d.botType == "" && !MatchesBot(author, Renovate) && !MatchesBot(author, Dependabot)
         && !MatchesBot(author, GitHubActions)
  }

  /** Whatever the map order, the answer is an allowed one ... */
  lemma DetectBotSound(order: seq<BotType>, author: string)
    requires ValidOrder(order)
    ensures IsDetection(author, DetectBot(order, author))
  {
    var r := DetectBot(order, author);
    MatchesBotIffName(author, Renovate);
    MatchesBotIffName(author, Dependabot);
    MatchesBotIffName(author, GitHubActions);
  }

  /** ... and every allowed answer is produced by some map order. */
  lemma DetectBotComplete(author: string, d: Detection)
    requires IsDetection(author, d)
    ensures exists order :: ValidOrder(order) && DetectBot(order, author) == d
  {
    MatchesBotIffName(author, Renovate);
    MatchesBotIffName(author, Dependabot);
    MatchesBotIffName(author, GitHubActions);
    var order: seq<BotType>;
    if d.ok && d.botType == Dependabot {
      order := [Dependabot, Renovate, GitHubActions];
    } else if d.ok && d.botType == GitHubActions {
      order := [GitHubActions, Renovate, Dependabot];
    } else {
      order := [Renovate, Dependabot, GitHubActions];
    }
    assert ValidOrder(order);
    var lowered := ToLower(author);
    assert MatchesBot(lowered, order[0]) <==> MatchesBot(author, order[0]);
    assert DetectBot(order, author) == d;
  }

  /** Go lowers 'İ' (U+0130) to 'i', so an author spelled with it in place
      of the 'i' of "github-actions" is still detected, under every order. */
  lemma DottedCapitalIDetected(order: seq<BotType>)
    requires ValidOrder(order)
    ensures DetectBot(order, "g\U{0130}thub-actions[bot]").ok
  {
    var author := "g\U{0130}thub-actions[bot]";
    assert ToLower(author)[..|GitHubActions|] == GitHubActions;
    assert OccursAt(ToLower(author), GitHubActions, 0);
    DetectBotMeaning(order, author);
  }

  /** Detection ignores letter case. */
  lemma DetectBotCaseInsensitive(order: seq<BotType>, author: string)
    requires ValidOrder(order)
    ensures DetectBot(order, ToLower(author)) == DetectBot(order, author)
  {
    ToLowerIdempotent(author);
  }

  /** A detected bot's display name occurs in the lower-cased login, which is
      why searching the name finds the bot's pull requests. */
  lemma DisplayNameOfDetection(order: seq<BotType>, author: string)
    requires ValidOrder(order)
    requires DetectBot(order, author).ok
    ensures Contains(ToLower(author), DisplayName(DetectBot(order, author).botType))
  {
    var b := DetectBot(order, author).botType;
    MatchesBotIffName(author, b);
  }
}

=== FILE: checks.dfy ===
/** CI status aggregation (internal/models/checkrun.go). */
module Checks {

  datatype CheckStatus = StatusSuccess | StatusFailure | StatusPending | StatusNone {
    /** The string value of the Go constant, as shown in the tables. */
    function Symbol(): string {
      match this
      case StatusSuccess => "✅"
      case StatusFailure => "❌"
      case StatusPending => "⏳"
      case StatusNone => "-"
    }
  }

  datatype CheckSummary = CheckSummary(status: CheckStatus, total: int)

  /** One check run: `status` is queued, in_progress or completed;
      `conclusion` only means something once the run is completed. */
  datatype CheckRun = CheckRun(name: string, status: string, conclusion: string)

  predicate IsCompleted(c: CheckRun) {
    c.status == "completed"
  }

  predicate IsPassingConclusion(conclusion: string) {
    conclusion == "success" || conclusion == "neutral" || conclusion == "skipped"
  }

  /** A completed run with any other conclusion (failure, cancelled,
      timed_out, action_required, or anything unrecognised). */
  predicate IsFailed(c: CheckRun) {
    IsCompleted(c) && !IsPassingConclusion(c.conclusion)
  }

  predicate AnyFailed(checks: seq<CheckRun>) {
    exists i :: 0 <= i < |checks| && IsFailed(checks[i])
  }

  predicate AnyIncomplete(checks: seq<CheckRun>) {
    exists i :: 0 <= i < |checks| && !IsCompleted(checks[i])
  }

  /** `AggregateCheckStatus`: no runs gives None/0; otherwise the total is the
      number of runs and the status is Failure if any completed run failed,
      else Pending if any run is unfinished, else Success. */
  method AggregateCheckStatus(checks: seq<CheckRun>) returns (r: CheckSummary)
    ensures |checks| == 0 ==> r == CheckSummary(StatusNone, 0)
    ensures |checks| > 0 ==> r.total == |checks|
    ensures |checks| > 0 ==> (r.status == StatusFailure <==> AnyFailed(checks))
    ensures |checks| > 0 ==> (r.status == StatusPending <==> !AnyFailed(checks) && AnyIncomplete(checks))
    ensures |checks| > 0 ==> (r.status == StatusSuccess <==> !AnyFailed(checks) && !AnyIncomplete(checks))
    ensures r.status != StatusNone <==> |checks| > 0
  {
    if |checks| == 0 {
      return CheckSummary(StatusNone, 0);
    }
    var hasFailure := false;
    var hasPending := false;
    var i := 0;
    while i < |checks|
      invariant 0 <= i <= |checks|
      invariant hasFailure <==> AnyFailed(checks[..i])
      invariant hasPending <==> AnyIncomplete(checks[..i])
    {
      assert checks[..i + 1] == checks[..i] + [checks[i]];
      if checks[i].status != "completed" {
        hasPending := true;
        i := i + 1;
        continue;
      }
      var conclusion := checks[i].conclusion;
      if !(conclusion == "success" || conclusion == "neutral" || conclusion == "skipped") {
        hasFailure := true;
      }
      i := i + 1;
    }
    assert checks[..i] == checks;
    var status := StatusSuccess;
    if hasFailure {
      status := StatusFailure;
    } else if hasPending {
      status := StatusPending;
    }
    return CheckSummary(status, |checks|);
  }

  /** Two run lists that agree on every status, and on the conclusion of every
      completed run, get the same verdict: an unfinished run's conclusion is
      never looked at. */
  lemma IncompleteConclusionIgnored(a: seq<CheckRun>, b: seq<CheckRun>)
    requires |a| == |b|
    requires forall i :: 0 <= i < |a| ==> a[i].status == b[i].status
    requires forall i :: 0 <= i < |a| && IsCompleted(a[i]) ==> a[i].conclusion == b[i].conclusion
    ensures AnyFailed(a) <==> AnyFailed(b)
    ensures AnyIncomplete(a) <==> AnyIncomplete(b)
  {
    if AnyFailed(a) {
      var i :| 0 <= i < |a| && IsFailed(a[i]);
      assert IsFailed(b[i]);
    }
    if AnyFailed(b) {
      var i :| 0 <= i < |b| && IsFailed(b[i]);
      assert IsFailed(a[i]);
    }
  }
}

=== FILE: client.dfy ===
/** The pull-request fetch of the API client (internal/api/client.go).

    The server is a transcript: the answers it gives to the successive page
    requests, a rate-limiter or query failure ending the walk. The GraphQL
    node types are reduced to the fields the client reads. */
module Client {
  import opened Text
  import opened Outcomes
  import opened Bots
  import opened Checks
  import opened PullRequests
  import Version

  datatype CommitNode = CommitNode(statusCheckRollup: Option<string>)

  datatype PullRequestNode = PullRequestNode(
    number: int, title: string, body: string, createdDate: string, url: string,
    headRefOid: string, authorLogin: string, commits: seq<CommitNode>,
    mergeable: string, labels: seq<string>)

  datatype RepositoryNode = RepositoryNode(nameWithOwner: string, pullRequests: seq<PullRequestNode>)

  /** One page request: the rate limiter refused, the query failed, or a page
      of repositories came back. */
  datatype PageOutcome =
    | RateLimited(limiterError: string)
    | QueryFailed(queryError: string)
    | Fetched(repos: seq<RepositoryNode>, hasNextPage: bool)

  /** What the client reads from its configuration.
      `botOrder(repo, node)` is the order in which the `BotLogins` map is
      ranged over when the author of `node` in repository `repo` is examined
      (Go picks a fresh order on every range, so two pull requests by the
      same login may see different orders), and `rollupToSummary` is
      `StatusCheckRollupToSummary`, whose definition is not part of this
      model. */
  datatype Settings = Settings(
    skipChecks: bool,
    excluded: set<string>,
    botOrder: (string, PullRequestNode) -> seq<BotType>,
    rollupToSummary: string -> CheckSummary)

  ghost predicate ValidSettings(c: Settings) {
    forall repo, node :: ValidOrder(c.botOrder(repo, node))
  }

  // ---------------------------------------------------------------------
  // NewClient's exclusion map

  /** The keys entry `e` of the exclusion list puts in the map. */
  function KeysOf(e: string, target: string): set<string> {
    if '/' in e then {e} else {target + "/" + e, e}
  }

  /** The keys of `NewClient`'s exclusion map: an entry with a '/' is used
      as is; a bare name is added both with the target as owner and bare;
      there are no other keys. */
  function ExcludeKeys(excluded: seq<string>, target: string): (r: set<string>)
    ensures forall e :: e in excluded ==> e in r
    ensures forall e :: e in excluded && '/' !in e ==> target + "/" + e in r
    ensures forall k :: k in r ==> exists e :: e in excluded && (k == e || ('/' !in e && k == target + "/" + e))
  {
    var r := set e, k | e in excluded && k in KeysOf(e, target) :: k;
    forall e | e in excluded
      ensures e in r && ('/' !in e ==> target + "/" + e in r)
    {
      assert e in KeysOf(e, target);
      if '/' !in e {
        assert target + "/" + e in KeysOf(e, target);
      }
    }
    r
  }

  // ---------------------------------------------------------------------
  // processPRsFromRepo

  /** The check summary of a pull request: the rollup's, unless checks are
      skipped, there is no commit, or the first commit has no rollup. */
  function SummaryOf(c: Settings, node: PullRequestNode): (r: CheckSummary)
    ensures c.skipChecks || |node.commits| == 0 || node.commits[0].statusCheckRollup.None? ==>
              r == CheckSummary(StatusNone, 0)
    ensures !c.skipChecks && |node.commits| > 0 && node.commits[0].statusCheckRollup.Some? ==>
              r == c.rollupToSummary(node.commits[0].statusCheckRollup.value)
  {
    if !c.skipChecks && |node.commits| > 0 && node.commits[0].statusCheckRollup.Some? then
      c.rollupToSummary(node.commits[0].statusCheckRollup.value)
    else CheckSummary(StatusNone, 0)
  }

  function Detect(c: Settings, repo: string, node: PullRequestNode): Detection
    requires ValidSettings(c)
  {
    DetectBot(c.botOrder(repo, node), node.authorLogin)
  }

  function Convert(c: Settings, repoName: string, node: PullRequestNode, bot: BotType): PullRequest {
    PullRequest(repoName, node.number, node.title, node.body, node.authorLogin, node.createdDate,
                node.url, node.headRefOid, bot, SummaryOf(c, node),
                Version.ExtractVersion(node.body, bot), node.mergeable, node.labels)
  }

  /** The test `processPRsFromRepo` applies to each node: is its author
      detected as a bot? */
  function BotAuthor(c: Settings, repo: string): (keep: PullRequestNode -> bool)
    requires ValidSettings(c)
    ensures forall n :: keep(n) == Detect(c, repo, n).ok
  {
    n => Detect(c, repo, n).ok
  }

  /** The nodes that pass `keep`, in order. */
  function Kept(nodes: seq<PullRequestNode>, keep: PullRequestNode -> bool): (r: seq<PullRequestNode>)
    ensures |r| <= |nodes|
  {
    if |nodes| == 0 then []
    else (if keep(nodes[0]) then [nodes[0]] else []) + Kept(nodes[1..], keep)
  }

  /** The kept nodes are exactly the nodes that pass the test. */
  lemma {:induction false} KeptExact(nodes: seq<PullRequestNode>, keep: PullRequestNode -> bool)
    ensures forall k :: 0 <= k < |Kept(nodes, keep)| ==> Kept(nodes, keep)[k] in nodes && keep(Kept(nodes, keep)[k])
    ensures forall n :: n in nodes && keep(n) ==> n in Kept(nodes, keep)
  {
    if |nodes| > 0 {
      KeptExact(nodes[1..], keep);
      var r := Kept(nodes, keep);
      var head := if keep(nodes[0]) then [nodes[0]] else [];
      assert r == head + Kept(nodes[1..], keep);
      forall k | 0 <= k < |r|
        ensures r[k] in nodes && keep(r[k])
      {
        if k >= |head| {
          assert r[k] == Kept(nodes[1..], keep)[k - |head|];
          assert r[k] in nodes[1..];
        }
      }
      forall n | n in nodes && keep(n)
        ensures n in r
      {
        if n != nodes[0] {
          assert n in nodes[1..];
        }
      }
    }
  }

  /** `processPRsFromRepo`: the bot-authored pull requests of the page, in
      order, converted to the model record. */
  function ProcessRepo(c: Settings, repo: RepositoryNode): (r: seq<PullRequest>)
    requires ValidSettings(c)
    ensures |r| == |Kept(repo.pullRequests, BotAuthor(c, repo.nameWithOwner))|
  {
    var bots := Kept(repo.pullRequests, BotAuthor(c, repo.nameWithOwner));
    seq(|bots|, k requires 0 <= k < |bots| =>
      Convert(c, repo.nameWithOwner, bots[k], Detect(c, repo.nameWithOwner, bots[k]).botType))
  }

  /** Each kept pull request comes from a bot-authored node of the page; it
      is filed under the repository, carries a bot type whose login pattern
      its author matches, the version read from its body with that bot's
      pattern, and the check summary of its node. */
  lemma ProcessRepoFields(c: Settings, repo: RepositoryNode)
    requires ValidSettings(c)
    ensures var r := ProcessRepo(c, repo);
      forall k :: 0 <= k < |r| ==>
        var node := Kept(repo.pullRequests, BotAuthor(c, repo.nameWithOwner))[k];
        && node in repo.pullRequests
        && r[k].repository == repo.nameWithOwner
        && r[k].number == node.number && r[k].body == node.body && r[k].author == node.authorLogin
        && IsKnownBot(r[k].botType) && MatchesBot(node.authorLogin, r[k].botType)
        && r[k].version == Version.ExtractVersion(r[k].body, r[k].botType)
        && r[k].checkSummary == SummaryOf(c, node)
  {
    var name := repo.nameWithOwner;
    var keep := BotAuthor(c, name);
    var bots := Kept(repo.pullRequests, keep);
    KeptExact(repo.pullRequests, keep);
    forall k | 0 <= k < |bots|
      ensures Detect(c, name, bots[k]).ok
      ensures MatchesBot(bots[k].authorLogin, Detect(c, name, bots[k]).botType)
    {
      assert keep(bots[k]);
      DetectBotMeaning(c.botOrder(name, bots[k]), bots[k].authorLogin);
    }
  }

  /** Every bot-authored node of the page yields a pull request. */
  lemma ProcessRepoKeepsBots(c: Settings, repo: RepositoryNode, n: PullRequestNode)
    requires ValidSettings(c) && n in repo.pullRequests && Detect(c, repo.nameWithOwner, n).ok
    ensures exists k :: 0 <= k < |ProcessRepo(c, repo)| && Kept(repo.pullRequests, BotAuthor(c, repo.nameWithOwner))[k] == n
  {
    var keep := BotAuthor(c, repo.nameWithOwner);
    var bots := Kept(repo.pullRequests, keep);
    KeptExact(repo.pullRequests, keep);
    assert keep(n);
    assert n in bots;
  }

  /** A page whose authors name no bot contributes nothing, whatever order
      each detection ranges over the bot types in. */
  lemma {:induction false} NoBotsNoPRs(c: Settings, name: string, nodes: seq<PullRequestNode>)
    requires ValidSettings(c)
    requires forall n :: n in nodes ==> !NamesABot(n.authorLogin)
    ensures Kept(nodes, BotAuthor(c, name)) == []
    ensures ProcessRepo(c, RepositoryNode(name, nodes)) == []
  {
    if |nodes| > 0 {
      assert nodes[0] in nodes;
      DetectBotMeaning(c.botOrder(name, nodes[0]), nodes[0].authorLogin);
      assert forall n :: n in nodes[1..] ==> n in nodes;
      NoBotsNoPRs(c, name, nodes[1..]);
    }
  }

  // ---------------------------------------------------------------------
  // The page walk of FetchOrgPullRequests / FetchUserPullRequests

  /** The server's answers, in the order the walk asks for them: every page
      but the last has a next page, and the last is a failure or has none. */
  predicate Transcript(pages: seq<PageOutcome>) {
    && |pages| > 0
    && (forall i :: 0 <= i < |pages| - 1 ==> pages[i].Fetched? && pages[i].hasNextPage)
    && (pages[|pages| - 1].Fetched? ==> !pages[|pages| - 1].hasNextPage)
  }

  /** All repositories of the pages, in order. */
  function ReposOf(pages: seq<PageOutcome>): seq<RepositoryNode> {
    if |pages| == 0 then []
    else (if pages[0].Fetched? then pages[0].repos else []) + ReposOf(pages[1..])
  }

  /** The repository loop's two ingredients: the exclusion map and
      `processPRsFromRepo`. */
  datatype Walk = Walk(excluded: set<string>, process: RepositoryNode -> seq<PullRequest>)

  /** The walk the client performs with its configuration. */
  function WalkOf(c: Settings): (w: Walk)
    requires ValidSettings(c)
    ensures w.excluded == c.excluded
    ensures forall repo :: w.process(repo) == ProcessRepo(c, repo)
  {
    Walk(c.excluded, repo => ProcessRepo(c, repo))
  }

  /** What one repository contributes: nothing when it is excluded. */
  function RepoPRs(w: Walk, repo: RepositoryNode): seq<PullRequest> {
    if repo.nameWithOwner in w.excluded then [] else w.process(repo)
  }

  /** With the exclusion map `NewClient` builds from `entries` and the
      target, a repository is skipped exactly when an entry names it, either
      verbatim or, for an entry without '/', with the target as owner;
      every other repository is processed. */
  lemma WalkSkipsEntries(c: Settings, entries: seq<string>, target: string, repo: RepositoryNode)
    requires ValidSettings(c) && c.excluded == ExcludeKeys(entries, target)
    ensures RepoPRs(WalkOf(c), repo) ==
      if exists e :: e in entries && (repo.nameWithOwner == e || ('/' !in e && repo.nameWithOwner == target + "/" + e))
      then [] else ProcessRepo(c, repo)
  {
  }

  /** The pull requests of the repositories not excluded, in order. */
  function Collect(w: Walk, repos: seq<RepositoryNode>): seq<PullRequest> {
    if |repos| == 0 then [] else RepoPRs(w, repos[0]) + Collect(w, repos[1..])
  }

  lemma {:induction false} CollectAppend(w: Walk, a: seq<RepositoryNode>, b: seq<RepositoryNode>)
    ensures Collect(w, a + b) == Collect(w, a) + Collect(w, b)
  {
    if |a| == 0 {
      assert a + b == b;
    } else {
      assert (a + b)[1..] == a[1..] + b;
      CollectAppend(w, a[1..], b);
    }
  }

  /** The failure that ends the transcript, as the client reports it. */
  function FailureOf(pages: seq<PageOutcome>): Option<string>
    requires |pages| > 0
  {
    match pages[|pages| - 1]
    case RateLimited(e) => Some("rate limiter error: " + e)
    case QueryFailed(e) => Some("GraphQL query failed: " + e)
    case Fetched(_, _) => None
  }

  /** The reference answer: with a positive limit that the collected pull
      requests reach, their first `limit`; else the failure, if the
      transcript ends in one; else everything. */
  function Expected(w: Walk, limit: int, pages: seq<PageOutcome>): Result<seq<PullRequest>>
    requires |pages| > 0
  {
    var all := Collect(w, ReposOf(pages));
    if limit > 0 && |all| >= limit then Success(all[..limit])
    else if FailureOf(pages).Some? then Failure(FailureOf(pages).value)
    else Success(all)
  }

  /** The repository loop of one page: skip excluded repositories, append
      the processed pull requests, and stop as soon as a positive limit is
      reached. `done` are the repositories handled before this page. */
  method WalkRepos(w: Walk, limit: int, ghost done: seq<RepositoryNode>, all: seq<PullRequest>,
                   repos: seq<RepositoryNode>)
      returns (all': seq<PullRequest>, reached: bool)
    requires all == Collect(w, done) && (limit > 0 ==> |all| < limit)
    ensures !reached ==> all' == Collect(w, done + repos) && (limit > 0 ==> |all'| < limit)
    ensures reached ==> 0 < limit <= |all'| && limit <= |Collect(w, done + repos)|
                        && Collect(w, done + repos)[..limit] == all'[..limit]
  {
    all' := all;
    var j := 0;
    assert done + repos[..0] == done;
    while j < |repos|
      invariant 0 <= j <= |repos|
      invariant all' == Collect(w, done + repos[..j])
      invariant limit > 0 ==> |all'| < limit
    {
      var repo := repos[j];
      CollectStep(w, done, repos, j);
      if repo.nameWithOwner in w.excluded {
        j := j + 1;
        continue;
      }
      all' := all' + w.process(repo);
      if limit > 0 && |all'| >= limit {
        CollectReached(w, done, repos, j, limit);
        return all', true;
      }
      j := j + 1;
    }
    assert repos[..j] == repos;
    return all', false;
  }

  lemma CollectStep(w: Walk, done: seq<RepositoryNode>, repos: seq<RepositoryNode>, j: nat)
    requires j < |repos|
    ensures Collect(w, done + repos[..j + 1]) == Collect(w, done + repos[..j]) + RepoPRs(w, repos[j])
  {
    SplitBefore(done, repos, j);
    CollectAppend(w, done + repos[..j], [repos[j]]);
    CollectSingle(w, repos[j]);
  }

  lemma SplitBefore(done: seq<RepositoryNode>, repos: seq<RepositoryNode>, j: nat)
    requires j < |repos|
    ensures done + repos[..j + 1] == (done + repos[..j]) + [repos[j]]
  {
    assert repos[..j + 1] == repos[..j] + [repos[j]];
  }

  lemma CollectSingle(w: Walk, repo: RepositoryNode)
    ensures Collect(w, [repo]) == RepoPRs(w, repo)
  {
    assert [repo][1..] == [];
  }

  lemma CollectReached(w: Walk, done: seq<RepositoryNode>, repos: seq<RepositoryNode>, j: nat, limit: nat)
    requires j < |repos| && limit <= |Collect(w, done + repos[..j + 1])|
    ensures limit <= |Collect(w, done + repos)|
    ensures Collect(w, done + repos)[..limit] == Collect(w, done + repos[..j + 1])[..limit]
  {
    SplitAfter(done, repos, j);
    CollectPrefix(w, done + repos[..j + 1], repos[j + 1..], limit);
  }

  lemma SplitAfter(done: seq<RepositoryNode>, repos: seq<RepositoryNode>, j: nat)
    requires j < |repos|
    ensures done + repos == (done + repos[..j + 1]) + repos[j + 1..]
  {
    assert repos == repos[..j + 1] + repos[j + 1..];
  }

  /** Repositories after the limit is reached do not change the first
      `limit` pull requests. */
  lemma CollectPrefix(w: Walk, a: seq<RepositoryNode>, b: seq<RepositoryNode>, limit: nat)
    requires limit <= |Collect(w, a)|
    ensures limit <= |Collect(w, a + b)| && Collect(w, a + b)[..limit] == Collect(w, a)[..limit]
  {
    CollectAppend(w, a, b);
    PrefixOfConcat(Collect(w, a), Collect(w, b), limit);
  }

  lemma PrefixOfConcat(x: seq<PullRequest>, y: seq<PullRequest>, limit: nat)
    requires limit <= |x|
    ensures (x + y)[..limit] == x[..limit]
  {
  }

  /** Where the walk stands after one page: finished with a result, or
      going on to the next page with the pull requests collected so far. */
  datatype Visit = Finished(result: Result<seq<PullRequest>>) | NextPageWith(all: seq<PullRequest>)

  /** One iteration of the page loop: on a failed request report it; else
      walk the page's repositories; stop at the limit or on the last page. */
  method VisitPage(w: Walk, limit: int, pages: seq<PageOutcome>, i: nat, all: seq<PullRequest>)
      returns (v: Visit)
    requires Transcript(pages) && i < |pages|
    requires all == Collect(w, ReposOf(pages[..i])) && (limit > 0 ==> |all| < limit)
    ensures v.Finished? ==> v.result == Expected(w, limit, pages)
    ensures v.Finished? && limit > 0 && v.result.Success? ==> |v.result.value| <= limit
    ensures v.Finished? && limit <= 0 ==> i == |pages| - 1
    ensures v.NextPageWith? ==> i < |pages| - 1 && v.all == Collect(w, ReposOf(pages[..i + 1]))
    ensures v.NextPageWith? ==> limit > 0 ==> |v.all| < limit
  {
    var page := pages[i];
    if !page.Fetched? {
      FailedPage(w, limit, pages, i);
      if page.RateLimited? {
        return Finished(Failure("rate limiter error: " + page.limiterError));
      }
      return Finished(Failure("GraphQL query failed: " + page.queryError));
    }
    var collected, reached := WalkRepos(w, limit, ReposOf(pages[..i]), all, page.repos);
    if reached {
      ReachedOnPage(w, limit, pages, i, collected);
      return Finished(Success(collected[..limit]));
    }
    if !page.hasNextPage {
      LastPage(w, limit, pages, i, collected);
      return Finished(Success(collected));
    }
    NextPage(pages, i);
    return NextPageWith(collected);
  }

  /** The walk as the client performs it: per page, wait for the rate
      limiter and query; walk the page's repositories; then follow the next
      page if there is one. `pagesRead` is the number of page requests made. */
  method FetchPullRequests(c: Settings, limit: int, pages: seq<PageOutcome>)
      returns (r: Result<seq<PullRequest>>, pagesRead: nat)
    requires ValidSettings(c) && Transcript(pages)
    ensures r == Expected(WalkOf(c), limit, pages)
    ensures 1 <= pagesRead <= |pages|
    ensures limit <= 0 ==> pagesRead == |pages|
    ensures limit > 0 && r.Success? ==> |r.value| <= limit
  {
    assert pages[..0] == [];
    r, pagesRead := FetchFrom(WalkOf(c), limit, pages, 0, []);
  }

  /** The page loop from page `i` on, `all` holding what the pages before it
      contributed. */
  method FetchFrom(w: Walk, limit: int, pages: seq<PageOutcome>, i: nat, all: seq<PullRequest>)
      returns (r: Result<seq<PullRequest>>, pagesRead: nat)
    requires Transcript(pages) && i < |pages|
    requires all == Collect(w, ReposOf(pages[..i])) && (limit > 0 ==> |all| < limit)
    ensures r == Expected(w, limit, pages)
    ensures i < pagesRead <= |pages|
    ensures limit <= 0 ==> pagesRead == |pages|
    ensures limit > 0 && r.Success? ==> |r.value| <= limit
    decreases |pages| - i
  {
    var v := VisitPage(w, limit, pages, i, all);
    match v
    case Finished(result) =>
      return result, i + 1;
    case NextPageWith(more) =>
      r, pagesRead := FetchFrom(w, limit, pages, i + 1, more);
  }

  /** A failed request ends the transcript, and nothing collected before it
      reaches the limit: the walk reports the failure. */
  lemma FailedPage(w: Walk, limit: int, pages: seq<PageOutcome>, i: nat)
    requires Transcript(pages) && i < |pages| && !pages[i].Fetched?
    requires limit > 0 ==> |Collect(w, ReposOf(pages[..i]))| < limit
    ensures i == |pages| - 1
    ensures Expected(w, limit, pages) == Failure(FailureOf(pages).value)
    ensures FailureOf(pages).value == if pages[i].RateLimited? then "rate limiter error: " + pages[i].limiterError
                                      else "GraphQL query failed: " + pages[i].queryError
  {
    assert i == |pages| - 1;
    ReposOfLast(pages);
    assert ReposOf(pages) == ReposOf(pages[..i]);
  }

  /** The limit reached on page `i` ends the walk with the first `limit`
      pull requests of the whole transcript. */
  lemma ReachedOnPage(w: Walk, limit: int, pages: seq<PageOutcome>, i: nat, all: seq<PullRequest>)
    requires i < |pages| && pages[i].Fetched?
    requires 0 < limit <= |all| && limit <= |Collect(w, ReposOf(pages[..i]) + pages[i].repos)|
    requires Collect(w, ReposOf(pages[..i]) + pages[i].repos)[..limit] == all[..limit]
    ensures Expected(w, limit, pages) == Success(all[..limit])
  {
    ReposOfSplit(pages, i);
    CollectPrefix(w, ReposOf(pages[..i]) + pages[i].repos, ReposOf(pages[i + 1..]), limit);
  }

  /** A page without a next page is the last one: the walk returns all it
      collected. */
  lemma LastPage(w: Walk, limit: int, pages: seq<PageOutcome>, i: nat, all: seq<PullRequest>)
    requires Transcript(pages) && i < |pages| && pages[i].Fetched? && !pages[i].hasNextPage
    requires all == Collect(w, ReposOf(pages[..i]) + pages[i].repos) && (limit > 0 ==> |all| < limit)
    ensures Expected(w, limit, pages) == Success(all)
  {
    assert i == |pages| - 1;
    ReposOfLast(pages);
  }

  /** The repositories of all pages but the last, then of the last. */
  lemma ReposOfLast(pages: seq<PageOutcome>)
    requires |pages| > 0
    ensures var last := pages[|pages| - 1];
      ReposOf(pages) == ReposOf(pages[..|pages| - 1]) + (if last.Fetched? then last.repos else [])
  {
    var i := |pages| - 1;
    ReposOfAppend(pages[..i], [pages[i]]);
    assert pages == pages[..i] + [pages[i]];
    assert [pages[i]][1..] == [];
  }

  lemma NextPage(pages: seq<PageOutcome>, i: nat)
    requires i < |pages| && pages[i].Fetched?
    ensures ReposOf(pages[..i + 1]) == ReposOf(pages[..i]) + pages[i].repos
  {
    ReposOfSplit(pages[..i + 1], i);
    assert pages[..i + 1][..i] == pages[..i];
    assert pages[..i + 1][i + 1..] == [];
  }

  /** The pages before `i`, page `i` itself, and the pages after it. */
  lemma ReposOfSplit(pages: seq<PageOutcome>, i: nat)
    requires i < |pages|
    ensures ReposOf(pages) == ReposOf(pages[..i]) + (if pages[i].Fetched? then pages[i].repos else [])
                              + ReposOf(pages[i + 1..])
  {
    assert pages == pages[..i] + pages[i..];
    ReposOfAppend(pages[..i], pages[i..]);
    ReposOfFirst(pages[i..]);
    assert pages[i..][1..] == pages[i + 1..];
  }

  lemma ReposOfFirst(pages: seq<PageOutcome>)
    requires |pages| > 0
    ensures ReposOf(pages) == (if pages[0].Fetched? then pages[0].repos else []) + ReposOf(pages[1..])
  {
  }

  lemma {:induction false} ReposOfAppend(a: seq<PageOutcome>, b: seq<PageOutcome>)
    ensures ReposOf(a + b) == ReposOf(a) + ReposOf(b)
  {
    if |a| == 0 {
      assert a + b == b;
    } else {
      assert (a + b)[1..] == a[1..] + b;
      ReposOfAppend(a[1..], b);
    }
  }
}

=== FILE: config.dfy ===
/** Validation of the command-line configuration (internal/app/config.go).
    Flag parsing itself is not modelled: the parsed flag values are inputs. */
module Config {
  import opened Outcomes

  /** The limit used when neither -limit nor -l is given. */
  const DefaultLimit := 50

  /** The flag values after parsing; `limit` is None when not given. */
  datatype Flags = Flags(org: string, user: string, verbose: bool, limit: Option<int>,
                         skipChecks: bool, interactive: bool)

  datatype Config = Config(target: string, isOrganization: bool, verbose: bool, limit: int,
                           skipChecks: bool, interactive: bool)

  function EffectiveLimit(f: Flags): int {
    if f.limit.Some? then f.limit.value else DefaultLimit
  }

  /** `ParseConfig` after `flag.Parse`: exactly one of org and user must be
      set, then the limit must not be negative; the org/user checks come
      first. */
  function ParseConfig(f: Flags): (r: Result<Config>)
    ensures f.org == "" && f.user == "" ==> r == Failure("either --org or --user must be specified")
    ensures f.org != "" && f.user != "" ==> r == Failure("cannot specify both --org and --user")
    ensures (f.org == "") != (f.user == "") && EffectiveLimit(f) < 0 ==> r == Failure("--limit must be >= 0")
    ensures r.Success? <==> (f.org == "") != (f.user == "") && EffectiveLimit(f) >= 0
    ensures r.Success? ==> (r.value.isOrganization <==> f.org != "")
    ensures r.Success? ==> r.value.target != "" && r.value.target in {f.org, f.user}
    ensures r.Success? ==> r.value.limit == EffectiveLimit(f) >= 0
    ensures r.Success? ==> r.value.verbose == f.verbose && r.value.skipChecks == f.skipChecks
                           && r.value.interactive == f.interactive
  {
    if f.org == "" && f.user == "" then Failure("either --org or --user must be specified")
    else if f.org != "" && f.user != "" then Failure("cannot specify both --org and --user")
    else if EffectiveLimit(f) < 0 then Failure("--limit must be >= 0")
    else if f.org != "" then
      Success(Config(f.org, true, f.verbose, EffectiveLimit(f), f.skipChecks, f.interactive))
    else
      Success(Config(f.user, false, f.verbose, EffectiveLimit(f), f.skipChecks, f.interactive))
  }

  /** Without a -limit flag the configuration asks for 50 pull requests. */
  lemma DefaultLimitApplies(f: Flags)
    requires f.limit.None? && (f.org == "") != (f.user == "")
    ensures ParseConfig(f).Success? && ParseConfig(f).value.limit == 50
  {
  }
}

=== FILE: merge_api.dfy ===
/** Splitting "owner/repo" before calling the merge endpoint
    (internal/api/merge.go). The HTTP call itself is not modelled. */
module MergeApi {
  import opened Text
  import opened Outcomes

  datatype OwnerRepo = OwnerRepo(owner: string, repo: string)

  /** `ParseRepository` returns owner, repo and an error; on error both
      names are empty. */
  datatype Parsed = Parsed(owner: string, repo: string, err: Option<string>)

  /** What `MergePullRequest` hands back, the HTTP exchange itself being out of
      the model: a transport or API error, or the decoded reply. */
  datatype MergeReply = MergeError(err: string) | Replied(merged: bool, message: string)

  /** The reply reports the pull request merged. */
  predicate Merged(reply: MergeReply) {
    reply.Replied? && reply.merged
  }

  /** Exactly two '/'-separated segments are accepted, empty ones included. */
  function ParseRepository(repository: string): (r: Parsed)
    ensures r.err.None? <==> Count(repository, '/') == 1
    ensures r.err.None? ==> r.owner + "/" + r.repo == repository
    ensures r.err.None? ==> '/' !in r.owner && '/' !in r.repo
    ensures r.err.Some? ==> r.owner == "" && r.repo == ""
    ensures r.err.Some? ==> r.err.value == "invalid repository format: " + repository + " (expected owner/repo)"
  {
    var parts := Split(repository, '/');
    if |parts| != 2 then
      Parsed("", "", Some("invalid repository format: " + repository + " (expected owner/repo)"))
    else
      assert Join(parts, "/") == parts[0] + "/" + Join(parts[1..], "/");
      assert parts[1..] == [parts[1]];
      Parsed(parts[0], parts[1], None)
  }

  /** Any owner and repo without '/' survive the round trip through
      "owner/repo". */
  lemma {:induction false} ParseRepositoryRoundTrip(owner: string, repo: string)
    requires '/' !in owner && '/' !in repo
    ensures ParseRepository(owner + "/" + repo) == Parsed(owner, repo, None)
  {
    var s := owner + "/" + repo;
    assert s == owner + ['/'] + repo;
    SplitHead(owner, '/', repo);
    SplitNone(repo, '/');
  }

  /** Empty segments are accepted: "/" and "a/" both parse. */
  lemma ParseRepositoryEmptySegments()
    ensures ParseRepository("/") == Parsed("", "", None)
    ensures ParseRepository("a/") == Parsed("a", "", None)
  {
    ParseRepositoryRoundTrip("", "");
    assert "" + "/" + "" == "/";
    ParseRepositoryRoundTrip("a", "");
    assert "a" + "/" + "" == "a/";
  }
}

=== FILE: outcomes.dfy ===
/** The two shapes Go results take in this program: a value that may be
    absent (a nil value, a failed regexp match) and a value paired with an
    `error`. */
module Outcomes {

  datatype Option<T> = None | Some(value: T)

  /** A Go `(T, error)` pair where exactly one side is meaningful. The error
      is kept as its `Error()` text. */
  datatype Result<T> = Success(value: T) | Failure(error: string) {
    predicate IsFailure() {
      Failure?
    }
  }
}

=== FILE: prompt.dfy ===
/** The line-oriented merge prompt (internal/interactive/prompt.go). Standard
    input is a finite list of lines; reading past the last one fails with EOF. */
module Prompt {
  import opened Text
  import opened Outcomes
  import opened Checks
  import opened PullRequests
  import MergeApi

  const MinInt64: int := -0x8000_0000_0000_0000
  const MaxInt64: int := 0x7FFF_FFFF_FFFF_FFFF

  predicate AllDigits(s: string) {
    forall k :: 0 <= k < |s| ==> IsDigit(s[k])
  }

  /** `strconv.Atoi` on a 64-bit platform: an optional '+' or '-' followed by
      at least one decimal digit, whose value fits in an int64. */
  function Atoi(s: string): (r: Option<int>)
    ensures r.Some? ==> MinInt64 <= r.value <= MaxInt64
    ensures r.Some? ==> |s| > 0 && (IsDigit(s[0]) || s[0] == '+' || s[0] == '-')
    ensures r.Some? ==> forall k :: 1 <= k < |s| ==> IsDigit(s[k])
    ensures r.Some? && |s| > 0 && s[0] == '-' ==> r.value <= 0
    ensures r.Some? && |s| > 0 && s[0] != '-' ==> r.value >= 0
  {
    var signed := |s| > 0 && (s[0] == '+' || s[0] == '-');
    var digits := if signed then s[1..] else s;
    if |digits| == 0 || !AllDigits(digits) then None
    else
      var v: int := if |s| > 0 && s[0] == '-' then 0 - DecimalValue(digits) as int else DecimalValue(digits);
      if MinInt64 <= v <= MaxInt64 then Some(v) else None
  }

  /** Every int64 reads back from its decimal rendering. */
  lemma AtoiIntToString(i: int)
    requires MinInt64 <= i <= MaxInt64
    ensures Atoi(IntToString(i)) == Some(i)
  {
    var s := IntToString(i);
    if i < 0 {
      assert s[1..] == NatToString(-i);
      DecimalValueOfNatToString(-i);
    } else {
      DecimalValueOfNatToString(i);
    }
  }

  /** A number that does not fit in an int64 is rejected, as Go's range error. */
  lemma AtoiOutOfRange(n: nat)
    requires n > MaxInt64
    ensures Atoi(NatToString(n)) == None
  {
    DecimalValueOfNatToString(n);
  }

  /** `parseSelection`: the trimmed input must be a number between 1 and
      `maxPRs`, so that `prs[n-1]` is in range. */
  function ParseSelection(input: string, maxPRs: int): (r: Result<int>)
    ensures r.Success? ==> 1 <= r.value <= maxPRs
    ensures TrimSpace(input) == "" ==> r == Failure("empty input")
    ensures TrimSpace(input) != "" && Atoi(TrimSpace(input)).None? ==>
      r == Failure("invalid number: " + TrimSpace(input))
    ensures r.Success? <==> Atoi(TrimSpace(input)).Some? && 1 <= Atoi(TrimSpace(input)).value <= maxPRs
    ensures r.Success? ==> Atoi(TrimSpace(input)) == Some(r.value)
    ensures Atoi(TrimSpace(input)).Some? && r.Failure? ==>
      r.error == "number must be between 1 and " + IntToString(maxPRs)
  {
    var t := TrimSpace(input);
    if t == "" then Failure("empty input")
    else match Atoi(t)
      case None => Failure("invalid number: " + t)
      case Some(n) =>
        if n < 1 || n > maxPRs then Failure("number must be between 1 and " + IntToString(maxPRs))
        else Success(n)
  }

  /** Surrounding spaces are trimmed off a word that neither starts nor ends
      with one. */
  lemma TrimSpacePadded(pre: string, t: string, post: string)
    requires AllSpace(pre) && AllSpace(post)
    requires |t| > 0 && !IsSpace(t[0]) && !IsSpace(t[|t| - 1])
    ensures TrimSpace(pre + t + post) == t
  {
    var s := pre + t + post;
    assert s[|pre|] == t[0];
    assert s[|pre| + |t| - 1] == t[|t| - 1];
    assert s[|pre|..|pre| + |t|] == t;
  }

  /** Typing any listed number, with or without surrounding spaces, selects it. */
  lemma ParseSelectionOfNumber(n: int, maxPRs: int, pre: string, post: string)
    requires 1 <= n <= maxPRs <= MaxInt64
    requires AllSpace(pre) && AllSpace(post)
    ensures ParseSelection(pre + IntToString(n) + post, maxPRs) == Success(n)
  {
    var t := IntToString(n);
    TrimSpacePadded(pre, t, post);
    AtoiIntToString(n);
  }

  /** `strings.ToLower(strings.TrimSpace(input)) == word`. */
  predicate AnswerIs(input: string, word: string) {
    ToLower(TrimSpace(input)) == word
  }

  /** The yes/no reading of `confirmMerge` and `askContinue`: a failed read
      (None) is a no. */
  predicate Confirmed(line: Option<string>) {
    line.Some? && (AnswerIs(line.value, "y") || AnswerIs(line.value, "yes"))
  }

  /** The answers counted as yes are exactly "y" and "yes" in any letter case,
      once surrounding spaces are trimmed. */
  lemma ConfirmedIff(line: string)
    ensures Confirmed(Some(line)) <==>
      var t := TrimSpace(line);
      (|t| == 1 && t[0] in "yY") || (|t| == 3 && t[0] in "yY" && t[1] in "eE" && t[2] in "sS")
  {
    var t := TrimSpace(line);
    var l := ToLower(t);
    if |t| == 1 {
      assert l == "y" <==> l[0] == 'y';
    }
    if |t| == 3 {
      assert l == "yes" <==> l[0] == 'y' && l[1] == 'e' && l[2] == 's';
    }
  }

  /** The quit test of `Run`: the trimmed line is "q" or "Q". */
  lemma QuitIff(line: string)
    ensures AnswerIs(line, "q") <==> TrimSpace(line) == "q" || TrimSpace(line) == "Q"
  {
    var t := TrimSpace(line);
    if |t| == 1 {
      assert ToLower(t) == "q" <==> ToLower(t)[0] == 'q';
    }
  }

  /** The warnings `displayPRDetails` prints after the details. */
  datatype Notice = UnknownMergeability | ChecksFailing | ChecksPending | NoChecks

  /** `displayPRDetails`: a conflicting pull request blocks the merge; an
      unknown mergeable state and any CI status other than success only warn. */
  function DisplayPRDetails(pr: PullRequest): (r: Result<seq<Notice>>)
    ensures r.Failure? <==> pr.mergeableState == Conflicting
    ensures r.Failure? ==> r.error == "PR has merge conflicts"
    ensures r.Success? ==> (UnknownMergeability in r.value <==> pr.mergeableState == UnknownState)
    ensures r.Success? ==> (ChecksFailing in r.value <==> pr.checkSummary.status == StatusFailure)
    ensures r.Success? ==> (ChecksPending in r.value <==> pr.checkSummary.status == StatusPending)
    ensures r.Success? ==> (NoChecks in r.value <==> pr.checkSummary.status == StatusNone)
    ensures r.Success? ==> |r.value| <= 2
  {
    if pr.mergeableState == Conflicting then Failure("PR has merge conflicts")
    else
      var unknown := if pr.mergeableState == UnknownState then [UnknownMergeability] else [];
      var ci := match pr.checkSummary.status
        case StatusFailure => [ChecksFailing]
        case StatusPending => [ChecksPending]
        case StatusNone => [NoChecks]
        case StatusSuccess => [];
      Success(unknown + ci)
  }

  /** `executeMerge`: the error it returns, if any. `merge` stands for the
      client's `MergePullRequest(owner, repo, number)`. */
  function ExecuteMerge(pr: PullRequest, merge: (string, string, int) -> MergeApi.MergeReply): (r: Option<string>)
    ensures MergeApi.ParseRepository(pr.repository).err.Some? ==> r == MergeApi.ParseRepository(pr.repository).err
    ensures r.None? <==> (MergeApi.ParseRepository(pr.repository).err.None? &&
      var p := MergeApi.ParseRepository(pr.repository);
      MergeApi.Merged(merge(p.owner, p.repo, pr.number)))
  {
    var p := MergeApi.ParseRepository(pr.repository);
    if p.err.Some? then p.err
    else match merge(p.owner, p.repo, pr.number)
      case MergeError(e) => Some(e)
      case Replied(merged, message) =>
        if !merged then Some("merge unsuccessful: " + message) else None
  }

  /** How a prompt session ends (the error `Run` returns, if any) and the pull
      requests it merged, in order. */
  datatype Session = Session(err: Option<string>, merged: seq<PullRequest>)

  function LineAt(lines: seq<string>, i: nat): Option<string> {
    if i < |lines| then Some(lines[i]) else None
  }

  function Drop(lines: seq<string>, n: nat): seq<string> {
    if n <= |lines| then lines[n..] else []
  }

  const ReadFailure := "failed to read input: EOF"

  /** How one round of the `Run` loop ends: input ran out, "q", back to the
      selection prompt with the lines still unread, or a merge after which
      the user stops or goes on with the lines still unread. */
  datatype Round =
    | EndOfInput
    | QuitRequested
    | Retry(rest: seq<string>)
    | MergedThenStop(pr: PullRequest)
    | MergedThenAgain(pr: PullRequest, rest: seq<string>)

  /** What the first line of a round asks for: quit, a pull request by its
      1-based number, or something else, which goes back to the prompt. */
  datatype Choice = Quit | Pick(n: int) | Invalid

  /** The quit test of `Run`, then `parseSelection`. */
  function ChoiceOf(line: string, maxPRs: int): (c: Choice)
    ensures c == Quit <==> AnswerIs(line, "q")
    ensures c.Pick? <==> !AnswerIs(line, "q") && ParseSelection(line, maxPRs).Success?
    ensures c.Pick? ==> ParseSelection(line, maxPRs) == Success(c.n) && 1 <= c.n <= maxPRs
  {
    if AnswerIs(line, "q") then Quit
    else match ParseSelection(line, maxPRs)
      case Failure(_) => Invalid
      case Success(n) => Pick(n)
  }

  /** The three steps of a round that look at the input or the client: the
      reading of the selection line, the reading of a yes/no answer, and the
      merge. `Run` binds them to `ChoiceOf`, `Confirmed` and `ExecuteMerge`. */
  datatype Steps = Steps(choose: string -> Choice, confirm: Option<string> -> bool,
                         execute: PullRequest -> Option<string>)

  /** Every number the selection step returns indexes the list, and a failed
      read is never a yes. */
  ghost predicate Valid(steps: Steps, count: int) {
    && (forall line :: steps.choose(line).Pick? ==> 1 <= steps.choose(line).n <= count)
    && !steps.confirm(None)
  }

  /** The rest of a round once `pr` is selected: show the details, read the
      confirmation and merge; after a merge read the answer to "Merge another
      PR?". Every error goes back to the prompt. */
  function Attempt(pr: PullRequest, lines: seq<string>, steps: Steps): (r: Round)
    requires |lines| > 0 && !steps.confirm(None)
    ensures !r.EndOfInput? && !r.QuitRequested?
    ensures r.Retry? ==> |r.rest| < |lines|
    ensures r.MergedThenStop? || r.MergedThenAgain? ==>
      && r.pr == pr && |lines| >= 2 && pr.mergeableState != Conflicting
      && steps.confirm(LineAt(lines, 1)) && steps.execute(pr).None?
    ensures r.MergedThenAgain? ==> steps.confirm(LineAt(lines, 2)) && r.rest == lines[3..]
  {
    if DisplayPRDetails(pr).Failure? then Retry(lines[1..])
    else if !steps.confirm(LineAt(lines, 1)) then Retry(Drop(lines, 2))
    else if steps.execute(pr).Some? then Retry(lines[2..])
    else if !steps.confirm(LineAt(lines, 2)) then MergedThenStop(pr)
    else MergedThenAgain(pr, lines[3..])
  }

  /** One round: read a selection and, after a valid one, attempt the merge. */
  function RoundOf(prs: seq<PullRequest>, lines: seq<string>, steps: Steps): (r: Round)
    requires Valid(steps, |prs|)
    ensures r == EndOfInput <==> |lines| == 0
    ensures r == QuitRequested <==> |lines| > 0 && steps.choose(lines[0]) == Quit
    ensures r.Retry? ==> |r.rest| < |lines|
    ensures r.MergedThenStop? || r.MergedThenAgain? ==>
      && |lines| >= 2 && steps.choose(lines[0]).Pick?
      && r.pr == prs[steps.choose(lines[0]).n - 1]
      && r.pr.mergeableState != Conflicting && steps.execute(r.pr).None?
      && steps.confirm(LineAt(lines, 1))
    ensures r.MergedThenAgain? ==> steps.confirm(LineAt(lines, 2)) && r.rest == lines[3..]
  {
    if |lines| == 0 then EndOfInput
    else match steps.choose(lines[0])
      case Quit => QuitRequested
      case Invalid => Retry(lines[1..])
      case Pick(n) => Attempt(prs[n - 1], lines, steps)
  }

  /** The rounds from here to the end of the session. */
  function Loop(prs: seq<PullRequest>, lines: seq<string>, steps: Steps): (r: Session)
    requires Valid(steps, |prs|)
    ensures 2 * |r.merged| <= |lines|
    ensures forall p :: p in r.merged ==> p in prs && p.mergeableState != Conflicting
    ensures forall p :: p in r.merged ==> steps.execute(p).None?
    ensures r.err.Some? ==> r.err.value == ReadFailure
    decreases |lines|
  {
    match RoundOf(prs, lines, steps)
    case EndOfInput => Session(Some(ReadFailure), [])
    case QuitRequested => Session(None, [])
    case Retry(rest) => Loop(prs, rest, steps)
    case MergedThenStop(pr) => Session(None, [pr])
    case MergedThenAgain(pr, rest) =>
      var more := Loop(prs, rest, steps);
      Session(more.err, [pr] + more.merged)
  }

  /** The steps of `Run` against the merge endpoint `merge`. */
  function PromptSteps(count: int, merge: (string, string, int) -> MergeApi.MergeReply): (steps: Steps)
    ensures Valid(steps, count)
  {
    Steps(line => ChoiceOf(line, count), Confirmed, pr => ExecuteMerge(pr, merge))
  }

  /** `Run`: an empty list is an error before anything is read; otherwise the
      session ends on "q", on a "no" to "Merge another PR?", or with an error
      when the input runs out. */
  function Run(prs: seq<PullRequest>, lines: seq<string>,
               merge: (string, string, int) -> MergeApi.MergeReply): (r: Session)
    ensures |prs| == 0 ==> r == Session(Some("no PRs available to merge"), [])
    ensures |prs| > 0 && |lines| > 0 && AnswerIs(lines[0], "q") ==> r == Session(None, [])
    ensures |prs| > 0 && |lines| == 0 ==> r == Session(Some(ReadFailure), [])
    ensures 2 * |r.merged| <= |lines|
    ensures forall p :: p in r.merged ==> p in prs && p.mergeableState != Conflicting
    ensures forall p :: p in r.merged ==> ExecuteMerge(p, merge).None?
  {
    if |prs| == 0 then Session(Some("no PRs available to merge"), [])
    else Loop(prs, lines, PromptSteps(|prs|, merge))
  }

  /** A line that parses as a selection is not the quit command. */
  lemma SelectionIsNotQuit(line: string, maxPRs: int)
    requires ParseSelection(line, maxPRs).Success?
    ensures !AnswerIs(line, "q")
  {
    QuitIff(line);
  }

  /** Selecting a listed, mergeable pull request, answering yes to the
      confirmation and no to "Merge another PR?" merges exactly that one and
      ends without error. */
  lemma SelectConfirmMerge(prs: seq<PullRequest>, n: int, yes: string, again: string,
                           merge: (string, string, int) -> MergeApi.MergeReply)
    requires 1 <= n <= |prs| <= MaxInt64
    requires prs[n - 1].mergeableState != Conflicting
    requires ExecuteMerge(prs[n - 1], merge).None?
    requires Confirmed(Some(yes)) && !Confirmed(Some(again))
    ensures Run(prs, [IntToString(n), yes, again], merge) == Session(None, [prs[n - 1]])
  {
    var lines := [IntToString(n), yes, again];
    var steps := PromptSteps(|prs|, merge);
    FirstLineSelects(|prs|, IntToString(n), n);
    assert steps.choose(lines[0]) == Pick(n);
    assert steps.confirm(LineAt(lines, 1)) && !steps.confirm(LineAt(lines, 2));
    assert steps.execute(prs[n - 1]).None?;
    MergeThenStop(prs, lines, n, steps);
  }

  lemma FirstLineSelects(count: int, line: string, n: int)
    requires 1 <= n <= count <= MaxInt64 && line == IntToString(n)
    ensures ChoiceOf(line, count) == Pick(n)
  {
    ParseSelectionOfNumber(n, count, "", "");
    assert "" + IntToString(n) + "" == IntToString(n);
    SelectionIsNotQuit(line, count);
  }

  /** A round that selects a mergeable pull request, confirms, merges and
      declines to go on ends the session with that one merge. */
  lemma MergeThenStop(prs: seq<PullRequest>, lines: seq<string>, n: int, steps: Steps)
    requires Valid(steps, |prs|) && 1 <= n <= |prs| && |lines| > 0
    requires steps.choose(lines[0]) == Pick(n) && prs[n - 1].mergeableState != Conflicting
    requires steps.confirm(LineAt(lines, 1)) && !steps.confirm(LineAt(lines, 2))
    requires steps.execute(prs[n - 1]).None?
    ensures Loop(prs, lines, steps) == Session(None, [prs[n - 1]])
  {
    assert Attempt(prs[n - 1], lines, steps) == MergedThenStop(prs[n - 1]);
  }
}

=== FILE: pull_requests.dfy ===
/** The pull-request record and its repository-name accessor
    (internal/models/pr.go). */
module PullRequests {
  import opened Text
  import opened Bots
  import opened Checks

  /** `MergeableState` is a plain string; GitHub's three values are named. */
  type MergeableState = string

  const Mergeable: MergeableState := "MERGEABLE"
  const Conflicting: MergeableState := "CONFLICTING"
  const UnknownState: MergeableState := "UNKNOWN"

  /** One dependency-update pull request. `createdDate` is the creation time
      already rendered as YYYY-MM-DD (the model keeps no clock). */
  datatype PullRequest = PullRequest(
    repository: string,
    number: int,
    title: string,
    body: string,
    author: string,
    createdDate: string,
    url: string,
    headSha: string,
    botType: BotType,
    checkSummary: CheckSummary,
    version: string,
    mergeableState: MergeableState,
    labels: seq<string>)

  /** The segment after the first '/' of `s`, up to the next '/' (or the end). */
  function SecondSegment(s: string): string
    requires '/' in s
  {
    var rest := s[IndexOf(s, '/') + 1..];
    rest[..IndexOf(rest, '/')]
  }

  /** `RepoName`: split the full name on '/' and take segment 1 when there
      are at least two segments, else the whole name. */
  function RepoName(pr: PullRequest): (r: string)
    ensures '/' !in pr.repository ==> r == pr.repository
    ensures '/' in pr.repository ==> r == SecondSegment(pr.repository)
    ensures '/' !in r
  {
    var parts := Split(pr.repository, '/');
    if |parts| >= 2 then
      RepoNameSplit(pr.repository);
      parts[1]
    else
      SplitNone(pr.repository, '/');
      pr.repository
  }

  /** Segment 1 of the split is the text between the first and the second
      '/'; a string without '/' splits into itself. */
  lemma RepoNameSplit(s: string)
    ensures '/' in s ==> |Split(s, '/')| >= 2 && Split(s, '/')[1] == SecondSegment(s)
    ensures '/' !in s ==> |Split(s, '/')| == 1
  {
    SplitStep(s, '/');
    if '/' in s {
      var k :| 0 <= k < |s| && s[k] == '/';
      var i := IndexOf(s, '/');
      assert i <= k;
      var rest := s[i + 1..];
      SplitStep(rest, '/');
      if IndexOf(rest, '/') == |rest| {
        assert rest[..|rest|] == rest;
      }
    }
  }

  /** A pull request of "owner/repo" has repo name "repo", and with more
      segments only the second one counts. */
  lemma RepoNameOfOwnerRepo(pr: PullRequest, owner: string, repo: string, tail: string)
    requires '/' !in owner && '/' !in repo
    requires pr.repository == owner + "/" + repo || pr.repository == owner + "/" + repo + "/" + tail
    ensures RepoName(pr) == repo
  {
    var s := pr.repository;
    assert s[|owner|] == '/';
    assert forall k :: 0 <= k < |owner| ==> s[k] == owner[k];
    assert IndexOf(s, '/') == |owner|;
    var rest := s[|owner| + 1..];
    assert forall k :: 0 <= k < |repo| ==> rest[k] == repo[k];
    if pr.repository == owner + "/" + repo {
      assert rest == repo;
      assert IndexOf(rest, '/') == |repo|;
    } else {
      assert rest[|repo|] == '/';
      assert IndexOf(rest, '/') == |repo|;
    }
    assert rest[..IndexOf(rest, '/')] == repo;
  }
}

=== FILE: repo_order.dfy ===
/** The ordering `RenderTable` sorts by: Go's `<` on the repository names,
    which compares the UTF-8 bytes lexicographically. */
module RepoOrder {
  import opened Utf8
  import opened PullRequests

  /** Go string `<`: the first differing byte decides, and a proper prefix
      comes first. */
  predicate BytesLess(a: seq<byte>, b: seq<byte>) {
    if |a| == 0 then |b| > 0
    else if |b| == 0 then false
    else if a[0] != b[0] then a[0] < b[0]
    else BytesLess(a[1..], b[1..])
  }

  lemma {:induction false} BytesLessIrreflexive(a: seq<byte>)
    ensures !BytesLess(a, a)
  {
    if |a| > 0 {
      BytesLessIrreflexive(a[1..]);
    }
  }

  lemma {:induction false} BytesLessTransitive(a: seq<byte>, b: seq<byte>, c: seq<byte>)
    requires BytesLess(a, b) && BytesLess(b, c)
    ensures BytesLess(a, c)
  {
    if |a| > 0 && |b| > 0 && |c| > 0 && a[0] == b[0] && b[0] == c[0] {
      BytesLessTransitive(a[1..], b[1..], c[1..]);
    }
  }

  /** Distinct byte strings are ordered one way or the other. */
  lemma {:induction false} BytesLessTotal(a: seq<byte>, b: seq<byte>)
    ensures a == b || BytesLess(a, b) || BytesLess(b, a)
  {
    if |a| > 0 && |b| > 0 && a[0] == b[0] {
      BytesLessTotal(a[1..], b[1..]);
      if a[1..] == b[1..] {
        assert a == [a[0]] + a[1..] && b == [b[0]] + b[1..];
      }
    }
  }

  lemma BytesLessAsymmetric(a: seq<byte>, b: seq<byte>)
    requires BytesLess(a, b)
    ensures !BytesLess(b, a)
  {
    if BytesLess(b, a) {
      BytesLessTransitive(a, b, a);
      BytesLessIrreflexive(a);
    }
  }

  /** The sort key of a pull request. */
  function Key(pr: PullRequest): seq<byte> {
    Encode(RepoName(pr))
  }

  predicate Before(p: PullRequest, q: PullRequest) {
    BytesLess(Key(p), Key(q))
  }

  /** Not-after is transitive: the complement of a strict weak order. */
  lemma NotBeforeTransitive(p: PullRequest, q: PullRequest, r: PullRequest)
    requires !Before(q, p) && !Before(r, q)
    ensures !Before(r, p)
  {
    if Before(r, p) {
      BytesLessTotal(Key(p), Key(q));
      BytesLessTotal(Key(q), Key(r));
      if Key(p) == Key(q) {
        BytesLessAsymmetric(Key(r), Key(q));
      } else if Key(q) == Key(r) {
        BytesLessAsymmetric(Key(r), Key(p));
      } else {
        BytesLessTransitive(Key(p), Key(q), Key(r));
        BytesLessAsymmetric(Key(p), Key(r));
      }
    }
  }

  /** No element is placed after one whose repository name sorts later. */
  predicate Sorted(s: seq<PullRequest>) {
    forall i, j :: 0 <= i < j < |s| ==> !Before(s[j], s[i])
  }

  lemma ConsSorted(h: PullRequest, t: seq<PullRequest>)
    requires Sorted(t)
    requires forall k :: 0 <= k < |t| ==> !Before(t[k], h)
    ensures Sorted([h] + t)
  {
    var s := [h] + t;
    forall i, j | 0 <= i < j < |s|
      ensures !Before(s[j], s[i])
    {
      assert s[j] == t[j - 1];
      if i > 0 {
        assert s[i] == t[i - 1];
      }
    }
  }

  /** Everything `Insert` returns is `x` or an element of `s`. */
  lemma InsertBound(h: PullRequest, x: PullRequest, s: seq<PullRequest>, rest: seq<PullRequest>)
    requires multiset(rest) == multiset(s) + multiset{x}
    requires !Before(x, h)
    requires forall k :: 0 <= k < |s| ==> !Before(s[k], h)
    ensures forall k :: 0 <= k < |rest| ==> !Before(rest[k], h)
  {
    forall k | 0 <= k < |rest|
      ensures !Before(rest[k], h)
    {
      assert rest[k] in multiset(rest);
      if rest[k] != x {
        assert rest[k] in multiset(s);
        var m :| 0 <= m < |s| && s[m] == rest[k];
      }
    }
  }

  /** Insert `x` before the first element that does not sort before it. */
  function Insert(x: PullRequest, s: seq<PullRequest>): (r: seq<PullRequest>)
    requires Sorted(s)
    ensures multiset(r) == multiset(s) + multiset{x}
    ensures Sorted(r)
  {
    if |s| == 0 then [x]
    else if !Before(s[0], x) then
      forall j | 0 <= j < |s|
        ensures !Before(s[j], x)
      {
        if j > 0 {
          NotBeforeTransitive(x, s[0], s[j]);
        }
      }
      ConsSorted(x, s);
      [x] + s
    else
      BytesLessAsymmetric(Key(s[0]), Key(x));
      assert s == [s[0]] + s[1..];
      var tail := s[1..];
      assert forall k :: 0 <= k < |tail| ==> !Before(tail[k], s[0]) by {
        forall k | 0 <= k < |tail| ensures !Before(tail[k], s[0]) {
          assert tail[k] == s[k + 1];
        }
      }
      var rest := Insert(x, tail);
      InsertBound(s[0], x, tail, rest);
      ConsSorted(s[0], rest);
      [s[0]] + rest
  }

  /** The `sort.Slice` step of `RenderTable`. Go's sort is not stable; this
      one is, and the contract only promises what both do: a permutation of
      the input, ordered by repository name. */
  function SortByRepoName(prs: seq<PullRequest>): (r: seq<PullRequest>)
    ensures multiset(r) == multiset(prs)
    ensures |r| == |prs|
    ensures Sorted(r)
  {
    if |prs| == 0 then []
    else
      assert prs == [prs[0]] + prs[1..];
      Insert(prs[0], SortByRepoName(prs[1..]))
  }
}

=== FILE: repositories.dfy ===
/** The repository record built from a full name (internal/models/repository.go). */
module Repositories {
  import opened Text
  import PullRequests

  datatype Repository = Repository(nameWithOwner: string, name: string, owner: string)

  /** `NewRepository`: with at least two '/'-segments, owner and name are
      segments 0 and 1; otherwise the name is the whole input and there is
      no owner. The full name is always the input. */
  function NewRepository(nameWithOwner: string): (r: Repository)
    ensures r.nameWithOwner == nameWithOwner
    ensures '/' in nameWithOwner ==> r.owner == nameWithOwner[..IndexOf(nameWithOwner, '/')]
    ensures '/' !in nameWithOwner ==> r.name == nameWithOwner && r.owner == ""
    ensures '/' !in r.owner && '/' !in r.name
  {
    var parts := Split(nameWithOwner, '/');
    if |parts| >= 2 then
      FirstSegment(nameWithOwner);
      Repository(nameWithOwner, parts[1], parts[0])
    else
      SplitNone(nameWithOwner, '/');
      Repository(nameWithOwner, nameWithOwner, "")
  }

  lemma FirstSegment(s: string)
    requires '/' in s
    ensures Split(s, '/')[0] == s[..IndexOf(s, '/')]
  {
    var i := IndexOf(s, '/');
    var head := s[..i];
    assert s == head + ['/'] + s[i + 1..];
    assert '/' !in head by {
      forall k | 0 <= k < |head| ensures head[k] != '/' {
        assert head[k] == s[k];
      }
    }
    SplitHead(head, '/', s[i + 1..]);
  }

  /** The repository's name agrees with `RepoName` of any pull request
      filed against that full name. */
  lemma NameAgreesWithRepoName(pr: PullRequests.PullRequest)
    ensures NewRepository(pr.repository).name == PullRequests.RepoName(pr)
  {
    PullRequests.RepoNameSplit(pr.repository);
  }
}

=== FILE: table.dfy ===
/** The plain-text table of pull requests (internal/formatter/table.go).
    Writing to the terminal is not modelled; the table is its rows of cells. */
module Table {
  import opened Text
  import opened Checks
  import opened Bots
  import opened PullRequests
  import opened Truncation
  import opened RepoOrder

  predicate IsKnownState(state: MergeableState) {
    state == Mergeable || state == Conflicting || state == UnknownState
  }

  /** `formatMergeableState`: a one-character mark per known state, "-" for
      anything else. */
  function FormatMergeableState(state: MergeableState): (r: string)
    ensures |r| == 1
    ensures r == "-" <==> !IsKnownState(state)
  {
    if state == Mergeable then "✓"
    else if state == Conflicting then "✗"
    else if state == UnknownState then "?"
    else "-"
  }

  /** Different known states get different marks. */
  lemma FormatMergeableStateInjective(a: MergeableState, b: MergeableState)
    requires IsKnownState(a) && IsKnownState(b) && a != b
    ensures FormatMergeableState(a) != FormatMergeableState(b)
  {
  }

  /** The label string after the first `n` iterations of the loop in
      `formatLabels`: a comma before every label but the first. */
  function Accumulate(labels: seq<string>, n: nat): string
    requires n <= |labels|
  {
    if n == 0 then ""
    else Accumulate(labels, n - 1) + (if n > 1 then "," else "") + labels[n - 1]
  }

  /** The loop builds exactly `strings.Join(labels, ",")`. */
  lemma {:induction false} AccumulateIsJoin(labels: seq<string>, n: nat)
    requires 0 < n <= |labels|
    ensures Accumulate(labels, n) == Join(labels[..n], ",")
  {
    if n == 1 {
      assert labels[..1] == [labels[0]];
    } else {
      AccumulateIsJoin(labels, n - 1);
      assert labels[..n] == labels[..n - 1] + [labels[n - 1]];
      JoinSnoc(labels[..n - 1], ",", labels[n - 1]);
    }
  }

  /** `formatLabels`: "-" for no labels, otherwise the comma-joined labels
      cut to 30 characters with an ellipsis. */
  function FormatLabels(labels: seq<string>): (r: string)
    ensures |labels| == 0 ==> r == "-"
    ensures |labels| > 0 ==> r == TruncateWithEllipsis(Join(labels, ","), 30)
  {
    if |labels| == 0 then "-"
    else
      AccumulateIsJoin(labels, |labels|);
      assert labels[..|labels|] == labels;
      TruncateWithEllipsis(Accumulate(labels, |labels|), 30)
  }

  /** The cells after the optional row number: repo, bot, CI, merge,
      labels, date, version, title, URL. */
  function Cells(pr: PullRequest): seq<string> {
    [TruncateString(RepoName(pr), 20),
     DisplayName(pr.botType),
     pr.checkSummary.status.Symbol(),
     FormatMergeableState(pr.mergeableState),
     FormatLabels(pr.labels),
     pr.createdDate,
     pr.version,
     TruncateWithEllipsis(pr.title, 60),
     pr.url]
  }

  datatype Rendered = Rendered(sorted: seq<PullRequest>, rows: seq<seq<string>>)

  /** Row `i` (0-based) of the table: the 1-based row number when row numbers
      are on, then the cells. */
  function Row(showRowNumbers: bool, i: nat, pr: PullRequest): seq<string> {
    (if showRowNumbers then [IntToString(i + 1)] else []) + Cells(pr)
  }

  /** `RenderTable`: sort by repository name, then one row per pull request,
      numbered from 1 when row numbers are on. The sorted list is returned
      so that a row number n picks `sorted[n - 1]`. */
  function RenderTable(prs: seq<PullRequest>, showRowNumbers: bool): (t: Rendered)
    ensures multiset(t.sorted) == multiset(prs) && Sorted(t.sorted)
    ensures |t.rows| == |t.sorted| == |prs|
    ensures forall i :: 0 <= i < |t.rows| ==> t.rows[i] == Row(showRowNumbers, i, t.sorted[i])
  {
    var sorted := SortByRepoName(prs);
    Rendered(sorted, seq(|sorted|, i requires 0 <= i < |sorted| => Row(showRowNumbers, i, sorted[i])))
  }

  /** A numbered row has ten cells and starts with the decimal row number. */
  lemma NumberedRow(i: nat, pr: PullRequest)
    ensures |Row(true, i, pr)| == 10 && Row(true, i, pr)[0] == NatToString(i + 1)
  {
  }

  /** Reading the number in the first cell of row i gives back i + 1, the
      1-based index the prompt later turns into `sorted[n - 1]`. */
  lemma RowNumberReadsBack(prs: seq<PullRequest>, i: nat)
    requires i < |prs|
    ensures var row := RenderTable(prs, true).rows[i];
            |row| == 10 && row[0] == NatToString(i + 1) && DecimalValue(row[0]) == i + 1
  {
    var t := RenderTable(prs, true);
    NumberedRow(i, t.sorted[i]);
    DecimalValueOfNatToString(i + 1);
  }

  /** Every repo cell is a prefix of the repository name of at most 20
      characters, and the title cell has at most 60. */
  lemma CellWidths(pr: PullRequest)
    ensures |Cells(pr)[0]| <= 20 && Cells(pr)[0] == RepoName(pr)[..|Cells(pr)[0]|]
    ensures |Cells(pr)[7]| <= 60
    ensures |Cells(pr)[4]| <= 30
  {
  }
}

=== FILE: text.dfy ===
/** The pieces of Go's `strings`, `strconv` and `unicode` packages that the
    program relies on, over Dafny strings (sequences of Unicode scalar values,
    which is what Go's `range` over a valid UTF-8 string yields). */
module Text {

  /** `unicode.IsSpace`: the Latin-1 spaces plus the Unicode White_Space set.
      This is what `strings.TrimSpace` trims. */
  predicate IsSpace(c: char) {
    || c == ' ' || c == '\t' || c == '\n' || c == '\U{000B}' || c == '\U{000C}' || c == '\r'
    || c == '\U{0085}' || c == '\U{00A0}' || c == '\U{1680}'
    || ('\U{2000}' <= c <= '\U{200A}')
    || c == '\U{2028}' || c == '\U{2029}' || c == '\U{202F}' || c == '\U{205F}' || c == '\U{3000}'
  }

  /** RE2's `\s` class: tab, newline, form feed, carriage return and space only. */
  predicate IsRegexSpace(c: char) {
    c == '\t' || c == '\n' || c == '\U{000C}' || c == '\r' || c == ' '
  }

  predicate AllSpace(s: string) {
    forall k :: 0 <= k < |s| ==> IsSpace(s[k])
  }

  /** Number of leading `unicode.IsSpace` characters. */
  function TrimStart(s: string): (i: nat)
    ensures i <= |s|
    ensures forall k :: 0 <= k < i ==> IsSpace(s[k])
    ensures i == |s| || !IsSpace(s[i])
  {
    if |s| == 0 || !IsSpace(s[0]) then 0 else 1 + TrimStart(s[1..])
  }

  /** Length of `s` once its trailing `unicode.IsSpace` characters are dropped. */
  function TrimEnd(s: string): (j: nat)
    ensures j <= |s|
    ensures forall k :: j <= k < |s| ==> IsSpace(s[k])
    ensures j == 0 || !IsSpace(s[j - 1])
  {
    if |s| == 0 || !IsSpace(s[|s| - 1]) then |s| else TrimEnd(s[..|s| - 1])
  }

  /** `strings.TrimSpace`: the slice of `s` between its leading and trailing
      spaces; every character cut off is a space and the result neither starts
      nor ends with one. */
  function TrimSpace(s: string): (r: string)
    ensures TrimStart(s) + |r| <= |s|
    ensures r == s[TrimStart(s)..TrimStart(s) + |r|]
    ensures forall k :: 0 <= k < |s| && !(TrimStart(s) <= k < TrimStart(s) + |r|) ==> IsSpace(s[k])
    ensures |r| == 0 || (!IsSpace(r[0]) && !IsSpace(r[|r| - 1]))
    ensures AllSpace(s) <==> r == ""
  {
    var i := TrimStart(s);
    var j := TrimEnd(s);
    if j <= i then "" else s[i..j]
  }

  /** `unicode.ToLower` on the characters it lowers to ASCII: the letters
      'A'..'Z', U+0130 (capital I with dot above, lowered to 'i') and U+212A
      (the Kelvin sign, lowered to 'k'). Any other character is kept, so a
      character that is not ASCII stays so, as it does under Go's mapping. */
  function LowerChar(c: char): (r: char)
    ensures r as int < 128 <==> c as int < 128 || c == '\U{0130}' || c == '\U{212A}'
    ensures !('A' <= r <= 'Z')
  {
    if 'A' <= c <= 'Z' then (c as int + 32) as char
    else if c == '\U{0130}' then 'i'
    else if c == '\U{212A}' then 'k'
    else c
  }

  function ToLower(s: string): (r: string)
    ensures |r| == |s|
    ensures forall k :: 0 <= k < |s| ==> r[k] == LowerChar(s[k])
  {
    seq(|s|, k requires 0 <= k < |s| => LowerChar(s[k]))
  }

  lemma ToLowerConcat(a: string, b: string)
    ensures ToLower(a + b) == ToLower(a) + ToLower(b)
  {
  }

  lemma ToLowerIdempotent(s: string)
    ensures ToLower(ToLower(s)) == ToLower(s)
  {
  }

  /** Lower-casing a prefix gives a prefix of the lower-cased whole. */
  lemma ToLowerPrefix(p: string, s: string)
    requires |p| <= |s| && s[..|p|] == p
    ensures |ToLower(p)| <= |ToLower(s)| && ToLower(s)[..|p|] == ToLower(p)
  {
  }

  /** `pat` occurs in `text` starting at index `i`. */
  predicate OccursAt(text: string, pat: string, i: nat) {
    i + |pat| <= |text| && text[i..i + |pat|] == pat
  }

  /** `strings.Contains`. On valid UTF-8 a byte-level occurrence is a
      character-level occurrence, so the two readings agree. */
  predicate Contains(text: string, pat: string) {
    exists i: nat :: i <= |text| && OccursAt(text, pat, i)
  }

  lemma ContainsEmpty(text: string)
    ensures Contains(text, "")
  {
    assert OccursAt(text, "", 0);
  }

  /** Whoever contains a string contains each of its prefixes. */
  lemma ContainsPrefix(text: string, p: string, q: string)
    requires |p| <= |q| && q[..|p|] == p
    requires Contains(text, q)
    ensures Contains(text, p)
  {
    var i: nat :| i <= |text| && OccursAt(text, q, i);
    assert text[i..i + |p|] == text[i..i + |q|][..|p|];
    assert OccursAt(text, p, i);
  }

  /** Containment is transitive: a text containing `mid` contains every
      string that `mid` contains. */
  lemma ContainsTransitive(text: string, mid: string, pat: string)
    requires Contains(text, mid) && Contains(mid, pat)
    ensures Contains(text, pat)
  {
    var i: nat :| i <= |text| && OccursAt(text, mid, i);
    var j: nat :| j <= |mid| && OccursAt(mid, pat, j);
    assert mid == text[i..i + |mid|];
    var a := text[i + j..i + j + |pat|];
    var b := mid[j..j + |pat|];
    forall k | 0 <= k < |a|
      ensures a[k] == b[k]
    {
      assert b[k] == mid[j + k] == text[i + j + k];
    }
    assert a == b;
    assert OccursAt(text, pat, i + j);
  }

  /** End of the longest run of `P`-characters starting at `i`. */
  function SkipWhile(s: string, i: nat, P: char -> bool): (j: nat)
    requires i <= |s|
    ensures i <= j <= |s|
    ensures forall k :: i <= k < j ==> P(s[k])
    ensures j == |s| || !P(s[j])
    decreases |s| - i
  {
    if i == |s| || !P(s[i]) then i else SkipWhile(s, i + 1, P)
  }

  /** End of the run of RE2 `\s` characters from `i`: a greedy `\s*`. */
  function SkipSpaces(s: string, i: nat): (j: nat)
    requires i <= |s|
    ensures i <= j <= |s|
    ensures forall k {:trigger IsRegexSpace(s[k])} :: i <= k < j ==> IsRegexSpace(s[k])
    ensures j == |s| || !IsRegexSpace(s[j])
    decreases |s| - i
  {
    if i == |s| || !IsRegexSpace(s[i]) then i else SkipSpaces(s, i + 1)
  }

  /** `SkipSpaces` is `SkipWhile` with RE2's `\s`; it exists so that
      proofs about the space runs need no function values. */
  lemma {:induction false} SkipSpacesIsSkipWhile(s: string, i: nat)
    requires i <= |s|
    ensures SkipSpaces(s, i) == SkipWhile(s, i, IsRegexSpace)
    decreases |s| - i
  {
    if i < |s| && IsRegexSpace(s[i]) {
      SkipSpacesIsSkipWhile(s, i + 1);
    }
  }

  /** `s[lo..hi]` is a non-empty run of `P`-characters. */
  predicate Run(s: string, lo: int, hi: int, P: char -> bool) {
    0 <= lo < hi <= |s| && forall k :: lo <= k < hi ==> P(s[k])
  }

  /** A run that stops at a character outside the class is the longest one. */
  lemma SkipExact(s: string, lo: nat, hi: nat, P: char -> bool)
    requires lo <= hi <= |s|
    requires forall k :: lo <= k < hi ==> P(s[k])
    requires hi == |s| || !P(s[hi])
    ensures SkipWhile(s, lo, P) == hi
  {
  }

  lemma SkipAtLeast(s: string, lo: nat, hi: nat, P: char -> bool)
    requires lo <= hi <= |s|
    requires forall k :: lo <= k < hi ==> P(s[k])
    ensures SkipWhile(s, lo, P) >= hi
  {
  }

  /** Index of the first `c` in `s`, or `|s|` when there is none. */
  function IndexOf(s: string, c: char): (i: nat)
    ensures i <= |s|
    ensures i < |s| ==> s[i] == c
    ensures forall k :: 0 <= k < i ==> s[k] != c
  {
    if |s| == 0 || s[0] == c then 0 else 1 + IndexOf(s[1..], c)
  }

  /** `strings.Join`. */
  function Join(parts: seq<string>, sep: string): string {
    if |parts| == 0 then ""
    else if |parts| == 1 then parts[0]
    else parts[0] + sep + Join(parts[1..], sep)
  }

  /** Joining one more part appends the separator and the part. */
  lemma {:induction false} JoinSnoc(parts: seq<string>, sep: string, last: string)
    requires |parts| > 0
    ensures Join(parts + [last], sep) == Join(parts, sep) + sep + last
  {
    if |parts| == 1 {
      assert (parts + [last])[1..] == [last];
    } else {
      assert (parts + [last])[1..] == parts[1..] + [last];
      JoinSnoc(parts[1..], sep, last);
    }
  }

  /** Number of occurrences of `c` in `s`. */
  function Count(s: string, c: char): nat {
    if |s| == 0 then 0 else (if s[0] == c then 1 else 0) + Count(s[1..], c)
  }

  lemma {:induction false} CountConcat(a: string, b: string, c: char)
    ensures Count(a + b, c) == Count(a, c) + Count(b, c)
  {
    if |a| == 0 {
      assert a + b == b;
    } else {
      assert (a + b)[1..] == a[1..] + b;
      CountConcat(a[1..], b, c);
    }
  }

  lemma {:induction false} CountAbsent(s: string, c: char)
    requires c !in s
    ensures Count(s, c) == 0
  {
    if |s| > 0 {
      assert s[0] != c;
      assert forall k :: 0 <= k < |s[1..]| ==> s[1..][k] == s[k + 1];
      CountAbsent(s[1..], c);
    }
  }

  /** `strings.Split` with a one-character separator: the pieces between the
      separators, never containing one, that join back to the input. */
  function Split(s: string, sep: char): (parts: seq<string>)
    ensures |parts| == Count(s, sep) + 1
    ensures forall k :: 0 <= k < |parts| ==> sep !in parts[k]
    ensures Join(parts, [sep]) == s
    decreases |s|
  {
    var i := IndexOf(s, sep);
    if i == |s| then
      CountAbsent(s, sep);
      [s]
    else
      assert s == s[..i] + [sep] + s[i + 1..];
      CountConcat(s[..i] + [sep], s[i + 1..], sep);
      CountConcat(s[..i], [sep], sep);
      CountAbsent(s[..i], sep);
      var rest := Split(s[i + 1..], sep);
      assert Join([s[..i]] + rest, [sep]) == s[..i] + [sep] + Join(rest, [sep]) by {
        assert ([s[..i]] + rest)[1..] == rest;
      }
      [s[..i]] + rest
  }

  /** One step of `Split`: the text up to the first separator, then the
      split of what follows it. */
  lemma SplitStep(s: string, sep: char)
    ensures IndexOf(s, sep) == |s| ==> Split(s, sep) == [s]
    ensures IndexOf(s, sep) < |s| ==>
      Split(s, sep) == [s[..IndexOf(s, sep)]] + Split(s[IndexOf(s, sep) + 1..], sep)
  {
  }

  /** Splitting at a separator-free head peels that head off. */
  lemma SplitHead(head: string, sep: char, rest: string)
    requires sep !in head
    ensures Split(head + [sep] + rest, sep) == [head] + Split(rest, sep)
  {
    var s := head + [sep] + rest;
    assert forall k :: 0 <= k < |head| ==> s[k] == head[k] && s[k] != sep;
    assert s[|head|] == sep;
    assert IndexOf(s, sep) == |head|;
    assert s[..|head|] == head;
    assert s[|head| + 1..] == rest;
  }

  lemma SplitNone(s: string, sep: char)
    requires sep !in s
    ensures Split(s, sep) == [s]
  {
    assert IndexOf(s, sep) == |s|;
  }

  function DigitChar(d: nat): char
    requires d < 10
  {
    ('0' as int + d) as char
  }

  predicate IsDigit(c: char) {
    '0' <= c <= '9'
  }

  /** Decimal rendering of a natural number, without leading zeros. */
  function NatToString(n: nat): (r: string)
    ensures |r| >= 1
    ensures forall k :: 0 <= k < |r| ==> IsDigit(r[k])
    ensures |r| > 1 ==> r[0] != '0'
  {
    (if n < 10 then "" else NatToString(n / 10)) + [DigitChar(n % 10)]
  }

  /** `%d` / `strconv.Itoa`. */
  function IntToString(i: int): (r: string)
    ensures |r| >= 1
    ensures i < 0 <==> r[0] == '-'
  {
    if i < 0 then "-" + NatToString(-i) else NatToString(i)
  }

  function DigitValue(c: char): nat
    requires IsDigit(c)
  {
    c as int - '0' as int
  }

  lemma DigitRoundTrip(d: nat)
    requires d < 10
    ensures IsDigit(DigitChar(d)) && DigitValue(DigitChar(d)) == d
  {
  }

  /** Value of a run of decimal digits. */
  function DecimalValue(s: string): nat
    requires forall k :: 0 <= k < |s| ==> IsDigit(s[k])
  {
    if |s| == 0 then 0 else 10 * DecimalValue(s[..|s| - 1]) + DigitValue(s[|s| - 1])
  }

  /** Reading back a rendered number gives the number. */
  lemma {:induction false} DecimalValueOfNatToString(n: nat)
    ensures DecimalValue(NatToString(n)) == n
  {
    var r := NatToString(n);
    var front := if n < 10 then "" else NatToString(n / 10);
    assert r == front + [DigitChar(n % 10)];
    assert r[..|r| - 1] == front;
    DigitRoundTrip(n % 10);
    if n >= 10 {
      DecimalValueOfNatToString(n / 10);
    }
  }
}

=== FILE: truncation.dfy ===
/** Rune-based truncation for table cells (internal/formatter/truncate.go). */
module Truncation {

  function Min(a: int, b: int): int {
    if a <= b then a else b
  }

  /** `TruncateString`: the first `maxLen` characters. A negative `maxLen`
      makes Go panic on the slice, hence the precondition. */
  function TruncateString(s: string, maxLen: int): (r: string)
    requires maxLen >= 0
    ensures |r| == Min(|s|, maxLen)
    ensures r == s[..|r|]
  {
    if |s| <= maxLen then s else s[..maxLen]
  }

  /** `TruncateWithEllipsis`: a string that fits is returned as is; a longer
      one is cut to exactly `maxLen` characters, the last three of which are
      "..." when there is room for them. */
  function TruncateWithEllipsis(s: string, maxLen: int): (r: string)
    requires maxLen >= 0
    ensures |r| == Min(|s|, maxLen)
    ensures |s| <= maxLen ==> r == s
    ensures |s| > maxLen && maxLen <= 3 ==> r == s[..maxLen]
    ensures |s| > maxLen && maxLen > 3 ==> r[..maxLen - 3] == s[..maxLen - 3] && r[maxLen - 3..] == "..."
  {
    if |s| <= maxLen then s
    else if maxLen <= 3 then s[..maxLen]
    else s[..maxLen - 3] + "..."
  }

  lemma TruncateStringIdempotent(s: string, maxLen: int)
    requires maxLen >= 0
    ensures TruncateString(TruncateString(s, maxLen), maxLen) == TruncateString(s, maxLen)
  {
  }

  lemma TruncateWithEllipsisIdempotent(s: string, maxLen: int)
    requires maxLen >= 0
    ensures TruncateWithEllipsis(TruncateWithEllipsis(s, maxLen), maxLen) == TruncateWithEllipsis(s, maxLen)
  {
  }
}

=== FILE: tui_commands.dfy ===
/** The command closures `mergePR` and `rebasePR` (internal/interactive/tui.go),
    run against an abstract client: each API call is a function from its
    arguments to its outcome. */
module TuiCommands {
  import opened Text
  import opened Outcomes
  import opened Bots
  import opened PullRequests
  import MergeApi
  import UpdatePr
  import Prompt
  import opened TuiModel

  /** The client calls the commands make: `MergePullRequest`, the PATCH of a
      pull request body inside `TriggerRenovateRebase`, and `CreateComment`;
      the last two give their error, or None. */
  datatype Client = Client(
    merge: (string, string, int) -> MergeApi.MergeReply,
    patchBody: (string, string, int, string) -> Option<string>,
    comment: (string, string, int, string) -> Option<string>)

  /** How a bot type asks for a rebase (defined outside the files modelled):
      by ticking the checkbox in the body, or by a comment command ("" for
      none). */
  datatype RebaseSupport = RebaseSupport(usesCheckbox: BotType -> bool, command: BotType -> string)

  function ConflictMessage(pr: PullRequest): string {
    "PR #" + IntToString(pr.number) + " has conflicts and cannot be merged"
  }

  /** `mergePR`: a conflicting pull request fails before anything else; then
      the repository must parse and the API must report the merge. */
  function MergeCommand(pr: PullRequest, client: Client): (r: Msg)
    ensures r.MergeResult?
    ensures pr.mergeableState == Conflicting ==> r == MergeResult(false, ConflictMessage(pr))
    ensures pr.mergeableState != Conflicting && MergeApi.ParseRepository(pr.repository).err.Some? ==>
      r == MergeResult(false, "Invalid repository format: " + MergeApi.ParseRepository(pr.repository).err.value)
    ensures r.success <==>
      && pr.mergeableState != Conflicting
      && MergeApi.ParseRepository(pr.repository).err.None?
      && var p := MergeApi.ParseRepository(pr.repository);
         MergeApi.Merged(client.merge(p.owner, p.repo, pr.number))
    ensures r.success ==>
      r.message == "Successfully merged PR #" + IntToString(pr.number) + " in " + pr.repository
  {
    if pr.mergeableState == Conflicting then MergeResult(false, ConflictMessage(pr))
    else
      var p := MergeApi.ParseRepository(pr.repository);
      if p.err.Some? then MergeResult(false, "Invalid repository format: " + p.err.value)
      else match client.merge(p.owner, p.repo, pr.number)
        case MergeError(e) => MergeResult(false, "Merge failed: " + e)
        case Replied(merged, message) =>
          if !merged then MergeResult(false, "Merge unsuccessful: " + message)
          else MergeResult(true, "Successfully merged PR #" + IntToString(pr.number) + " in " + pr.repository)
  }

  /** A conflicting pull request never reaches the client: its result is the
      same whatever the client would answer. */
  lemma ConflictSkipsClient(pr: PullRequest, a: Client, b: Client)
    requires pr.mergeableState == Conflicting
    ensures MergeCommand(pr, a) == MergeCommand(pr, b)
  {
  }

  /** The list screen and the line prompt agree on which merges succeed,
      except that the list screen refuses conflicting pull requests itself. */
  lemma MergeAgreesWithPrompt(pr: PullRequest, client: Client)
    requires pr.mergeableState != Conflicting
    ensures MergeCommand(pr, client).success <==> Prompt.ExecuteMerge(pr, client.merge).None?
  {
  }

  /** `rebasePR`: after the repository parses, a checkbox bot has its box
      ticked through `TriggerRenovateRebase`, a command bot gets its command
      as a comment, and any other bot is refused. */
  function RebaseCommand(pr: PullRequest, support: RebaseSupport, client: Client): (r: Msg)
    ensures r.RebaseResult?
    ensures MergeApi.ParseRepository(pr.repository).err.Some? ==>
      r == RebaseResult(false, "Invalid repository format: " + MergeApi.ParseRepository(pr.repository).err.value)
    ensures r.success ==> MergeApi.ParseRepository(pr.repository).err.None?
    ensures r.success ==> support.usesCheckbox(pr.botType) || support.command(pr.botType) != ""
    ensures MergeApi.ParseRepository(pr.repository).err.None? && support.usesCheckbox(pr.botType) ==>
      var p := MergeApi.ParseRepository(pr.repository);
      var t := UpdatePr.TriggerRenovateRebase(pr.body, b => client.patchBody(p.owner, p.repo, pr.number, b));
      && (r.success <==> t.err.None?)
      && (t.err.Some? ==> r.message == "Failed to trigger rebase: " + t.err.value)
      && (t.err.None? ==> r.message == "Rebase triggered for PR #" + IntToString(pr.number) + " in "
                                       + pr.repository + " (checkbox checked)")
    ensures MergeApi.ParseRepository(pr.repository).err.None? && !support.usesCheckbox(pr.botType)
            && support.command(pr.botType) != "" ==>
      var p := MergeApi.ParseRepository(pr.repository);
      var e := client.comment(p.owner, p.repo, pr.number, support.command(pr.botType));
      && (r.success <==> e.None?)
      && (e.Some? ==> r.message == "Failed to post rebase comment: " + e.value)
    ensures MergeApi.ParseRepository(pr.repository).err.None? && !support.usesCheckbox(pr.botType)
            && support.command(pr.botType) == "" ==>
      r == RebaseResult(false, "Bot " + DisplayName(pr.botType) + " does not support rebase")
  {
    var p := MergeApi.ParseRepository(pr.repository);
    if p.err.Some? then RebaseResult(false, "Invalid repository format: " + p.err.value)
    else if support.usesCheckbox(pr.botType) then
      var t := UpdatePr.TriggerRenovateRebase(pr.body, b => client.patchBody(p.owner, p.repo, pr.number, b));
      if t.err.Some? then RebaseResult(false, "Failed to trigger rebase: " + t.err.value)
      else RebaseResult(true, "Rebase triggered for PR #" + IntToString(pr.number) + " in " + pr.repository
                              + " (checkbox checked)")
    else if support.command(pr.botType) != "" then
      match client.comment(p.owner, p.repo, pr.number, support.command(pr.botType))
      case Some(e) => RebaseResult(false, "Failed to post rebase comment: " + e)
      case None => RebaseResult(true, "Rebase triggered for PR #" + IntToString(pr.number) + " in "
                                      + pr.repository + " (comment posted)")
    else RebaseResult(false, "Bot " + DisplayName(pr.botType) + " does not support rebase")
  }

  /** A checkbox bot's pull request whose body has no checkbox fails with
      the "not found" error ... */
  lemma MissingCheckbox(pr: PullRequest, support: RebaseSupport, client: Client)
    requires MergeApi.ParseRepository(pr.repository).err.None? && support.usesCheckbox(pr.botType)
    requires UpdatePr.CheckRenovateRebaseCheckbox(pr.body).Failure?
    ensures RebaseCommand(pr, support, client) ==
      RebaseResult(false, "Failed to trigger rebase: " + ("failed to process rebase checkbox: " + UpdatePr.NotFound))
  {
    var p := MergeApi.ParseRepository(pr.repository);
    var missing := UpdatePr.Trigger(None, Some("failed to process rebase checkbox: " + UpdatePr.NotFound));
    assert UpdatePr.TriggerRenovateRebase(pr.body, b => client.patchBody(p.owner, p.repo, pr.number, b)) == missing;
  }

  /** ... and its body is never sent: the result does not depend on the
      PATCH call. */
  lemma MissingCheckboxSendsNothing(pr: PullRequest, support: RebaseSupport, client: Client,
                                    patch: (string, string, int, string) -> Option<string>)
    requires MergeApi.ParseRepository(pr.repository).err.None? && support.usesCheckbox(pr.botType)
    requires UpdatePr.CheckRenovateRebaseCheckbox(pr.body).Failure?
    ensures RebaseCommand(pr, support, client.(patchBody := patch)) == RebaseCommand(pr, support, client)
  {
    MissingCheckbox(pr, support, client);
    MissingCheckbox(pr, support, client.(patchBody := patch));
  }
}

=== FILE: tui_filter.dfy ===
/** The search filter and cursor clamp of the interactive list
    (`filterPRs`, internal/interactive/tui.go). */
module TuiFilter {
  import opened Text
  import opened Bots
  import opened PullRequests

  /** The lower-cased "repo title bot labels version" line a query is looked
      for in; labels are joined by spaces. */
  function SearchText(pr: PullRequest): string {
    ToLower(RepoName(pr) + " " + pr.title + " " + DisplayName(pr.botType) + " "
            + Join(pr.labels, " ") + " " + pr.version)
  }

  predicate Matches(pr: PullRequest, query: string) {
    Contains(SearchText(pr), ToLower(query))
  }

  /** The pull requests that match, in their original order. */
  function Filter(prs: seq<PullRequest>, query: string): (r: seq<PullRequest>)
    ensures |r| <= |prs|
  {
    if |prs| == 0 then []
    else
      var rest := Filter(prs[1..], query);
      if Matches(prs[0], query) then [prs[0]] + rest else rest
  }

  /** The kept pull requests are exactly the matching ones. */
  lemma {:induction false} FilterMembers(prs: seq<PullRequest>, query: string)
    ensures forall x :: x in Filter(prs, query) <==> x in prs && Matches(x, query)
  {
    if |prs| > 0 {
      FilterMembers(prs[1..], query);
      assert forall x :: x in prs <==> x == prs[0] || x in prs[1..];
    }
  }

  /** Filtering commutes with concatenation, so the relative order of the
      kept pull requests is the order of the list. */
  lemma {:induction false} FilterAppend(a: seq<PullRequest>, b: seq<PullRequest>, query: string)
    ensures Filter(a + b, query) == Filter(a, query) + Filter(b, query)
  {
    if |a| == 0 {
      assert a + b == b;
    } else {
      assert (a + b)[1..] == a[1..] + b;
      FilterAppend(a[1..], b, query);
    }
  }

  /** When every pull request matches, nothing is dropped. */
  lemma {:induction false} FilterKeepsAll(prs: seq<PullRequest>, query: string)
    requires forall k :: 0 <= k < |prs| ==> Matches(prs[k], query)
    ensures Filter(prs, query) == prs
  {
    if |prs| > 0 {
      FilterKeepsAll(prs[1..], query);
    }
  }

  /** The empty query matches everything, so the shortcut `filterPRs` takes
      for it keeps the same list the search would. */
  lemma EmptyQueryKeepsAll(prs: seq<PullRequest>)
    ensures Filter(prs, "") == prs
  {
    forall k | 0 <= k < |prs|
      ensures Matches(prs[k], "")
    {
      ContainsEmpty(SearchText(prs[k]));
    }
    FilterKeepsAll(prs, "");
  }

  /** A cursor on a list of `n` rows: on a row, or 0 when there are none. */
  predicate CursorIn(cursor: int, n: int) {
    0 <= cursor && (n <= 0 ==> cursor == 0) && (n > 0 ==> cursor < n)
  }

  /** The two adjustments after filtering: past the end goes to the last row,
      then a negative position goes to 0. */
  function Clamp(cursor: int, n: nat): (r: int)
    ensures CursorIn(r, n)
    ensures CursorIn(cursor, n) ==> r == cursor
    ensures cursor >= n > 0 ==> r == n - 1
  {
    var c := if cursor >= n then n - 1 else cursor;
    if c < 0 then 0 else c
  }

  datatype Filtered = Filtered(filtered: seq<PullRequest>, cursor: int)

  /** `filterPRs`: an empty query shows every pull request with the cursor on
      the first row; any other query keeps the matching ones in order and
      pulls the cursor back onto the list. */
  function FilterPRs(prs: seq<PullRequest>, query: string, cursor: int): (r: Filtered)
    ensures query == "" ==> r == Filtered(prs, 0)
    ensures query != "" ==> r.filtered == Filter(prs, query)
    ensures CursorIn(r.cursor, |r.filtered|)
    ensures query != "" && CursorIn(cursor, |r.filtered|) ==> r.cursor == cursor
  {
    if query == "" then Filtered(prs, 0)
    else
      var filtered := Filter(prs, query);
      Filtered(filtered, Clamp(cursor, |filtered|))
  }

  /** Whatever the query, the rows shown are exactly the matching pull
      requests: the empty-query shortcut agrees with the search. */
  lemma FilterPRsMembers(prs: seq<PullRequest>, query: string, cursor: int)
    ensures forall x :: x in FilterPRs(prs, query, cursor).filtered <==> x in prs && Matches(x, query)
  {
    FilterMembers(prs, query);
    if query == "" {
      EmptyQueryKeepsAll(prs);
    }
  }
}

=== FILE: tui_invariants.dfy ===
/** What every `Update` keeps true, and which messages can send which
    command (internal/interactive/tui.go). */
module TuiInvariants {
  import opened Text
  import opened Outcomes
  import opened Utf8
  import opened PullRequests
  import opened TuiFilter
  import opened TuiModel

  /** The search query is ASCII and holds none of the reserved characters:
      only one-byte keys that reach the `default` arm are ever appended. */
  predicate QueryOk(q: string) {
    forall k :: 0 <= k < |q| ==> q[k] as int < 0x80 && q[k] !in Reserved
  }

  /** The cursor is on a row (or 0 on an empty list); search and confirm
      mode exclude each other; a confirmation always has its pull request;
      a pending rebase confirmation is a confirmation; lists that share one
      array show `filtered` as a prefix of `prs`. */
  predicate Inv(m: Model) {
    && CursorIn(m.cursor, |m.filtered|)
    && (m.shared ==> |m.filtered| <= |m.prs| && m.filtered == m.prs[..|m.filtered|])
    && !(m.searchMode && m.confirmMode)
    && (m.confirmMode <==> m.confirmingPR.Some?)
    && (m.confirmRebase ==> m.confirmMode)
    && QueryOk(m.query)
  }

  lemma InitialInv(prs: seq<PullRequest>)
    ensures Inv(Initial(prs))
  {
  }

  lemma MergeResultInv(m: Model, success: bool, message: string)
    requires Inv(m)
    ensures Inv(OnMergeResult(m, success, message).m)
  {
    MergeResultSpec(m, success, message);
  }

  lemma RefreshResultInv(m: Model, fetched: Result<seq<PullRequest>>)
    requires Inv(m)
    ensures Inv(OnRefreshResult(m, fetched).m)
  {
    if fetched.Success? {
      RefreshLoads(m, fetched.value);
    }
  }

  /** The only arm that lengthens the query appends a one-byte key that no
      earlier arm claims. */
  lemma TypedKeyKeepsQueryOk(q: string, key: string)
    requires QueryOk(q) && ActionOf(key) == Other && |Encode(key)| == 1
    ensures QueryOk(q + key)
  {
    ByteLengthOne(key);
    OtherSingleChar(key);
    assert (q + key)[|q|] == key[0];
  }

  lemma AcceptInv(env: Env, m: Model)
    requires Inv(m)
    ensures Inv(OnAccept(env, m).m)
  {
  }

  lemma OpenInv(env: Env, m: Model)
    requires Inv(m)
    ensures Inv(OnOpen(env, m).m)
  {
  }

  lemma RequeryInv(m: Model, q: string)
    requires Inv(m) && QueryOk(q)
    ensures Inv(Requery(m, q))
  {
  }

  lemma KeyInv(env: Env, m: Model, key: string)
    requires Inv(m)
    ensures Inv(OnKey(env, m, key).m)
  {
    var a := ActionOf(key);
    var s := OnKey(env, m, key);
    if a == Other {
      if m.searchMode && !m.confirmMode && |Encode(key)| == 1 {
        TypedKeyKeepsQueryOk(m.query, key);
        RequeryInv(m, m.query + key);
      }
    } else if a == Backspace {
      if m.searchMode && |m.query| > 0 {
        assert QueryOk(m.query[..|m.query| - 1]);
        RequeryInv(m, m.query[..|m.query| - 1]);
      }
    } else if a == Escape {
      if !m.confirmMode && m.searchMode {
        RequeryInv(m.(searchMode := false), "");
      }
    } else if a == Accept {
      AcceptInv(env, m);
    } else if a == OpenKey {
      OpenInv(env, m);
    }
  }

  /** Every transition keeps `Inv`. */
  lemma UpdateInv(env: Env, m: Model, msg: Msg)
    requires Inv(m)
    ensures Inv(Update(env, m, msg).m)
  {
    match msg
    case MergeResult(success, message) => MergeResultInv(m, success, message);
    case RefreshResult(fetched) => RefreshResultInv(m, fetched);
    case Key(key) => KeyInv(env, ClearMessage(m), key);
    case _ =>
  }

  /** Where commands come from. A merge or rebase leaves only from an open
      confirmation with nothing merging or rebasing, for the confirmed pull
      request, and raises its flag; a refresh comes from the "r" key with
      every guard down but `rebasing`, or from a successful merge; quitting
      comes from a key. */
  lemma CommandOrigins(env: Env, m: Model, msg: Msg)
    requires Inv(m)
    ensures var s := Update(env, m, msg);
      && (s.cmd.Merge? ==>
            && msg.Key? && ActionOf(msg.key) == Accept
            && m.confirmMode && m.confirmingPR == Some(s.cmd.pr) && !m.confirmRebase
            && !m.merging && !m.rebasing && s.m.merging && !s.m.confirmMode)
      && (s.cmd.Rebase? ==>
            && msg.Key? && ActionOf(msg.key) == Accept
            && m.confirmMode && m.confirmingPR == Some(s.cmd.pr) && m.confirmRebase
            && !m.merging && !m.rebasing && s.m.rebasing && !s.m.confirmMode)
      && (s.cmd.Refresh? ==>
            && s.m.refreshing
            && ((msg.Key? && ActionOf(msg.key) == RefreshKey
                 && !m.searchMode && !m.confirmMode && !m.merging && !m.refreshing)
                || (msg.MergeResult? && msg.success)))
      && (s.cmd.Quit? ==> msg.Key? && s.m.done)
  {
    if msg.Key? {
      var c := ClearMessage(m);
      assert c.confirmMode == m.confirmMode && c.confirmingPR == m.confirmingPR && c.confirmRebase == m.confirmRebase;
    }
  }

  /** A key raises an in-flight flag only together with its command, and
      lowers none. */
  lemma KeyFlags(env: Env, m: Model, key: string)
    ensures var s := OnKey(env, m, key);
      && s.m.merging == (s.cmd.Merge? || m.merging)
      && s.m.rebasing == (s.cmd.Rebase? || m.rebasing)
      && s.m.refreshing == (s.cmd.Refresh? || m.refreshing)
  {
    var a := ActionOf(key);
    var s := OnKey(env, m, key);
    if a == Accept {
      assert s == OnAccept(env, m);
    } else if a == RefreshKey {
      assert s.cmd.Refresh? || s.m == m;
    } else if a == OpenKey {
      assert s == OnOpen(env, m);
    } else if a == Backspace || a == Other || a == Escape {
      assert !s.cmd.Merge? && !s.cmd.Rebase? && !s.cmd.Refresh?;
      assert s.m.merging == m.merging && s.m.rebasing == m.rebasing && s.m.refreshing == m.refreshing;
    }
  }

  predicate FlagsFollow(m: Model, msg: Msg, s: Step) {
    && s.m.merging == (if s.cmd.Merge? then true else if msg.MergeResult? then false else m.merging)
    && s.m.rebasing == (if s.cmd.Rebase? then true else if msg.RebaseResult? then false else m.rebasing)
    && s.m.refreshing == (if s.cmd.Refresh? then true else if msg.RefreshResult? then false else m.refreshing)
  }

  lemma KeyMsgFlags(env: Env, m: Model, key: string)
    ensures FlagsFollow(m, Key(key), Update(env, m, Key(key)))
  {
    var c := ClearMessage(m);
    assert c.merging == m.merging && c.rebasing == m.rebasing && c.refreshing == m.refreshing;
    KeyFlags(env, c, key);
  }

  lemma MergeMsgFlags(env: Env, m: Model, success: bool, message: string)
    ensures FlagsFollow(m, MergeResult(success, message), Update(env, m, MergeResult(success, message)))
  {
    var s := OnMergeResult(m, success, message);
    assert s.m.rebasing == m.rebasing;
  }

  /** The in-flight flags change only with their commands: a flag is raised
      exactly when its command goes out and lowered only by its result. */
  lemma FlagsFollowCommands(env: Env, m: Model, msg: Msg)
    ensures FlagsFollow(m, msg, Update(env, m, msg))
  {
    match msg
    case Key(key) => KeyMsgFlags(env, m, key);
    case MergeResult(success, message) => MergeMsgFlags(env, m, success, message);
    case _ =>
  }

  /** Confirming: with nothing merging or rebasing the confirmation closes
      and exactly one command goes out, a rebase when one was offered and a
      merge otherwise; while either is in flight the key does nothing. */
  lemma ConfirmDispatch(env: Env, m: Model, key: string)
    requires Inv(m) && m.confirmMode && ActionOf(key) == Accept
    ensures var s := Update(env, m, Key(key));
      && (!m.merging && !m.rebasing ==>
            && !s.m.confirmMode && s.m.confirmingPR.None? && !s.m.confirmRebase
            && (m.confirmRebase ==> s.cmd == Rebase(m.confirmingPR.value) && s.m.rebasing)
            && (!m.confirmRebase ==> s.cmd == Merge(m.confirmingPR.value) && s.m.merging))
      && (m.merging || m.rebasing ==> s == Step(m, NoCmd))
  {
  }

  /** Offering: in browse mode the row under the cursor becomes the pull
      request to confirm, as a rebase exactly when it conflicts and its bot
      can rebase. */
  lemma ConfirmOffer(env: Env, m: Model, key: string)
    requires Inv(m) && !m.confirmMode && !m.searchMode && |m.filtered| > 0 && ActionOf(key) == Accept
    ensures var s := Update(env, m, Key(key));
      && s.cmd == NoCmd && s.m.confirmMode
      && s.m.confirmingPR == Some(m.filtered[m.cursor])
      && (s.m.confirmRebase <==> m.filtered[m.cursor].mergeableState == Conflicting
                                   && env.supportsRebase(m.filtered[m.cursor].botType))
  {
  }

  /** The "r" key does not look at `rebasing`: a refresh can start while a
      rebase is in flight. */
  lemma RefreshDuringRebase(env: Env, m: Model)
    requires !m.searchMode && !m.confirmMode && !m.merging && !m.refreshing && m.rebasing
    ensures var s := Update(env, m, Key("r"));
      s.cmd == Refresh && s.m.refreshing && s.m.rebasing
  {
  }

  /** Up and down still move while a merge is in flight. */
  lemma MoveWhileMerging(env: Env, m: Model, key: string)
    requires Inv(m) && m.merging && !m.searchMode && !m.confirmMode
    requires ActionOf(key) == Down && m.cursor < |m.filtered| - 1
    ensures Update(env, m, Key(key)).m.cursor == m.cursor + 1
    ensures Update(env, m, Key(key)).m.merging
  {
  }

  /** Outside confirm mode a key clears the status line, except "r" and "o",
      which may write a new one; inside it the status line stays. */
  lemma KeyClearsMessage(env: Env, m: Model, key: string)
    ensures !m.confirmMode && ActionOf(key) != RefreshKey && ActionOf(key) != OpenKey ==>
      Update(env, m, Key(key)).m.message == ""
    ensures m.confirmMode && ActionOf(key) != Accept ==>
      Update(env, m, Key(key)).m.message == m.message
  {
  }

  /** The editing arms on the state with the status line cleared. */
  lemma EditArm(env: Env, m: Model, key: string)
    requires ActionOf(key) == Backspace || ActionOf(key) == Other
    ensures var m0 := ClearMessage(m);
      Update(env, m, Key(key)) == Step(
        if ActionOf(key) == Backspace then
          (if m0.searchMode && |m0.query| > 0 then Requery(m0, m0.query[..|m0.query| - 1]) else m0)
        else
          (if m0.searchMode && !m0.confirmMode && |Encode(key)| == 1 then Requery(m0, m0.query + key) else m0),
        NoCmd)
  {
  }

  /** In search mode, a one-byte key that no other arm claims is appended to
      the query and the list is filtered again. */
  lemma TypingExtendsQuery(env: Env, m: Model, key: string)
    requires m.searchMode && !m.confirmMode && ActionOf(key) == Other && |Encode(key)| == 1
    ensures var s := Update(env, m, Key(key));
      && s.m.query == m.query + key
      && s.m.filtered == FilterPRs(m.prs, m.query + key, m.cursor).filtered
      && s.cmd == NoCmd
  {
    EditArm(env, m, key);
    var m0 := ClearMessage(m);
    assert m0.prs == m.prs && m0.query == m.query && m0.cursor == m.cursor && m0.searchMode && !m0.confirmMode;
  }

  /** Backspace drops the query's last byte, which on the ASCII query the
      invariant guarantees is its last character. */
  lemma BackspaceDropsLastByte(env: Env, m: Model, key: string)
    requires Inv(m) && m.searchMode && |m.query| > 0 && ActionOf(key) == Backspace
    ensures var q := Update(env, m, Key(key)).m.query;
      Encode(q) == Encode(m.query)[..|Encode(m.query)| - 1]
  {
    EditArm(env, m, key);
    var m0 := ClearMessage(m);
    assert m0.query == m.query && m0.searchMode;
    assert Update(env, m, Key(key)).m.query == m.query[..|m.query| - 1];
    DropLastByteAscii(m.query);
  }

  /** No reserved character is ever part of the query. */
  lemma ReservedNeverTyped(env: Env, m: Model, msg: Msg, c: char)
    requires Inv(m) && c in Reserved
    ensures c !in Update(env, m, msg).m.query
  {
    UpdateInv(env, m, msg);
  }
}

=== FILE: tui_model.dfy ===
/** The interactive list's state and its `Update` transition
    (internal/interactive/tui.go). Bubble Tea delivers one message at a time;
    `Update` returns the new state and at most one command to run. */
module TuiModel {
  import opened Text
  import opened Outcomes
  import opened Utf8
  import opened Bots
  import opened PullRequests
  import opened TuiFilter
  import RepoOrder

  /** The `model` struct, minus the client, context and refresh parameters,
      which only the commands use. `confirmingPR` is the `*PullRequest`.
      `shared` records that the Go slices `filtered` and `prs` are views of
      one backing array, as `filterPRs` makes them for the empty query:
      `filtered` is then the first `|filtered|` entries of that array and
      `prs` the first `|prs|`. The array beyond `|prs|` is never read again. */
  datatype Model = Model(
    prs: seq<PullRequest>,
    filtered: seq<PullRequest>,
    shared: bool,
    cursor: int,
    query: string,
    searchMode: bool,
    confirmMode: bool,
    confirmingPR: Option<PullRequest>,
    confirmRebase: bool,
    message: string,
    messageType: string,
    width: int,
    height: int,
    merging: bool,
    refreshing: bool,
    rebasing: bool,
    done: bool)

  /** The messages `Update` handles: a terminal resize, the results of the
      three commands, and a key press given by its `String()` name. */
  datatype Msg =
    | WindowSize(width: int, height: int)
    | MergeResult(success: bool, message: string)
    | RebaseResult(success: bool, message: string)
    | RefreshResult(fetched: Result<seq<PullRequest>>)
    | Key(key: string)

  /** The command `Update` hands back: nothing, `tea.Quit`, or one of the
      closures `refreshPRs`, `mergePR(pr)`, `rebasePR(pr)`. */
  datatype Cmd = NoCmd | Quit | Refresh | Merge(pr: PullRequest) | Rebase(pr: PullRequest)

  /** What `Update` consults outside the state: the bot type's rebase support
      (defined outside the files modelled) and `openBrowser`, which gives the
      error of launching a browser on a URL, or None. */
  datatype Env = Env(supportsRebase: BotType -> bool, openBrowser: string -> Option<string>)

  datatype Step = Step(m: Model, cmd: Cmd)

  /** `RunTUI`'s starting state: every pull request shown, the cursor on the
      first, an 80x24 terminal, no mode and nothing in flight. */
  function Initial(prs: seq<PullRequest>): (m: Model)
    ensures m.prs == prs && m.filtered == prs && m.shared && m.cursor == 0 && m.query == ""
    ensures !m.searchMode && !m.confirmMode && m.confirmingPR.None? && !m.confirmRebase
    ensures !m.merging && !m.refreshing && !m.rebasing && !m.done
    ensures m.width == 80 && m.height == 24
  {
    Model(prs, prs, true, 0, "", false, false, None, false, "", "", 80, 24, false, false, false, false)
  }

  // ---------------------------------------------------------------------
  // Removing a merged pull request

  /** Go's identity test in the merge handler: same repository and number. */
  predicate SamePR(a: PullRequest, b: PullRequest) {
    a.number == b.number && a.repository == b.repository
  }

  predicate NoneBefore(prs: seq<PullRequest>, pr: PullRequest, i: int) {
    forall j :: 0 <= j < i && j < |prs| ==> !SamePR(prs[j], pr)
  }

  /** The `for … range m.prs { … break }` removal of the first entry with
      the same repository and number. */
  function RemoveFirst(prs: seq<PullRequest>, pr: PullRequest): (r: seq<PullRequest>)
    ensures |r| <= |prs|
  {
    if |prs| == 0 then []
    else if SamePR(prs[0], pr) then prs[1..]
    else [prs[0]] + RemoveFirst(prs[1..], pr)
  }

  /** Without a matching entry nothing is removed. */
  lemma {:induction false} RemoveFirstAbsent(prs: seq<PullRequest>, pr: PullRequest)
    requires NoneBefore(prs, pr, |prs|)
    ensures RemoveFirst(prs, pr) == prs
  {
    if |prs| > 0 {
      var tail := prs[1..];
      assert !SamePR(prs[0], pr);
      assert NoneBefore(tail, pr, |tail|) by {
        forall j | 0 <= j < |tail| ensures !SamePR(tail[j], pr) {
          assert tail[j] == prs[j + 1];
        }
      }
      RemoveFirstAbsent(tail, pr);
    }
  }

  /** Otherwise exactly the first matching entry goes and the others keep
      their order. */
  lemma {:induction false} RemoveFirstAt(prs: seq<PullRequest>, pr: PullRequest, i: nat)
    requires i < |prs| && SamePR(prs[i], pr) && NoneBefore(prs, pr, i)
    ensures RemoveFirst(prs, pr) == prs[..i] + prs[i + 1..]
  {
    if i == 0 {
      assert prs[..0] + prs[1..] == prs[1..];
    } else {
      var tail := prs[1..];
      assert !SamePR(prs[0], pr);
      assert tail[i - 1] == prs[i];
      assert NoneBefore(tail, pr, i - 1) by {
        forall j | 0 <= j < i - 1 ensures !SamePR(tail[j], pr) {
          assert tail[j] == prs[j + 1];
        }
      }
      RemoveFirstAt(tail, pr, i - 1);
      assert prs[..i] == [prs[0]] + tail[..i - 1];
      assert prs[i + 1..] == tail[i..];
    }
  }

  /** Go's `append(s[:i], s[i+1:]...)` on a slice `s` of length `n` over
      the backing array `arr`, which it rewrites in place: the entries after
      `i` move down by one, the slot `n - 1` keeps its old entry, and the
      array beyond `n` is untouched. The result is the whole array; the new
      slice is its first `n - 1` entries. */
  function RemoveInPlace(arr: seq<PullRequest>, i: nat, n: nat): (r: seq<PullRequest>)
    requires i < n <= |arr|
    ensures |r| == |arr|
    ensures forall k :: 0 <= k < i ==> r[k] == arr[k]
    ensures forall k :: i <= k < n - 1 ==> r[k] == arr[k + 1]
    ensures forall k :: n - 1 <= k < |arr| ==> r[k] == arr[k]
  {
    arr[..i] + arr[i + 1..n] + arr[n - 1..]
  }

  /** The index the `for … range m.prs` lookup stops at, if any. */
  function FirstSame(prs: seq<PullRequest>, pr: PullRequest): (r: Option<nat>)
    ensures r.None? ==> NoneBefore(prs, pr, |prs|)
    ensures r.Some? ==> r.value < |prs| && SamePR(prs[r.value], pr) && NoneBefore(prs, pr, r.value)
    decreases |prs|
  {
    if |prs| == 0 then None
    else if SamePR(prs[0], pr) then Some(0)
    else match FirstSame(prs[1..], pr)
      case None => None
      case Some(i) => Some(i + 1)
  }

  /** The two lists after lines 93-101 of the merge handler: row `c` leaves
      `filtered`, then the lookup removes the first entry of `prs` with the
      same repository and number. Separate slices are separate arrays. On
      one shared array the first removal shifts the entries `prs` sees too,
      so the lookup may no longer find the merged entry. */
  datatype Lists = Lists(prs: seq<PullRequest>, filtered: seq<PullRequest>)

  function RemoveMerged(prs: seq<PullRequest>, filtered: seq<PullRequest>, shared: bool, c: nat): (r: Lists)
    requires c < |filtered|
    ensures |r.filtered| == |filtered| - 1
    ensures shared && |filtered| <= |prs| ==> |r.filtered| <= |r.prs| && r.filtered == r.prs[..|r.filtered|]
  {
    var merged := filtered[c];
    var n := |filtered|;
    if shared && n <= |prs| then
      var arr := RemoveInPlace(prs, c, n);
      match FirstSame(arr, merged)
      case None => Lists(arr, arr[..n - 1])
      case Some(i) =>
        var arr2 := RemoveInPlace(arr, i, |arr|);
        Lists(arr2[..|arr| - 1], arr2[..n - 1])
    else
      Lists(RemoveFirst(prs, merged), filtered[..c] + filtered[c + 1..])
  }

  /** No other entry of `prs` has the same repository and number as entry `c`. */
  predicate UniqueAt(prs: seq<PullRequest>, c: nat)
    requires c < |prs|
  {
    forall j :: 0 <= j < |prs| && j != c ==> !SamePR(prs[j], prs[c])
  }

  /** The lookup finds an entry that is unique at its own index. */
  lemma FirstSameUnique(prs: seq<PullRequest>, c: nat)
    requires c < |prs| && UniqueAt(prs, c)
    ensures FirstSame(prs, prs[c]) == Some(c)
  {
    var f := FirstSame(prs, prs[c]);
    assert SamePR(prs[c], prs[c]);
    assert f.Some? && f.value <= c;
  }

  /** What the removal does. Separate lists: row `c` leaves `filtered` and
      the first same entry leaves `prs`. One shared array, with the merged
      entry unique in it: `filtered` still loses row `c`, but unless `c` is
      the last row `prs` keeps its length, with the merged entry gone and the
      last row of `filtered` listed twice. */
  lemma RemoveMergedSpec(prs: seq<PullRequest>, filtered: seq<PullRequest>, shared: bool, c: nat)
    requires c < |filtered|
    ensures var r := RemoveMerged(prs, filtered, shared, c);
      && (!shared ==> r.filtered == filtered[..c] + filtered[c + 1..] && r.prs == RemoveFirst(prs, filtered[c]))
      && (shared && |filtered| <= |prs| && filtered == prs[..|filtered|] && UniqueAt(prs, c) ==>
            && r.filtered == filtered[..c] + filtered[c + 1..]
            && r.prs == if c < |filtered| - 1 then prs[..c] + prs[c + 1..|filtered|] + prs[|filtered| - 1..]
                        else prs[..c] + prs[c + 1..])
  {
    var n := |filtered|;
    if shared && n <= |prs| && filtered == prs[..n] && UniqueAt(prs, c) {
      SharedRemoval(prs, n, c);
    }
  }

  lemma SharedRemoval(prs: seq<PullRequest>, n: nat, c: nat)
    requires c < n <= |prs| && UniqueAt(prs, c)
    ensures var r := RemoveMerged(prs, prs[..n], true, c);
      && r.filtered == prs[..c] + prs[c + 1..n]
      && r.prs == if c < n - 1 then prs[..c] + prs[c + 1..n] + prs[n - 1..] else prs[..c] + prs[c + 1..]
  {
    var merged := prs[c];
    var arr := RemoveInPlace(prs, c, n);
    if c < n - 1 {
      assert NoneBefore(arr, merged, |arr|) by {
        forall j | 0 <= j < |arr| ensures !SamePR(arr[j], merged) {
          if j < c { assert arr[j] == prs[j]; }
          else if j < n - 1 { assert arr[j] == prs[j + 1]; }
          else { assert arr[j] == prs[j]; }
        }
      }
      assert arr == prs[..c] + prs[c + 1..n] + prs[n - 1..];
    } else {
      assert arr == prs;
      FirstSameUnique(prs, c);
      var arr2 := RemoveInPlace(prs, c, |prs|);
      assert arr2[..|prs| - 1] == prs[..c] + prs[c + 1..];
      assert arr2[..n - 1] == prs[..c];
    }
  }

  // ---------------------------------------------------------------------
  // Command results

  /** Lines 91-105 of the merge handler: drop the row under the cursor from
      the lists and step the cursor back if it fell off the end. */
  function DropMergedRow(m: Model): (r: Model)
    ensures r == m.(prs := r.prs, filtered := r.filtered, cursor := r.cursor)
  {
    if 0 <= m.cursor < |m.filtered| then
      var lists := RemoveMerged(m.prs, m.filtered, m.shared, m.cursor);
      var cursor := if m.cursor >= |lists.filtered| && m.cursor > 0 then m.cursor - 1 else m.cursor;
      m.(filtered := lists.filtered, prs := lists.prs, cursor := cursor)
    else m
  }

  /** The `mergeResultMsg` case: the merge is over; a success starts a
      refresh (see `MergeResultSpec` for the rest). */
  function OnMergeResult(m: Model, success: bool, message: string): (r: Step)
    ensures !r.m.merging && r.m.rebasing == m.rebasing
    ensures r.cmd == (if success then Refresh else NoCmd)
    ensures r.m.refreshing == (success || m.refreshing)
  {
    var m1 := m.(merging := false, message := message);
    if !success then Step(m1.(messageType := "error"), NoCmd)
    else
      var m2 := DropMergedRow(m1);
      Step(m2.(refreshing := true, message := "Refreshing PRs...", messageType := ""), Refresh)
  }

  /** A failure only reports; a success removes the row under the cursor
      *as it is now*, steps the cursor back if it fell off the end, and
      announces the refresh. With separate lists the merged pull request
      leaves both. With the lists sharing one array (the empty query) it
      leaves `filtered`, but unless it was the last row `prs` keeps its
      length and lists the last row of `filtered` twice; `filtered` stays a
      prefix of `prs`. */
  lemma MergeResultSpec(m: Model, success: bool, message: string)
    ensures var r := OnMergeResult(m, success, message);
      && (!success ==> r == Step(m.(merging := false, message := message, messageType := "error"), NoCmd))
      && (success ==> r.m.message == "Refreshing PRs..." && r.m.messageType == "")
      && (success && 0 <= m.cursor < |m.filtered| ==>
            && |r.m.filtered| == |m.filtered| - 1
            && (!m.shared ==>
                  && r.m.filtered == m.filtered[..m.cursor] + m.filtered[m.cursor + 1..]
                  && r.m.prs == RemoveFirst(m.prs, m.filtered[m.cursor]))
            && (m.shared && |m.filtered| <= |m.prs| && m.filtered == m.prs[..|m.filtered|] && UniqueAt(m.prs, m.cursor) ==>
                  && r.m.filtered == m.filtered[..m.cursor] + m.filtered[m.cursor + 1..]
                  && r.m.prs == if m.cursor < |m.filtered| - 1
                                then m.prs[..m.cursor] + m.prs[m.cursor + 1..|m.filtered|] + m.prs[|m.filtered| - 1..]
                                else m.prs[..m.cursor] + m.prs[m.cursor + 1..])
            && (m.shared && |m.filtered| <= |m.prs| ==>
                  |r.m.filtered| <= |r.m.prs| && r.m.filtered == r.m.prs[..|r.m.filtered|])
            && r.m.cursor == (if m.cursor == |m.filtered| - 1 && m.cursor > 0 then m.cursor - 1 else m.cursor))
      && (success && !(0 <= m.cursor < |m.filtered|) ==>
            r.m.filtered == m.filtered && r.m.prs == m.prs && r.m.cursor == m.cursor)
      && (success ==> r.m == m.(prs := r.m.prs, filtered := r.m.filtered, cursor := r.m.cursor, merging := false,
                                refreshing := true, message := "Refreshing PRs...", messageType := ""))
  {
    if success {
      MergeResultFrame(m, message);
    }
    if success && 0 <= m.cursor < |m.filtered| {
      MergeResultLists(m, message);
      RemoveMergedSpec(m.prs, m.filtered, m.shared, m.cursor);
    }
  }

  lemma MergeResultFrame(m: Model, message: string)
    ensures var r := OnMergeResult(m, true, message).m;
      r == m.(prs := r.prs, filtered := r.filtered, cursor := r.cursor, merging := false,
              refreshing := true, message := "Refreshing PRs...", messageType := "")
  {
    var d := DropMergedRow(m.(merging := false, message := message));
    assert OnMergeResult(m, true, message).m == d.(refreshing := true, message := "Refreshing PRs...", messageType := "");
  }

  lemma MergeResultLists(m: Model, message: string)
    requires 0 <= m.cursor < |m.filtered|
    ensures var r, lists := OnMergeResult(m, true, message).m, RemoveMerged(m.prs, m.filtered, m.shared, m.cursor);
      r.prs == lists.prs && r.filtered == lists.filtered
  {
    var m1 := m.(merging := false, message := message);
    assert DropMergedRow(m1).prs == RemoveMerged(m.prs, m.filtered, m.shared, m.cursor).prs;
  }

  /** The shared array at work: with the empty query, merging the first of
      three distinct pull requests leaves `filtered` as [b, c] but `prs` as
      [b, c, c], and filtering again with the empty query, as "esc" in search
      mode does, lists c twice. */
  lemma MergeLeavesDuplicate(a: PullRequest, b: PullRequest, c: PullRequest)
    requires !SamePR(a, b) && !SamePR(a, c)
    ensures var r := OnMergeResult(Initial([a, b, c]), true, "").m;
      && r.filtered == [b, c] && r.prs == [b, c, c]
      && Requery(r, "").filtered == [b, c, c]
  {
    var prs := [a, b, c];
    var m := Initial(prs);
    assert m.shared && m.cursor == 0 && m.filtered == m.prs[..3] && UniqueAt(prs, 0);
    MergeResultSpec(m, true, "");
    var r := OnMergeResult(m, true, "").m;
    assert r.prs == prs[..0] + prs[1..3] + prs[2..] == [b, c, c];
    assert r.filtered == prs[..0] + prs[1..] == [b, c];
    assert Requery(r, "").filtered == FilterPRs(r.prs, "", r.cursor).filtered == r.prs;
  }

  /** The `rebaseResultMsg` case: clear the flag and report. */
  function OnRebaseResult(m: Model, success: bool, message: string): (r: Step)
    ensures r.cmd == NoCmd && !r.m.rebasing && r.m.message == message
    ensures r.m.messageType == (if success then "success" else "error")
    ensures r.m == m.(rebasing := false, message := message, messageType := r.m.messageType)
  {
    Step(m.(rebasing := false, message := message, messageType := if success then "success" else "error"), NoCmd)
  }

  /** The `refreshPRsMsg` case: an error keeps the lists; fresh data
      replaces them (see `RefreshLoads`), and nothing else changes. */
  function OnRefreshResult(m: Model, fetched: Result<seq<PullRequest>>): (r: Step)
    ensures r.cmd == NoCmd && !r.m.refreshing && r.m.merging == m.merging && r.m.rebasing == m.rebasing
    ensures fetched.Failure? ==> r.m == m.(refreshing := false, message := "Failed to refresh PRs: " + fetched.error,
                                           messageType := "error")
    ensures fetched.Success? ==>
      r.m == m.(prs := r.m.prs, filtered := r.m.filtered, shared := m.query == "", cursor := r.m.cursor,
                refreshing := false, message := r.m.message, messageType := "success")
  {
    var m1 := m.(refreshing := false);
    match fetched
    case Failure(e) => Step(m1.(message := "Failed to refresh PRs: " + e, messageType := "error"), NoCmd)
    case Success(latest) =>
      var prs := RepoOrder.SortByRepoName(latest);
      var f := FilterPRs(prs, m.query, m.cursor);
      var cursor := Clamp(f.cursor, |f.filtered|);
      Step(m1.(prs := prs, filtered := f.filtered, shared := m.query == "", cursor := cursor,
               message := "Refreshed: " + IntToString(|prs|) + " PRs loaded", messageType := "success"), NoCmd)
  }

  /** Fresh data is sorted by repository name, filtered again by the current
      query, and the cursor pulled back onto the list; the status line counts
      the pull requests loaded. An empty query shows everything from the
      first row; any other keeps the matching pull requests in sorted order
      and leaves a cursor that is still on a row where it was. */
  lemma RefreshLoads(m: Model, latest: seq<PullRequest>)
    ensures var r := OnRefreshResult(m, Success(latest)).m;
      && multiset(r.prs) == multiset(latest)
      && RepoOrder.Sorted(r.prs)
      && (forall x :: x in r.filtered <==> x in latest && Matches(x, m.query))
      && CursorIn(r.cursor, |r.filtered|)
      && (m.query == "" ==> r.filtered == r.prs && r.cursor == 0)
      && (m.query != "" ==> r.filtered == Filter(r.prs, m.query) && r.cursor == Clamp(m.cursor, |r.filtered|))
      && r.message == "Refreshed: " + IntToString(|latest|) + " PRs loaded"
  {
    var prs := RepoOrder.SortByRepoName(latest);
    FilterPRsMembers(prs, m.query, m.cursor);
    assert forall x :: x in prs <==> x in latest by {
      assert forall x :: x in prs <==> x in multiset(prs);
      assert forall x :: x in latest <==> x in multiset(latest);
    }
  }

  // ---------------------------------------------------------------------
  // Keys

  /** The arms of the key `switch`, in source order; the first arm listing a
      key name wins. */
  datatype Action =
    | Interrupt | Escape | StartSearch | RefreshKey | OpenKey | Accept | Decline
    | Up | Down | Backspace | Other

  function ActionOf(key: string): Action {
    if key == "ctrl+c" then Interrupt
    else if key == "q" || key == "esc" then Escape
    else if key == "/" then StartSearch
    else if key == "r" then RefreshKey
    else if key == "o" then OpenKey
    else if key == "enter" || key == "y" then Accept
    else if key == "n" then Decline
    else if key == "up" || key == "k" then Up
    else if key == "down" || key == "j" then Down
    else if key == "backspace" then Backspace
    else Other
  }

  /** The characters whose one-letter key names an earlier arm takes. */
  const Reserved: string := "qynjkro/"

  /** A one-character key reaches the `default` arm exactly when it is not
      one of the reserved characters. */
  lemma OtherSingleChar(key: string)
    requires |key| == 1
    ensures ActionOf(key) == Other <==> key[0] !in Reserved
  {
    assert key == [key[0]];
  }

  /** Before the switch: any key clears the status line, unless a
      confirmation is showing. */
  function ClearMessage(m: Model): (r: Model)
    ensures m.confirmMode ==> r == m
    ensures !m.confirmMode ==> r.message == ""
    ensures r == m || r == m.(message := "", messageType := "")
  {
    if m.message != "" && !m.confirmMode then m.(message := "", messageType := "") else m
  }

  function CancelConfirm(m: Model): Model {
    m.(confirmMode := false, confirmingPR := None, confirmRebase := false)
  }

  /** Replace the query and filter again. */
  function Requery(m: Model, query: string): (r: Model)
    ensures r.query == query
    ensures r.filtered == FilterPRs(m.prs, query, m.cursor).filtered
    ensures r.shared <==> query == ""
    ensures CursorIn(r.cursor, |r.filtered|)
    ensures r == m.(query := query, filtered := r.filtered, shared := r.shared, cursor := r.cursor)
  {
    var f := FilterPRs(m.prs, query, m.cursor);
    m.(query := query, filtered := f.filtered, shared := query == "", cursor := f.cursor)
  }

  /** The "enter"/"y" arm. In confirm mode, with nothing merging or
      rebasing, the confirmation closes and exactly one command goes out; in
      search mode the search closes; otherwise the row under the cursor is
      offered for confirmation, as a rebase when it conflicts and its bot can
      rebase. */
  function OnAccept(env: Env, m: Model): (r: Step)
    ensures m.confirmMode && m.confirmingPR.Some? && !m.merging && !m.rebasing ==>
      && !r.m.confirmMode && r.m.confirmingPR.None? && !r.m.confirmRebase
      && (m.confirmRebase ==> r.cmd == Rebase(m.confirmingPR.value) && r.m.rebasing && !r.m.merging)
      && (!m.confirmRebase ==> r.cmd == Merge(m.confirmingPR.value) && r.m.merging && !r.m.rebasing)
    ensures m.confirmMode && !(m.confirmingPR.Some? && !m.merging && !m.rebasing) ==> r == Step(m, NoCmd)
    ensures !m.confirmMode && m.searchMode ==> r == Step(m.(searchMode := false), NoCmd)
    ensures !m.confirmMode && !m.searchMode && 0 <= m.cursor < |m.filtered| ==>
      && r.cmd == NoCmd && r.m.confirmMode
      && r.m.confirmingPR == Some(m.filtered[m.cursor])
      && (r.m.confirmRebase <==> m.filtered[m.cursor].mergeableState == Conflicting
                                  && env.supportsRebase(m.filtered[m.cursor].botType))
      && r.m == m.(confirmMode := true, confirmingPR := r.m.confirmingPR, confirmRebase := r.m.confirmRebase)
    ensures !m.confirmMode && !m.searchMode && !(0 <= m.cursor < |m.filtered|) ==> r == Step(m, NoCmd)
  {
    if m.confirmMode then
      if m.confirmingPR.Some? && !m.merging && !m.rebasing then
        var pr := m.confirmingPR.value;
        var m1 := m.(confirmMode := false, confirmingPR := None);
        if m.confirmRebase then
          Step(m1.(rebasing := true, message := "Triggering rebase...", messageType := "", confirmRebase := false),
               Rebase(pr))
        else
          Step(m1.(merging := true, message := "Merging...", messageType := ""), Merge(pr))
      else Step(m, NoCmd)
    else if m.searchMode then Step(m.(searchMode := false), NoCmd)
    else if |m.filtered| > 0 && 0 <= m.cursor < |m.filtered| then
      var pr := m.filtered[m.cursor];
      Step(m.(confirmMode := true, confirmingPR := Some(pr),
              confirmRebase := pr.mergeableState == Conflicting && env.supportsRebase(pr.botType)), NoCmd)
    else Step(m, NoCmd)
  }

  /** The "o" arm: outside search and confirm mode, open the row under the
      cursor and report how that went. */
  function OnOpen(env: Env, m: Model): (r: Step)
    ensures r.cmd == NoCmd
    ensures r.m == m.(message := r.m.message, messageType := r.m.messageType)
    ensures !(!m.searchMode && !m.confirmMode && 0 <= m.cursor < |m.filtered|) ==> r.m == m
    ensures !m.searchMode && !m.confirmMode && 0 <= m.cursor < |m.filtered| ==>
      var url := m.filtered[m.cursor].url;
      && (env.openBrowser(url).Some? ==>
            r.m.message == "Failed to open browser: " + env.openBrowser(url).value && r.m.messageType == "error")
      && (env.openBrowser(url).None? ==>
            r.m.message == "Opened PR #" + IntToString(m.filtered[m.cursor].number) + " in browser"
            && r.m.messageType == "success")
  {
    if !m.searchMode && !m.confirmMode && |m.filtered| > 0 && 0 <= m.cursor < |m.filtered| then
      var pr := m.filtered[m.cursor];
      match env.openBrowser(pr.url)
      case Some(e) => Step(m.(message := "Failed to open browser: " + e, messageType := "error"), NoCmd)
      case None => Step(m.(message := "Opened PR #" + IntToString(pr.number) + " in browser",
                           messageType := "success"), NoCmd)
    else Step(m, NoCmd)
  }

  /** The key switch, applied after the status line has been cleared. Only
      "r", "o" and a confirmed "enter"/"y" write the status line. */
  function OnKey(env: Env, m: Model, key: string): (r: Step)
    ensures ActionOf(key) != RefreshKey && ActionOf(key) != OpenKey && ActionOf(key) != Accept ==>
      r.m.message == m.message
    ensures ActionOf(key) == Accept && !m.confirmMode ==> r.m.message == m.message
  {
    match ActionOf(key)
    case Interrupt => Step(m.(done := true), Quit)
    case Escape =>
      if m.confirmMode then Step(CancelConfirm(m), NoCmd)
      else if m.searchMode then Step(Requery(m.(searchMode := false), ""), NoCmd)
      else Step(m.(done := true), Quit)
    case StartSearch => Step(if !m.confirmMode then m.(searchMode := true) else m, NoCmd)
    case RefreshKey =>
      if !m.searchMode && !m.confirmMode && !m.merging && !m.refreshing then
        Step(m.(refreshing := true, message := "Refreshing PRs...", messageType := ""), Refresh)
      else Step(m, NoCmd)
    case OpenKey => OnOpen(env, m)
    case Accept => OnAccept(env, m)
    case Decline => Step(if m.confirmMode then CancelConfirm(m) else m, NoCmd)
    case Up => Step(if !m.searchMode && !m.confirmMode && m.cursor > 0 then m.(cursor := m.cursor - 1) else m, NoCmd)
    case Down =>
      Step(if !m.searchMode && !m.confirmMode && m.cursor < |m.filtered| - 1 then m.(cursor := m.cursor + 1) else m,
           NoCmd)
    case Backspace =>
      Step(if m.searchMode && |m.query| > 0 then Requery(m, m.query[..|m.query| - 1]) else m, NoCmd)
    case Other =>
      Step(if m.searchMode && !m.confirmMode && |Encode(key)| == 1 then Requery(m, m.query + key) else m, NoCmd)
  }

  /** `model.Update`. */
  function Update(env: Env, m: Model, msg: Msg): Step {
    match msg
    case WindowSize(w, h) => Step(m.(width := w, height := h), NoCmd)
    case MergeResult(success, message) => OnMergeResult(m, success, message)
    case RebaseResult(success, message) => OnRebaseResult(m, success, message)
    case RefreshResult(fetched) => OnRefreshResult(m, fetched)
    case Key(key) => OnKey(env, ClearMessage(m), key)
  }
}

=== FILE: tui_view.dfy ===
/** The arithmetic of the list screen's `View` and `formatPRLine`
    (internal/interactive/tui.go): which rows are visible, how wide the title
    column is, and the byte-based cutting of each cell. Styling and the
    exact frame are not modelled. */
module TuiView {
  import opened Text
  import opened Utf8
  import opened Bots
  import opened PullRequests
  import opened Truncation
  import opened TuiFilter
  import Table

  /** Rows available for the list: the height less ten lines of chrome, but
      never fewer than five. */
  function MaxVisible(height: int): (r: int)
    ensures r >= 5 && r >= height - 10
    ensures r == 5 || r == height - 10
  {
    if height - 10 < 5 then 5 else height - 10
  }

  /** Rows `start` up to (not including) `end` are drawn. */
  datatype Window = Window(start: int, end: int)

  /** The visible window: centred on the cursor where possible, shifted back
      to end at the last row otherwise. It holds as many rows as fit, and the
      cursor row is always among them. */
  function VisibleWindow(cursor: int, height: int, n: nat): (w: Window)
    ensures 0 <= w.start <= w.end <= n
    ensures w.end - w.start == Min(MaxVisible(height), n)
    ensures CursorIn(cursor, n) && n > 0 ==> w.start <= cursor < w.end
  {
    var maxVisible := MaxVisible(height);
    var start := if cursor - maxVisible / 2 < 0 then 0 else cursor - maxVisible / 2;
    var end := start + maxVisible;
    if end > n then
      var start' := if n - maxVisible < 0 then 0 else n - maxVisible;
      Window(start', n)
    else Window(start, end)
  }

  /** Away from both ends of the list the cursor sits in the middle of the
      window, half a window below its top. */
  lemma WindowCentred(cursor: int, height: int, n: nat)
    requires cursor >= MaxVisible(height) / 2
    requires cursor - MaxVisible(height) / 2 + MaxVisible(height) <= n
    ensures VisibleWindow(cursor, height, n).start == cursor - MaxVisible(height) / 2
  {
  }

  /** Near the end of the list the window ends at the last row. */
  lemma WindowAtEnd(cursor: int, height: int, n: nat)
    requires 0 <= cursor < n
    requires cursor - MaxVisible(height) / 2 + MaxVisible(height) > n
    ensures VisibleWindow(cursor, height, n).end == n
  {
  }

  /** The title column: what is left of the width after 90 columns, at
      least 30. */
  function TitleWidth(width: int): (r: int)
    ensures r >= 30 && r >= width - 90
    ensures r == 30 || r == width - 90
  {
    if width - 90 < 30 then 30 else width - 90
  }

  const Dots: seq<byte> := [46, 46, 46]

  /** `truncate`: Go's `len` and slicing on bytes. A long string is cut to
      exactly `maxLen` bytes, ending in "..." when there is room; the cut may
      fall inside a multi-byte character. A negative `maxLen` makes Go panic
      on the slice. */
  function TruncateBytes(s: seq<byte>, maxLen: int): (r: seq<byte>)
    requires maxLen >= 0
    ensures |r| == Min(|s|, maxLen)
    ensures |s| <= maxLen ==> r == s
    ensures |s| > maxLen && maxLen <= 3 ==> r == s[..maxLen]
    ensures |s| > maxLen && maxLen > 3 ==> r[..maxLen - 3] == s[..maxLen - 3] && r[maxLen - 3..] == Dots
  {
    if |s| <= maxLen then s
    else if maxLen <= 3 then s[..maxLen]
    else s[..maxLen - 3] + Dots
  }

  /** Byte prefixes of an ASCII string are the encodings of its prefixes. */
  lemma EncodeAsciiPrefix(s: string, k: nat)
    requires IsAscii(s) && k <= |s|
    ensures IsAscii(s[..k])
    ensures Encode(s)[..k] == Encode(s[..k])
  {
    assert s == s[..k] + s[k..];
    EncodeConcat(s[..k], s[k..]);
    EncodeAscii(s[..k]);
  }

  /** On ASCII text the byte cut and the character cut of the table
      (`TruncateWithEllipsis`) give the same string. */
  lemma TruncateBytesAscii(s: string, maxLen: int)
    requires maxLen >= 0 && IsAscii(s)
    ensures TruncateBytes(Encode(s), maxLen) == Encode(TruncateWithEllipsis(s, maxLen))
  {
    EncodeAscii(s);
    if |s| > maxLen {
      if maxLen <= 3 {
        EncodeAsciiPrefix(s, maxLen);
      } else {
        EncodeAsciiPrefix(s, maxLen - 3);
        EncodeConcat(s[..maxLen - 3], "...");
      }
    }
  }

  /** `formatLabels` of this file: "-" for no labels, otherwise the
      comma-joined labels cut to `maxLen` bytes. */
  function FormatLabels(labels: seq<string>, maxLen: int): (r: seq<byte>)
    requires maxLen >= 0
    ensures |labels| == 0 ==> r == Encode("-")
    ensures |labels| > 0 ==> |r| <= maxLen
    ensures |labels| > 0 ==> r == TruncateBytes(Encode(Join(labels, ",")), maxLen)
  {
    if |labels| == 0 then Encode("-") else TruncateBytes(Encode(Join(labels, ",")), maxLen)
  }

  /** On ASCII labels it agrees with the table's `formatLabels` at the
      table's width of 30. */
  lemma FormatLabelsAgreesWithTable(labels: seq<string>)
    requires IsAscii(Join(labels, ","))
    ensures FormatLabels(labels, 30) == Encode(Table.FormatLabels(labels))
  {
    if |labels| > 0 {
      TruncateBytesAscii(Join(labels, ","), 30);
    }
  }

  /** The cells of `formatPRLine`, before padding: number, repo (20 bytes),
      bot (12), CI mark, merge mark, labels (15), version (12) and the
      title cut to the title width. */
  function LineCells(num: int, pr: PullRequest, width: int): (r: seq<seq<byte>>)
    ensures |r| == 8
    ensures |r[1]| <= 20 && |r[2]| <= 12 && |r[6]| <= 12
    ensures |pr.labels| > 0 ==> |r[5]| <= 15
    ensures |r[7]| <= TitleWidth(width)
    ensures |r[7]| == Min(|Encode(pr.title)|, TitleWidth(width))
  {
    [Encode(IntToString(num)),
     TruncateBytes(Encode(RepoName(pr)), 20),
     TruncateBytes(Encode(DisplayName(pr.botType)), 12),
     Encode(pr.checkSummary.status.Symbol()),
     Encode(Table.FormatMergeableState(pr.mergeableState)),
     FormatLabels(pr.labels, 15),
     TruncateBytes(Encode(pr.version), 12),
     TruncateBytes(Encode(pr.title), TitleWidth(width))]
  }
}

=== FILE: tui_world.dfy ===
/** The list screen together with the commands it has started and that
    have not yet reported back (internal/interactive/tui.go). Bubble Tea runs
    each command on its own goroutine, so results arrive in any order; the
    world counts the outstanding commands of each kind. */
module TuiWorld {
  import opened Outcomes
  import opened PullRequests
  import opened TuiFilter
  import opened TuiModel
  import opened TuiInvariants

  datatype World = World(m: Model, merges: nat, rebases: nat, refreshes: nat)

  /** What can happen next: the user presses a key or resizes the terminal,
      or an outstanding command reports its result. */
  datatype Event =
    | Press(key: string)
    | Resize(width: int, height: int)
    | MergeDone(success: bool, message: string)
    | RebaseDone(success: bool, message: string)
    | RefreshDone(fetched: Result<seq<PullRequest>>)

  /** A command can only report if one of its kind is outstanding. */
  predicate Enabled(w: World, e: Event) {
    match e
    case MergeDone(_, _) => w.merges > 0
    case RebaseDone(_, _) => w.rebases > 0
    case RefreshDone(_) => w.refreshes > 0
    case _ => true
  }

  function MsgOf(e: Event): Msg {
    match e
    case Press(key) => Key(key)
    case Resize(width, height) => WindowSize(width, height)
    case MergeDone(success, message) => MergeResult(success, message)
    case RebaseDone(success, message) => RebaseResult(success, message)
    case RefreshDone(fetched) => RefreshResult(fetched)
  }

  /** Deliver the event's message and start the command `Update` returns. */
  function Next(env: Env, w: World, e: Event): (r: World)
    requires Enabled(w, e)
    ensures r.m == Update(env, w.m, MsgOf(e)).m
  {
    var merges := if e.MergeDone? then w.merges - 1 else w.merges;
    var rebases := if e.RebaseDone? then w.rebases - 1 else w.rebases;
    var refreshes := if e.RefreshDone? then w.refreshes - 1 else w.refreshes;
    var s := Update(env, w.m, MsgOf(e));
    World(s.m,
          merges + (if s.cmd.Merge? then 1 else 0),
          rebases + (if s.cmd.Rebase? then 1 else 0),
          refreshes + (if s.cmd.Refresh? then 1 else 0))
  }

  function Start(prs: seq<PullRequest>): World {
    World(Initial(prs), 0, 0, 0)
  }

  /** The flags tell the truth about what is in flight: at most one merge
      and at most one rebase, each exactly while its flag is up; a raised
      `refreshing` means some refresh is outstanding (there can be two). */
  predicate WorldInv(w: World) {
    && Inv(w.m)
    && w.merges == (if w.m.merging then 1 else 0)
    && w.rebases == (if w.m.rebasing then 1 else 0)
    && (w.m.refreshing ==> w.refreshes >= 1)
  }

  lemma StartInv(prs: seq<PullRequest>)
    ensures WorldInv(Start(prs))
  {
  }

  lemma NextInv(env: Env, w: World, e: Event)
    requires WorldInv(w) && Enabled(w, e)
    ensures WorldInv(Next(env, w, e))
  {
    UpdateInv(env, w.m, MsgOf(e));
    CommandOrigins(env, w.m, MsgOf(e));
    FlagsFollowCommands(env, w.m, MsgOf(e));
  }

  // ---------------------------------------------------------------------
  // Single steps used by the scenarios below

  /** "r" in browse mode with no merge or refresh in flight starts a
      refresh and changes nothing else the scenarios look at. */
  lemma RefreshStep(env: Env, w: World)
    requires !w.m.searchMode && !w.m.confirmMode && !w.m.merging && !w.m.refreshing
    ensures var w' := Next(env, w, Press("r"));
      && w'.refreshes == w.refreshes + 1 && w'.merges == w.merges && w'.m.refreshing
      && w'.m.prs == w.m.prs && w'.m.filtered == w.m.filtered && w'.m.cursor == w.m.cursor
      && !w'.m.searchMode && !w'.m.confirmMode && !w'.m.merging && !w'.m.rebasing == !w.m.rebasing
  {
    assert ActionOf("r") == RefreshKey;
  }

  /** "enter" in browse mode offers the row under the cursor. */
  lemma OfferStep(env: Env, w: World)
    requires !w.m.searchMode && !w.m.confirmMode && 0 <= w.m.cursor < |w.m.filtered|
    requires w.m.filtered[w.m.cursor].mergeableState != Conflicting
    ensures var w' := Next(env, w, Press("enter"));
      && w'.m.confirmMode && w'.m.confirmingPR == Some(w.m.filtered[w.m.cursor]) && !w'.m.confirmRebase
      && w'.refreshes == w.refreshes && w'.merges == w.merges
      && w'.m.merging == w.m.merging && w'.m.rebasing == w.m.rebasing && !w'.m.searchMode
      && w'.m.prs == w.m.prs && w'.m.filtered == w.m.filtered && w'.m.shared == w.m.shared
      && w'.m.cursor == w.m.cursor
  {
    OfferUpdate(env, w.m);
  }

  lemma OfferUpdate(env: Env, m: Model)
    requires !m.searchMode && !m.confirmMode && 0 <= m.cursor < |m.filtered|
    requires m.filtered[m.cursor].mergeableState != Conflicting
    ensures Update(env, m, Key("enter")) ==
      Step(ClearMessage(m).(confirmMode := true, confirmingPR := Some(m.filtered[m.cursor]), confirmRebase := false), NoCmd)
  {
    assert ActionOf("enter") == Accept;
    KeyArm(env, m, "enter");
    var m0 := ClearMessage(m);
    assert m0.filtered == m.filtered && m0.cursor == m.cursor && !m0.confirmMode && !m0.searchMode;
  }

  /** "y" on a merge offer with nothing merging or rebasing starts the
      merge. */
  lemma ConfirmStep(env: Env, w: World)
    requires w.m.confirmMode && w.m.confirmingPR.Some? && !w.m.confirmRebase && !w.m.merging && !w.m.rebasing
    requires !w.m.searchMode
    ensures var w' := Next(env, w, Press("y"));
      && w'.merges == w.merges + 1 && w'.refreshes == w.refreshes && w'.m.merging
      && !w'.m.confirmMode && !w'.m.searchMode
      && w'.m.prs == w.m.prs && w'.m.filtered == w.m.filtered && w'.m.shared == w.m.shared
      && w'.m.cursor == w.m.cursor
  {
    assert ActionOf("y") == Accept;
  }

  /** "j" in browse mode moves down a row. */
  lemma DownStep(env: Env, w: World)
    requires !w.m.searchMode && !w.m.confirmMode && 0 <= w.m.cursor < |w.m.filtered| - 1
    ensures var w' := Next(env, w, Press("j"));
      && w'.m.cursor == w.m.cursor + 1 && w'.merges == w.merges && w'.refreshes == w.refreshes
      && w'.m.prs == w.m.prs && w'.m.filtered == w.m.filtered && w'.m.shared == w.m.shared
  {
    DownUpdate(env, w.m);
  }

  lemma DownUpdate(env: Env, m: Model)
    requires !m.searchMode && !m.confirmMode && 0 <= m.cursor < |m.filtered| - 1
    ensures Update(env, m, Key("j")) == Step(ClearMessage(m).(cursor := m.cursor + 1), NoCmd)
  {
    assert ActionOf("j") == Down;
    KeyArm(env, m, "j");
  }

  /** `Update` on a key runs the key's arm on the state with the status line
      cleared. */
  lemma KeyArm(env: Env, m: Model, key: string)
    requires ActionOf(key) == Down || ActionOf(key) == Accept
    ensures var m0 := ClearMessage(m);
      Update(env, m, Key(key)) ==
        if ActionOf(key) == Accept then OnAccept(env, m0)
        else Step(if !m0.searchMode && !m0.confirmMode && m0.cursor < |m0.filtered| - 1
                  then m0.(cursor := m0.cursor + 1) else m0, NoCmd)
  {
  }

  /** A successful merge result removes the row under the cursor from
      `filtered` and starts one more refresh. With separate lists the pull
      request leaves `prs` too; on the shared array of the empty query `prs`
      loses it only when it was the last row, and otherwise keeps its length
      with the last row of `filtered` in two places. */
  lemma MergedStep(env: Env, w: World)
    requires w.merges > 0 && 0 <= w.m.cursor < |w.m.filtered|
    ensures var w', c, n := Next(env, w, MergeDone(true, "")), w.m.cursor, |w.m.filtered|;
      && w'.refreshes == w.refreshes + 1
      && (!w.m.shared ==>
            && w'.m.filtered == w.m.filtered[..c] + w.m.filtered[c + 1..]
            && w'.m.prs == RemoveFirst(w.m.prs, w.m.filtered[c]))
      && (w.m.shared && n <= |w.m.prs| && w.m.filtered == w.m.prs[..n] && UniqueAt(w.m.prs, c) ==>
            && w'.m.filtered == w.m.filtered[..c] + w.m.filtered[c + 1..]
            && w'.m.prs == if c < n - 1 then w.m.prs[..c] + w.m.prs[c + 1..n] + w.m.prs[n - 1..]
                           else w.m.prs[..c] + w.m.prs[c + 1..])
  {
    MergeResultSpec(w.m, true, "");
  }

  /** Pressing "r" and then merging the first pull request leaves two
      refreshes outstanding at once: the merge result starts a refresh
      without looking at `refreshing`. */
  lemma DoubleRefresh(env: Env, prs: seq<PullRequest>)
    requires |prs| > 0 && prs[0].mergeableState != Conflicting
    ensures var w1 := Next(env, Start(prs), Press("r"));
      var w2 := Next(env, w1, Press("enter"));
      var w3 := Next(env, w2, Press("y"));
      && w3.merges == 1
      && Next(env, w3, MergeDone(true, "")).refreshes == 2
  {
    var w0 := Start(prs);
    RefreshStep(env, w0);
    var w1 := Next(env, w0, Press("r"));
    OfferStep(env, w1);
    var w2 := Next(env, w1, Press("enter"));
    ConfirmStep(env, w2);
    var w3 := Next(env, w2, Press("y"));
    MergedStep(env, w3);
  }

  /** The merge result removes whatever row is under the cursor when it
      arrives. Confirm the first of two pull requests, move down while the
      merge runs, and the second one is removed while the merged one stays
      listed. */
  lemma MergeRemovesRowAtArrival(env: Env, a: PullRequest, b: PullRequest)
    requires a.mergeableState != Conflicting && !SamePR(a, b)
    ensures var w1 := Next(env, Start([a, b]), Press("enter"));
      var w2 := Next(env, w1, Press("y"));
      var w3 := Next(env, w2, Press("j"));
      && w2.merges == 1 && w3.merges == 1
      && Next(env, w3, MergeDone(true, "")).m.filtered == [a]
      && Next(env, w3, MergeDone(true, "")).m.prs == [a]
  {
    var prs := [a, b];
    var w0 := Start(prs);
    OfferStep(env, w0);
    var w1 := Next(env, w0, Press("enter"));
    ConfirmStep(env, w1);
    var w2 := Next(env, w1, Press("y"));
    DownStep(env, w2);
    var w3 := Next(env, w2, Press("j"));
    assert w3.m.shared && w3.m.prs == prs && w3.m.filtered == prs && w3.m.cursor == 1;
    assert w3.m.filtered == w3.m.prs[..2] && UniqueAt(prs, 1);
    MergedStep(env, w3);
    assert prs[..1] + prs[2..] == [a];
  }
}

=== FILE: update_pr.dfy ===
/** Ticking Renovate's rebase checkbox in a pull-request body
    (internal/api/update_pr.go). The HTTP update is abstract: its outcome is
    a function of the body sent.

    The pattern `(?m)^(\s*-\s*\[)\s(\]\s*(?:<!--[^>]*-->)?\s*.*?rebase.*?)$`
    is matched by a scanner. From a line start up to the box every space run
    is forced to be maximal; after the box the tail's readings may split its
    spaces differently, but never differ in where the match ends. The
    comment, when it is there, ends at the first '>' after "<!--" and must
    end in "-->"; the comment reading is tried first and the reading without
    it second. `.` does not cross a newline, so the word
    "rebase" must be on the line where the text after the box (and comment)
    resumes, and the match ends at the end of that line. RE2's `\s` does
    include the newline, so the space runs may cross lines. */
module UpdatePr {
  import opened Text
  import opened Outcomes

  /** `^` in multi-line mode. */
  predicate LineStart(s: string, p: nat) {
    p <= |s| && (p == 0 || s[p - 1] == '\n')
  }

  /** Index of the first `c` at or after `i`, or `|s|` when there is none. */
  function ScanTo(s: string, i: nat, c: char): (j: nat)
    requires i <= |s|
    ensures i <= j <= |s|
    ensures j < |s| ==> s[j] == c
    ensures forall k :: i <= k < j ==> s[k] != c
    decreases |s| - i
  {
    if i == |s| || s[i] == c then i else ScanTo(s, i + 1, c)
  }

  /** End of the line holding position `i` (`$` in multi-line mode). */
  function LineEnd(s: string, i: nat): (e: nat)
    requires i <= |s|
    ensures i <= e <= |s|
    ensures e == |s| || s[e] == '\n'
    ensures forall k :: i <= k < e ==> s[k] != '\n'
  {
    ScanTo(s, i, '\n')
  }

  /** The word "rebase" starts at `i`. */
  predicate RebaseAt(s: string, i: int) {
    && 0 <= i && i + 6 <= |s|
    && s[i] == 'r' && s[i + 1] == 'e' && s[i + 2] == 'b'
    && s[i + 3] == 'a' && s[i + 4] == 's' && s[i + 5] == 'e'
  }

  /** "rebase" occurs inside `s[lo..hi]`. */
  predicate RebaseIn(s: string, lo: int, hi: int) {
    exists i :: lo <= i && i + 6 <= hi && RebaseAt(s, i)
  }

  lemma RebaseAtOccurs(s: string, i: nat)
    ensures RebaseAt(s, i) <==> OccursAt(s, "rebase", i)
  {
    if i + 6 <= |s| {
      var w := s[i..i + 6];
      assert w[0] == s[i] && w[1] == s[i + 1] && w[2] == s[i + 2];
      assert w[3] == s[i + 3] && w[4] == s[i + 4] && w[5] == s[i + 5];
      if OccursAt(s, "rebase", i) {
        assert w == "rebase";
        assert w[0] == 'r' && w[1] == 'e' && w[2] == 'b' && w[3] == 'a' && w[4] == 's' && w[5] == 'e';
      }
      if RebaseAt(s, i) {
        assert w == "rebase";
      }
    }
  }

  /** The word at `i` in `s` is the word at `i - lo` in `s[lo..hi]`. */
  lemma RebaseAtSlice(s: string, lo: nat, hi: nat, i: nat)
    requires lo <= i && i + 6 <= hi <= |s|
    ensures RebaseAt(s, i) <==> RebaseAt(s[lo..hi], i - lo)
  {
    var t := s[lo..hi];
    assert t[i - lo] == s[i] && t[i - lo + 1] == s[i + 1] && t[i - lo + 2] == s[i + 2];
    assert t[i - lo + 3] == s[i + 3] && t[i - lo + 4] == s[i + 4] && t[i - lo + 5] == s[i + 5];
  }

  /** `RebaseIn` is `strings.Contains` on the slice. */
  lemma RebaseInContains(s: string, lo: nat, hi: nat)
    requires lo <= hi <= |s|
    ensures RebaseIn(s, lo, hi) <==> Contains(s[lo..hi], "rebase")
  {
    var t := s[lo..hi];
    if RebaseIn(s, lo, hi) {
      var i :| lo <= i && i + 6 <= hi && RebaseAt(s, i);
      RebaseAtSlice(s, lo, hi, i);
      RebaseAtOccurs(t, i - lo);
    }
    if Contains(t, "rebase") {
      var j: nat :| j <= |t| && OccursAt(t, "rebase", j);
      RebaseAtOccurs(t, j);
      RebaseAtSlice(s, lo, hi, lo + j);
    }
  }

  /** `.*?rebase.*?$` from `w`: "rebase" occurs between `w` and the end of
      its line. */
  predicate RebaseOnLine(s: string, w: nat)
    requires w <= |s|
  {
    RebaseIn(s, w, LineEnd(s, w))
  }

  /** `s[lo..hi]` is what a `\s*` consumed: spaces only, possibly none. */
  predicate Spaces(s: string, lo: int, hi: int) {
    0 <= lo <= hi <= |s| && forall k {:trigger IsRegexSpace(s[k])} :: lo <= k < hi ==> IsRegexSpace(s[k])
  }

  /** A maximal run of spaces is where `SkipSpaces` stops. */
  lemma SpacesExact(s: string, lo: nat, hi: nat)
    requires Spaces(s, lo, hi) && (hi == |s| || !IsRegexSpace(s[hi]))
    ensures SkipSpaces(s, lo) == hi
  {
  }

  lemma SpacesAtLeast(s: string, lo: nat, hi: nat)
    requires Spaces(s, lo, hi)
    ensures SkipSpaces(s, lo) >= hi
  {
  }

  /** "<!--" starts at `i`. */
  predicate Opens(s: string, i: int) {
    0 <= i && i + 4 <= |s| && s[i] == '<' && s[i + 1] == '!' && s[i + 2] == '-' && s[i + 3] == '-'
  }

  /** `<!--[^>]*-->` spans `s[lo..hi]`; `[^>]` may cross lines. */
  predicate CommentSpan(s: string, lo: int, hi: int) {
    && 0 <= lo && lo + 7 <= hi <= |s|
    && Opens(s, lo) && s[hi - 3] == '-' && s[hi - 2] == '-' && s[hi - 1] == '>'
    && forall k :: lo + 4 <= k < hi - 3 ==> s[k] != '>'
  }

  /** The position after a `<!--[^>]*-->` comment starting at `i`: the
      comment ends at the first '>' after "<!--". */
  function CommentEnd(s: string, i: nat): (r: Option<nat>)
    requires i <= |s|
    ensures r.Some? ==> CommentSpan(s, i, r.value)
  {
    if !Opens(s, i) then None
    else
      var g := ScanTo(s, i + 4, '>');
      if g < |s| && g - 2 >= i + 4 && s[g - 2] == '-' && s[g - 1] == '-' then Some(g + 1)
      else None
  }

  /** Every comment the pattern admits at `i` is the one `CommentEnd` finds. */
  lemma CommentEndExact(s: string, i: nat, j: nat)
    requires i <= |s| && CommentSpan(s, i, j)
    ensures CommentEnd(s, i) == Some(j)
  {
    ScanToExact(s, i + 4, j - 1, '>');
  }

  lemma ScanToEnd(s: string, i: nat, c: char)
    requires i <= |s|
    requires forall k :: i <= k < |s| ==> s[k] != c
    ensures ScanTo(s, i, c) == |s|
  {
  }

  lemma ScanToExact(s: string, i: nat, j: nat, c: char)
    requires i <= j < |s| && s[j] == c
    requires forall k :: i <= k < j ==> s[k] != c
    ensures ScanTo(s, i, c) == j
  {
  }

  /** `.*?rebase.*?$` spans `s[lo..hi]`: `.` does not cross a newline, the
      word occurs in the span, and `$` puts `hi` at the end of a line. */
  predicate RebaseTail(s: string, lo: int, hi: int) {
    && 0 <= lo <= hi <= |s| && (hi == |s| || s[hi] == '\n')
    && (forall k :: lo <= k < hi ==> s[k] != '\n')
    && RebaseIn(s, lo, hi)
  }

  /** `\s*-\s*\[` then the box and `\]` from `p`: spaces up to the dash at
      `a`, spaces up to the '[' at `b`, the box at `b + 1`, the ']' at
      `b + 2`. */
  predicate BoxShape(s: string, p: nat, a: int, b: int) {
    && Spaces(s, p, a) && a < |s| && s[a] == '-'
    && Spaces(s, a + 1, b) && b + 2 < |s| && s[b] == '[' && IsRegexSpace(s[b + 1]) && s[b + 2] == ']'
  }

  /** `\s*(?:<!--[^>]*-->)?\s*.*?rebase.*?$` from `w`: spaces up to `c`, the
      comment in `s[c..c2]` (none when `c2 == c`), spaces up to `d`, and the
      rebase tail up to the end `e` of the match. */
  predicate TailShape(s: string, w: int, c: int, c2: int, d: int, e: int) {
    && Spaces(s, w, c)
    && (c2 == c || CommentSpan(s, c, c2))
    && Spaces(s, c2, d)
    && RebaseTail(s, d, e)
  }

  /** One way `(?m)^(\s*-\s*\[)\s(\]\s*(?:<!--[^>]*-->)?\s*.*?rebase.*?)$`
      matches at `p`: a line start, the box part up to the ']' at `b + 2`,
      and the tail after it. */
  predicate CheckboxShape(s: string, p: nat, a: int, b: int, c: int, c2: int, d: int, e: int) {
    LineStart(s, p) && BoxShape(s, p, a, b) && TailShape(s, b + 3, c, c2, d, e)
  }

  /** The tail from `w` can be read through a comment. */
  ghost predicate CommentReading(s: string, w: int) {
    exists c, c2, d, e :: c2 != c && TailShape(s, w, c, c2, d, e)
  }

  ghost predicate CheckboxMatchesAt(s: string, p: nat) {
    exists a, b, c, c2, d, e :: CheckboxShape(s, p, a, b, c, c2, d, e)
  }

  /** A match: the box character at `box` and the end of the match. */
  datatype Match = Match(box: nat, end: nat)

  predicate IsBox(s: string, k: int) {
    0 < k < |s| - 1 && s[k - 1] == '[' && IsRegexSpace(s[k]) && s[k + 1] == ']'
  }

  /** The box part of the pattern from `p`: where its '[' is. Each space
      run is greedy and stops at a dash or '[', which are not spaces, so the
      runs are forced. */
  function BoxAt(s: string, p: nat): (b: Option<nat>)
    requires p <= |s|
    ensures b.Some? ==> p < b.value && b.value + 2 < |s| && s[b.value] == '['
                        && IsRegexSpace(s[b.value + 1]) && s[b.value + 2] == ']'
  {
    var a := SkipSpaces(s, p);
    if a == |s| || s[a] != '-' then None
    else
      var b := SkipSpaces(s, a + 1);
      if b + 2 >= |s| || s[b] != '[' || !IsRegexSpace(s[b + 1]) || s[b + 2] != ']' then None
      else Some(b)
  }

  /** The tail of the pattern from `w`: where the match ends. The optional
      comment is tried first, then the reading without it. */
  function TailEnd(s: string, w: nat): (e: Option<nat>)
    requires w <= |s|
    ensures e.Some? ==> w <= e.value <= |s| && (e.value == |s| || s[e.value] == '\n')
  {
    var w1 := SkipSpaces(s, w);
    var comment := CommentEnd(s, w1);
    if comment.Some? && RebaseOnLine(s, SkipSpaces(s, comment.value)) then
      Some(LineEnd(s, SkipSpaces(s, comment.value)))
    else if RebaseOnLine(s, w1) then Some(LineEnd(s, w1))
    else None
  }

  /** The reading `TailEnd` takes from `w`: where the spaces before the
      comment stop, where the comment ends (the same place when it is
      skipped) and where the spaces before the rebase tail stop. */
  function TailReading(s: string, w: nat): (nat, nat, nat)
    requires w <= |s|
  {
    var w1 := SkipSpaces(s, w);
    var comment := CommentEnd(s, w1);
    if comment.Some? && RebaseOnLine(s, SkipSpaces(s, comment.value)) then
      (w1, comment.value, SkipSpaces(s, comment.value))
    else (w1, w1, w1)
  }

  /** The pattern at line start `p`, if it matches there. */
  function MatchAt(s: string, p: nat): (r: Option<Match>)
    requires p <= |s|
    ensures r.Some? ==> p < r.value.box && r.value.box + 1 < r.value.end <= |s|
    ensures r.Some? ==> IsBox(s, r.value.box)
    ensures r.Some? ==> r.value.end == |s| || s[r.value.end] == '\n'
  {
    match BoxAt(s, p)
    case None => None
    case Some(b) =>
      match TailEnd(s, b + 3)
      case None => None
      case Some(e) => Some(Match(b + 1, e))
  }

  /** Greedy spaces from `lo` stop no later than the word of a rebase tail
      that starts inside them, so the tail can resume where they stop. */
  lemma SpacesThenTail(s: string, lo: nat, d: nat, e: nat)
    requires Spaces(s, lo, d) && RebaseTail(s, d, e)
    ensures var w := SkipSpaces(s, lo);
      d <= w <= e && RebaseOnLine(s, w) && LineEnd(s, w) == e
  {
    var w := SkipSpaces(s, lo);
    SpacesAtLeast(s, lo, d);
    var i :| d <= i && i + 6 <= e && RebaseAt(s, i);
    assert !IsRegexSpace(s[i]);
    LineEndExact(s, w, e);
  }

  lemma LineEndExact(s: string, i: nat, e: nat)
    requires i <= e <= |s| && (e == |s| || s[e] == '\n')
    requires forall k :: i <= k < e ==> s[k] != '\n'
    ensures LineEnd(s, i) == e
  {
    if e < |s| {
      ScanToExact(s, i, e, '\n');
    } else {
      ScanToEnd(s, i, '\n');
    }
  }

  lemma BoxAtSound(s: string, p: nat)
    requires p <= |s| && BoxAt(s, p).Some?
    ensures BoxShape(s, p, SkipSpaces(s, p), BoxAt(s, p).value)
  {
  }

  lemma BoxAtComplete(s: string, p: nat, a: int, b: int)
    requires p <= |s| && BoxShape(s, p, a, b)
    ensures BoxAt(s, p) == Some(b)
  {
    SpacesExact(s, p, a);
    SpacesExact(s, a + 1, b);
  }

  lemma TailEndSound(s: string, w: nat)
    requires w <= |s| && TailEnd(s, w).Some?
    ensures var t := TailReading(s, w); TailShape(s, w, t.0, t.1, t.2, TailEnd(s, w).value)
  {
  }

  /** Every reading of the tail is found; one through the comment also has
      the same end, since the comment is tried first. */
  lemma TailEndComplete(s: string, w: nat, c: int, c2: int, d: int, e: int)
    requires w <= |s| && TailShape(s, w, c, c2, d, e)
    ensures TailEnd(s, w).Some?
    ensures c2 != c ==> TailEnd(s, w).value == e
  {
    if c2 != c {
      assert s[c] == '<';
      SpacesExact(s, w, c);
      CommentEndExact(s, c, c2);
      SpacesThenTail(s, c2, d, e);
    } else {
      SpacesThenTail(s, w, d, e);
    }
  }

  /** When `TailEnd` takes the comment, a reading through a comment exists. */
  lemma CommentTaken(s: string, w: nat)
    requires w <= |s|
    ensures var comment := CommentEnd(s, SkipSpaces(s, w));
      comment.Some? && RebaseOnLine(s, SkipSpaces(s, comment.value)) ==> CommentReading(s, w)
  {
    var comment := CommentEnd(s, SkipSpaces(s, w));
    if comment.Some? && RebaseOnLine(s, SkipSpaces(s, comment.value)) {
      TailEndSound(s, w);
      var t := TailReading(s, w);
      assert t.1 != t.0 && TailShape(s, w, t.0, t.1, t.2, TailEnd(s, w).value);
    }
  }

  /** A reading that skips the comment is the one found when no reading
      goes through a comment. */
  lemma TailEndPlain(s: string, w: nat, c: int, d: int, e: int)
    requires w <= |s| && TailShape(s, w, c, c, d, e) && !CommentReading(s, w)
    ensures TailEnd(s, w) == Some(e)
  {
    CommentTaken(s, w);
    SpacesThenTail(s, w, d, e);
  }

  /** `MatchAt` in terms of its two scanners. */
  lemma MatchAtParts(s: string, p: nat)
    requires p <= |s|
    ensures MatchAt(s, p) == (if BoxAt(s, p).None? || TailEnd(s, BoxAt(s, p).value + 3).None? then None
                              else Some(Match(BoxAt(s, p).value + 1, TailEnd(s, BoxAt(s, p).value + 3).value)))
  {
  }

  /** The two scanners together read the whole pattern. */
  lemma ScanShape(s: string, p: nat)
    requires LineStart(s, p) && BoxAt(s, p).Some? && TailEnd(s, BoxAt(s, p).value + 3).Some?
    ensures var b := BoxAt(s, p).value; var t := TailReading(s, b + 3);
      CheckboxShape(s, p, SkipSpaces(s, p), b, t.0, t.1, t.2, TailEnd(s, b + 3).value)
  {
    BoxAtSound(s, p);
    TailEndSound(s, BoxAt(s, p).value + 3);
  }

  /** `MatchAt` from what its two scanners read. */
  lemma MatchAtOf(s: string, p: nat, b: nat, e: nat)
    requires p <= |s| && BoxAt(s, p) == Some(b) && TailEnd(s, b + 3) == Some(e)
    ensures MatchAt(s, p) == Some(Match(b + 1, e))
  {
    MatchAtParts(s, p);
  }

  /** Whatever the scanner reports at a line start is a match of the pattern
      there, with the same box and the same end. */
  lemma MatchAtSound(s: string, p: nat)
    requires LineStart(s, p) && MatchAt(s, p).Some?
    ensures var b := BoxAt(s, p).value; var t := TailReading(s, b + 3);
      && MatchAt(s, p).value.box == b + 1
      && CheckboxShape(s, p, SkipSpaces(s, p), b, t.0, t.1, t.2, MatchAt(s, p).value.end)
  {
    MatchAtParts(s, p);
    ScanShape(s, p);
  }

  /** Every way the pattern matches at `p` is found by the scanner, with the
      same box; a reading through the comment also has the same end. */
  lemma MatchAtComplete(s: string, p: nat, a: int, b: int, c: int, c2: int, d: int, e: int)
    requires CheckboxShape(s, p, a, b, c, c2, d, e)
    ensures MatchAt(s, p).Some?
    ensures MatchAt(s, p).value.box == b + 1
    ensures c2 != c ==> MatchAt(s, p).value.end == e
  {
    BoxAtComplete(s, p, a, b);
    TailEndComplete(s, b + 3, c, c2, d, e);
    MatchAtParts(s, p);
  }

  /** A match that skips the comment, when no reading after the box goes
      through one, is found with the same box and the same end. */
  lemma MatchAtPlainEnd(s: string, p: nat, a: int, b: int, c: int, d: int, e: int)
    requires CheckboxShape(s, p, a, b, c, c, d, e) && !CommentReading(s, b + 3)
    ensures MatchAt(s, p) == Some(Match(b + 1, e))
  {
    BoxAtComplete(s, p, a, b);
    TailEndPlain(s, b + 3, c, d, e);
    MatchAtOf(s, p, b, e);
  }

  /** At a line start the scanner succeeds exactly when the pattern matches. */
  lemma MatchAtIff(s: string, p: nat)
    requires LineStart(s, p)
    ensures MatchAt(s, p).Some? <==> CheckboxMatchesAt(s, p)
  {
    if MatchAt(s, p).Some? {
      MatchAtFound(s, p);
    }
    if CheckboxMatchesAt(s, p) {
      var a, b, c, c2, d, e :| CheckboxShape(s, p, a, b, c, c2, d, e);
      MatchAtComplete(s, p, a, b, c, c2, d, e);
    }
  }

  /** A line start where the scanner reports a match is one where the
      pattern matches. */
  lemma MatchAtFound(s: string, p: nat)
    requires LineStart(s, p) && MatchAt(s, p).Some?
    ensures CheckboxMatchesAt(s, p)
  {
    MatchAtSound(s, p);
    var b := BoxAt(s, p).value;
    var t := TailReading(s, b + 3);
    ShapeIntro(s, p, SkipSpaces(s, p), b, t.0, t.1, t.2, MatchAt(s, p).value.end);
  }

  lemma ShapeIntro(s: string, p: nat, a: int, b: int, c: int, c2: int, d: int, e: int)
    requires CheckboxShape(s, p, a, b, c, c2, d, e)
    ensures CheckboxMatchesAt(s, p)
  {
  }

  /** The leftmost match starting at or after `from`. */
  datatype Hit = Hit(start: nat, m: Match)

  /** A matcher on `s` whose matches hold a box and end after it. */
  ghost predicate Sound(s: string, at: nat -> Option<Match>) {
    forall p: nat :: at(p).Some? ==>
      p < at(p).value.box && at(p).value.box + 1 < at(p).value.end <= |s| && IsBox(s, at(p).value.box)
  }

  /** The pattern as a function of the line start, `MatchAt` on `s`. */
  function Matcher(s: string): (at: nat -> Option<Match>)
    ensures Sound(s, at)
  {
    (p: nat) => if p <= |s| then MatchAt(s, p) else None
  }

  /** The leftmost line start at or after `from` where `at` matches: the
      regexp engine's scan for the next match. */
  function FindMatch(s: string, from: nat, at: nat -> Option<Match>): (r: Option<Hit>)
    requires from <= |s|
    ensures r.Some? ==> from <= r.value.start <= |s| && LineStart(s, r.value.start)
                        && at(r.value.start) == Some(r.value.m)
    ensures r.Some? ==> forall p :: from <= p < r.value.start && LineStart(s, p) ==> at(p).None?
    ensures r.None? ==> forall p :: from <= p <= |s| && LineStart(s, p) ==> at(p).None?
    decreases |s| - from
  {
    if LineStart(s, from) && at(from).Some? then Some(Hit(from, at(from).value))
    else if from == |s| then None
    else FindMatch(s, from + 1, at)
  }

  /** The boxes `ReplaceAllString` rewrites: successive non-overlapping
      matches, each search resuming where the previous match ended. */
  function Boxes(s: string, from: nat, at: nat -> Option<Match>): (r: seq<nat>)
    requires from <= |s| && Sound(s, at)
    ensures forall k :: 0 <= k < |r| ==> from < r[k] && IsBox(s, r[k])
    ensures FindMatch(s, from, at).None? <==> |r| == 0
    ensures |r| > 0 ==> r[0] == FindMatch(s, from, at).value.m.box
    decreases |s| - from
  {
    match FindMatch(s, from, at)
    case None => []
    case Some(hit) => [hit.m.box] + Boxes(s, hit.m.end, at)
  }

  /** The successive non-overlapping matches `ReplaceAllString` visits from
      `from`: the first is the leftmost, each next one is the leftmost from
      where the previous one ended, and after the last nothing matches. */
  function Hits(s: string, from: nat, at: nat -> Option<Match>): (r: seq<Hit>)
    requires from <= |s| && Sound(s, at)
    ensures |r| == 0 <==> FindMatch(s, from, at).None?
    ensures |r| > 0 ==> FindMatch(s, from, at) == Some(r[0])
    ensures forall k :: 0 <= k < |r| ==> from <= r[k].start && r[k].m.end <= |s| && IsBox(s, r[k].m.box)
    ensures forall k :: 0 <= k < |r| - 1 ==> FindMatch(s, r[k].m.end, at) == Some(r[k + 1])
    ensures |r| > 0 ==> FindMatch(s, r[|r| - 1].m.end, at).None?
    decreases |s| - from
  {
    match FindMatch(s, from, at)
    case None => []
    case Some(hit) => [hit] + Hits(s, hit.m.end, at)
  }

  /** `Boxes` is the box of every one of these matches, in order. */
  lemma {:induction false} BoxesOfHits(s: string, from: nat, at: nat -> Option<Match>)
    requires from <= |s| && Sound(s, at)
    ensures |Boxes(s, from, at)| == |Hits(s, from, at)|
    ensures forall k :: 0 <= k < |Hits(s, from, at)| ==> Boxes(s, from, at)[k] == Hits(s, from, at)[k].m.box
    decreases |s| - from
  {
    match FindMatch(s, from, at)
    case None =>
    case Some(hit) => BoxesOfHits(s, hit.m.end, at);
  }

  /** `s` with the characters at `boxes` replaced by 'x'. */
  function Tick(s: string, boxes: seq<nat>): (r: string)
    ensures |r| == |s|
    ensures forall k :: 0 <= k < |s| ==> r[k] == (if k in boxes then 'x' else s[k])
  {
    seq(|s|, k requires 0 <= k < |s| => if k in boxes then 'x' else s[k])
  }

  const NotFound := "rebase checkbox not found in PR body"

  /** `CheckRenovateRebaseCheckbox`: fails exactly when the pattern matches
      at no line start; otherwise the body keeps its length and only
      characters between '[' and ']' that were spaces change, each to 'x',
      and at least one does. */
  function CheckRenovateRebaseCheckbox(body: string): (r: Result<string>)
    ensures r.Failure? <==> forall p :: 0 <= p <= |body| && LineStart(body, p) ==> MatchAt(body, p).None?
    ensures r.Failure? ==> r.error == NotFound
    ensures r.Success? ==> |r.value| == |body|
    ensures r.Success? ==> forall k :: 0 <= k < |body| && r.value[k] != body[k] ==>
                             IsBox(body, k) && r.value[k] == 'x'
    ensures r.Success? ==> r.value != body
  {
    if FindMatch(body, 0, Matcher(body)).None? then Failure(NotFound)
    else
      var boxes := Boxes(body, 0, Matcher(body));
      var out := Tick(body, boxes);
      assert out[boxes[0]] == 'x' != body[boxes[0]];
      Success(out)
  }

  /** The rewrite ticks the box of every successive match and changes
      nothing else. */
  lemma TicksEveryMatch(body: string)
    requires CheckRenovateRebaseCheckbox(body).Success?
    ensures var out, hits := CheckRenovateRebaseCheckbox(body).value, Hits(body, 0, Matcher(body));
      && (forall j :: 0 <= j < |hits| ==> out[hits[j].m.box] == 'x')
      && (forall k :: 0 <= k < |body| && out[k] != body[k] ==>
            exists j :: 0 <= j < |hits| && hits[j].m.box == k)
  {
    var at := Matcher(body);
    BoxesOfHits(body, 0, at);
    RewriteIsTick(body);
    TickOfHits(body, Boxes(body, 0, at), Hits(body, 0, at));
  }

  lemma RewriteIsTick(body: string)
    requires CheckRenovateRebaseCheckbox(body).Success?
    ensures CheckRenovateRebaseCheckbox(body).value == Tick(body, Boxes(body, 0, Matcher(body)))
  {
  }

  lemma TickOfHits(s: string, boxes: seq<nat>, hits: seq<Hit>)
    requires |boxes| == |hits|
    requires forall k :: 0 <= k < |hits| ==> boxes[k] == hits[k].m.box && hits[k].m.box < |s|
    ensures forall j :: 0 <= j < |hits| ==> Tick(s, boxes)[hits[j].m.box] == 'x'
    ensures forall k :: 0 <= k < |s| && Tick(s, boxes)[k] != s[k] ==>
      exists j :: 0 <= j < |hits| && hits[j].m.box == k
  {
    var out := Tick(s, boxes);
    forall j | 0 <= j < |hits|
      ensures out[hits[j].m.box] == 'x'
    {
      assert hits[j].m.box in boxes;
    }
    forall k | 0 <= k < |s| && out[k] != s[k]
      ensures exists j :: 0 <= j < |hits| && hits[j].m.box == k
    {
      var j :| 0 <= j < |boxes| && boxes[j] == k;
      assert hits[j].m.box == k;
    }
  }

  /** `pattern.MatchString(body)` decides the error: the rewrite fails
      exactly when the pattern matches at no position of the body. */
  lemma CheckboxFoundIff(body: string)
    ensures CheckRenovateRebaseCheckbox(body).Failure? <==>
      forall p: nat :: p <= |body| ==> !CheckboxMatchesAt(body, p)
  {
    var r := CheckRenovateRebaseCheckbox(body);
    if r.Failure? {
      forall p: nat | p <= |body|
        ensures !CheckboxMatchesAt(body, p)
      {
        if LineStart(body, p) {
          MatchAtIff(body, p);
        }
      }
    } else {
      var p: nat :| p <= |body| && LineStart(body, p) && MatchAt(body, p).Some?;
      MatchAtIff(body, p);
    }
  }

  /** When the rewrite succeeds, the first box it ticks is the box of the
      leftmost match of the pattern. */
  lemma FirstBoxLeftmost(body: string)
    requires CheckRenovateRebaseCheckbox(body).Success?
    ensures exists p: nat, a, b, c, c2, d, e ::
      && CheckboxShape(body, p, a, b, c, c2, d, e)
      && (forall q: nat :: q < p ==> !CheckboxMatchesAt(body, q))
      && Boxes(body, 0, Matcher(body))[0] == b + 1
  {
    var at := Matcher(body);
    var h := FindMatch(body, 0, at).value;
    var p := h.start;
    assert at(p) == MatchAt(body, p);
    MatchAtSound(body, p);
    var b := BoxAt(body, p).value;
    var t := TailReading(body, b + 3);
    assert CheckboxShape(body, p, SkipSpaces(body, p), b, t.0, t.1, t.2, h.m.end);
    assert Boxes(body, 0, at)[0] == b + 1;
    NoMatchBefore(body, h);
  }

  /** No line start before the scan's first hit matches the pattern. */
  lemma NoMatchBefore(body: string, h: Hit)
    requires FindMatch(body, 0, Matcher(body)) == Some(h)
    ensures forall q: nat :: q < h.start ==> !CheckboxMatchesAt(body, q)
  {
    var at := Matcher(body);
    forall q: nat | q < h.start
      ensures !CheckboxMatchesAt(body, q)
    {
      if LineStart(body, q) {
        assert at(q).None?;
        MatchAtIff(body, q);
      }
    }
  }

  /** The outcome of `TriggerRenovateRebase`: the body handed to the update
      call, if any, and the returned error. */
  datatype Trigger = Trigger(sent: Option<string>, err: Option<string>)

  /** `TriggerRenovateRebase`: a body without a checkbox is an error and
      nothing is sent; otherwise exactly the rewritten body is sent and the
      update's error, if any, is passed on. `update` gives the error of the
      PATCH request for a body, or None when it succeeds. */
  function TriggerRenovateRebase(body: string, update: string -> Option<string>): (r: Trigger)
    ensures CheckRenovateRebaseCheckbox(body).Failure? ==>
      r == Trigger(None, Some("failed to process rebase checkbox: " + NotFound))
    ensures CheckRenovateRebaseCheckbox(body).Success? ==>
      r.sent == Some(CheckRenovateRebaseCheckbox(body).value)
    ensures r.sent.Some? ==> (r.err.None? <==> update(r.sent.value).None?)
    ensures r.sent.Some? && r.err.Some? ==> r.err.value == "failed to update PR body: " + update(r.sent.value).value
  {
    match CheckRenovateRebaseCheckbox(body)
    case Failure(e) => Trigger(None, Some("failed to process rebase checkbox: " + e))
    case Success(updated) =>
      match update(updated)
      case None => Trigger(Some(updated), None)
      case Some(e) => Trigger(Some(updated), Some("failed to update PR body: " + e))
  }

  /** A one-line body "- [ ]…" that mentions "rebase" gets its box ticked and
      nothing else changes; Renovate's own line
      "- [ ] <!-- rebase-check -->If you want to rebase/retry this PR, check this box"
      is one of these. */
  lemma TicksSingleLine(t: string)
    requires '\n' !in t && Contains(t, "rebase")
    ensures CheckRenovateRebaseCheckbox("- [ ]" + t) == Success("- [x]" + t)
  {
    var s := "- [ ]" + t;
    SingleLineBoxes(t);
    TickSingleBox(t);
  }

  /** The only box rewritten in the one-line body is the one at index 3. */
  lemma SingleLineBoxes(t: string)
    requires '\n' !in t && Contains(t, "rebase")
    ensures FindMatch("- [ ]" + t, 0, Matcher("- [ ]" + t)).Some?
    ensures Boxes("- [ ]" + t, 0, Matcher("- [ ]" + t)) == [3]
  {
    var s := "- [ ]" + t;
    SingleLineMatch(t);
    assert FindMatch(s, 0, Matcher(s)) == Some(Hit(0, Match(3, |s|)));
    NothingAtEnd(s);
  }

  /** No match starts at the end of a body that does not end in a newline. */
  lemma NothingAtEnd(s: string)
    requires |s| > 0 && s[|s| - 1] != '\n'
    ensures FindMatch(s, |s|, Matcher(s)).None?
    ensures Boxes(s, |s|, Matcher(s)) == []
  {
  }

  lemma TickSingleBox(t: string)
    ensures Tick("- [ ]" + t, [3]) == "- [x]" + t
  {
    var out := Tick("- [ ]" + t, [3]);
    assert out == "- [x]" + t;
  }

  lemma SingleLineMatch(t: string)
    requires '\n' !in t && Contains(t, "rebase")
    ensures '\n' !in "- [ ]" + t
    ensures MatchAt("- [ ]" + t, 0) == Some(Match(3, |t| + 5))
  {
    var s := "- [ ]" + t;
    NoNewlineAfterBox(t);
    NoNewlineLineEnd(s, SkipSpaces(s, 5));
    BoxPrefix(t);
    RebaseAfterBox(t);
  }

  lemma NoNewlineAfterBox(t: string)
    requires '\n' !in t
    ensures '\n' !in "- [ ]" + t
  {
    var s := "- [ ]" + t;
    forall k | 0 <= k < |s| ensures s[k] != '\n' {
      if k >= 5 {
        assert s[k] == t[k - 5];
      }
    }
  }

  /** The scanner's first steps on "- [ ]": no leading space, the dash, no
      space before the box, and the box itself. */
  lemma BoxPrefix(t: string)
    ensures var s := "- [ ]" + t;
      && SkipSpaces(s, 0) == 0 && s[0] == '-'
      && SkipSpaces(s, 1) == 2 && 4 < |s|
      && s[2] == '[' && IsRegexSpace(s[3]) && s[4] == ']'
  {
    var s := "- [ ]" + t;
    assert s[0] == '-' && s[1] == ' ' && s[2] == '[' && s[3] == ' ' && s[4] == ']';
  }

  /** "rebase" in `t` lies after the spaces that follow the box. */
  lemma RebaseAfterBox(t: string)
    requires '\n' !in t && Contains(t, "rebase")
    ensures RebaseOnLine("- [ ]" + t, SkipSpaces("- [ ]" + t, 5))
  {
    var s := "- [ ]" + t;
    NoNewlineAfterBox(t);
    var w1 := SkipSpaces(s, 5);
    var i: nat :| i <= |t| && OccursAt(t, "rebase", i);
    RebaseAtOccurs(t, i);
    assert s[5 + i..5 + i + 6] == t[i..i + 6];
    RebaseAtOccurs(s, 5 + i);
    assert !IsRegexSpace(s[5 + i]);
    NoNewlineLineEnd(s, w1);
  }

  lemma NoNewlineLineEnd(s: string, i: nat)
    requires '\n' !in s && i <= |s|
    ensures LineEnd(s, i) == |s|
  {
  }
}

=== FILE: utf8.dfy ===
/** The UTF-8 byte view of a string. Go strings are byte sequences: `len`,
    slicing and `<` work on bytes, while `range` and `[]rune` work on code
    points. The model keeps text as code points and encodes where the program
    looks at bytes. */
module Utf8 {

  newtype byte = b: int | 0 <= b < 256

  /** UTF-8 encoding of one Unicode scalar value (RFC 3629, section 3). */
  function EncodeRune(c: char): (r: seq<byte>)
    ensures 1 <= |r| <= 4
    ensures |r| == 1 <==> c as int < 0x80
    ensures |r| == 1 ==> r[0] as int == c as int
    ensures |r| > 1 ==> r[0] >= 0xC0
  {
    var cp := c as int;
    if cp < 0x80 then [cp as byte]
    else if cp < 0x800 then [(0xC0 + cp / 0x40) as byte, (0x80 + cp % 0x40) as byte]
    else if cp < 0x1_0000 then
      [(0xE0 + cp / 0x1000) as byte, (0x80 + (cp / 0x40) % 0x40) as byte, (0x80 + cp % 0x40) as byte]
    else
      [(0xF0 + cp / 0x4_0000) as byte, (0x80 + (cp / 0x1000) % 0x40) as byte,
       (0x80 + (cp / 0x40) % 0x40) as byte, (0x80 + cp % 0x40) as byte]
  }

  /** The bytes of a string, as Go stores it. */
  function Encode(s: string): (r: seq<byte>)
    ensures |r| >= |s|
  {
    if |s| == 0 then [] else EncodeRune(s[0]) + Encode(s[1..])
  }

  predicate IsAscii(s: string) {
    forall k :: 0 <= k < |s| ==> s[k] as int < 0x80
  }

  lemma {:induction false} EncodeConcat(a: string, b: string)
    ensures Encode(a + b) == Encode(a) + Encode(b)
  {
    if |a| > 0 {
      assert (a + b)[1..] == a[1..] + b;
      EncodeConcat(a[1..], b);
    } else {
      assert a + b == b;
    }
  }

  /** An ASCII string is its own byte string: one byte per character. */
  lemma {:induction false} EncodeAscii(s: string)
    requires IsAscii(s)
    ensures |Encode(s)| == |s|
    ensures forall k :: 0 <= k < |s| ==> Encode(s)[k] as int == s[k] as int
  {
    if |s| > 0 {
      assert IsAscii(s[1..]) by {
        assert forall k :: 0 <= k < |s[1..]| ==> s[1..][k] == s[k + 1];
      }
      EncodeAscii(s[1..]);
    }
  }

  /** A string whose byte length (Go's `len`) is 1 is exactly one ASCII character. */
  lemma ByteLengthOne(s: string)
    ensures |Encode(s)| == 1 <==> |s| == 1 && s[0] as int < 0x80
  {
    if |s| >= 2 {
      assert |Encode(s[1..])| >= 1;
    }
  }

  /** Dropping the last byte of an ASCII string drops its last character:
      byte-wise backspace on an ASCII query never splits a character. */
  lemma DropLastByteAscii(s: string)
    requires IsAscii(s) && |s| > 0
    ensures Encode(s[..|s| - 1]) == Encode(s)[..|Encode(s)| - 1]
  {
    var init := s[..|s| - 1];
    assert s == init + [s[|s| - 1]];
    EncodeConcat(init, [s[|s| - 1]]);
    assert Encode([s[|s| - 1]]) == EncodeRune(s[|s| - 1]);
  }
}

=== FILE: version.dfy ===
/** Version extraction from a pull-request body (internal/parser/version.go).

    The two patterns are matched by hand-written scanners. For both, every
    backtracking choice of a leftmost-first matcher is forced except the
    length of the last capture, which greedy matching makes maximal. */
module Version {
  import opened Text
  import opened Outcomes
  import opened Bots

  predicate NotRegexSpace(c: char) {
    !IsRegexSpace(c)
  }

  /** The class `[^`\s]`. */
  predicate TokenChar(c: char) {
    c != '`' && !IsRegexSpace(c)
  }

  /** Where the two capture groups of a match lie. */
  datatype Span = Span(from0: nat, from1: nat, to0: nat, to1: nat)

  // ---------------------------------------------------------------------
  // Dependabot: from\s+([^\s]+)\s+to\s+([^\s]+)

  /** The pattern matches at `i` with "from" at `i`, the first capture in
      `s[b..c]`, "to" at `d` and the second capture in `s[f..g]`. */
  predicate DependabotShape(s: string, i: nat, b: int, c: int, d: int, f: int, g: int) {
    && OccursAt(s, "from", i)
    && Run(s, i + 4, b, IsRegexSpace)
    && Run(s, b, c, NotRegexSpace)
    && Run(s, c, d, IsRegexSpace)
    && d >= 0 && OccursAt(s, "to", d)
    && Run(s, d + 2, f, IsRegexSpace)
    && Run(s, f, g, NotRegexSpace)
  }

  function DependabotAt(s: string, i: nat): (r: Option<Span>)
    ensures r.Some? ==> exists d :: DependabotShape(s, i, r.value.from0, r.value.from1, d, r.value.to0, r.value.to1)
    ensures r.Some? ==> r.value.to1 == |s| || IsRegexSpace(s[r.value.to1])
  {
    if !OccursAt(s, "from", i) then None
    else
      var b := SkipWhile(s, i + 4, IsRegexSpace);
      if b == i + 4 then None
      else
        var c := SkipWhile(s, b, NotRegexSpace);
        if c == b then None
        else
          var d := SkipWhile(s, c, IsRegexSpace);
          if d == c || !OccursAt(s, "to", d) then None
          else
            var f := SkipWhile(s, d + 2, IsRegexSpace);
            if f == d + 2 then None
            else
              var g := SkipWhile(s, f, NotRegexSpace);
              if g == f then None
              else
                assert DependabotShape(s, i, b, c, d, f, g);
                Some(Span(b, c, f, g))
  }

  /** Any way the pattern can match at `i` is found by the scanner, with the
      same first capture and a second capture that extends the given one as
      far as greedy matching takes it. */
  lemma DependabotComplete(s: string, i: nat, b: int, c: int, d: int, f: int, g: int)
    requires DependabotShape(s, i, b, c, d, f, g)
    ensures DependabotAt(s, i).Some?
    ensures DependabotAt(s, i).value.from0 == b && DependabotAt(s, i).value.from1 == c
    ensures DependabotAt(s, i).value.to0 == f && DependabotAt(s, i).value.to1 >= g
  {
    SkipExact(s, i + 4, b, IsRegexSpace);
    SkipExact(s, b, c, NotRegexSpace);
    SkipExact(s, c, d, IsRegexSpace);
    assert s[d] == 't';
    SkipExact(s, d + 2, f, IsRegexSpace);
    SkipAtLeast(s, f, g, NotRegexSpace);
  }

  // ---------------------------------------------------------------------
  // Renovate: `?([^`\s]+)`?\s+->\s+`?([^`\s]+)`?

  /** The pattern matches at `i`: an optional backtick before `a`, the first
      capture in `s[a..c]`, an optional backtick before `w`, spaces up to the
      arrow at `d`, spaces up to `e`, an optional backtick before `f`, and the second
      capture in `s[f..g]`. The trailing optional backtick always matches. */
  predicate RenovateShape(s: string, i: nat, a: int, c: int, w: int, d: int, e: int, f: int, g: int) {
    && OptionalBacktick(s, i, a)
    && Run(s, a, c, TokenChar)
    && OptionalBacktick(s, c, w)
    && Run(s, w, d, IsRegexSpace)
    && d >= 0 && OccursAt(s, "->", d)
    && Run(s, d + 2, e, IsRegexSpace)
    && OptionalBacktick(s, e, f)
    && Run(s, f, g, TokenChar)
  }

  /** `s[i..j]` is what `` `? `` consumed: nothing, or one backtick. */
  predicate OptionalBacktick(s: string, i: int, j: int) {
    0 <= i <= j <= |s| && (j == i || (j == i + 1 && s[i] == '`'))
  }

  /** Optional backtick at `i`: greedy `?` takes it when it is there. */
  function SkipBacktick(s: string, i: nat): (j: nat)
    requires i <= |s|
    ensures OptionalBacktick(s, i, j)
  {
    if i < |s| && s[i] == '`' then i + 1 else i
  }

  function RenovateAt(s: string, i: nat): (r: Option<Span>)
    ensures r.Some? ==> exists w, d, e :: RenovateShape(s, i, r.value.from0, r.value.from1, w, d, e, r.value.to0, r.value.to1)
    ensures r.Some? ==> r.value.to1 == |s| || !TokenChar(s[r.value.to1])
  {
    if i > |s| then None
    else
      var a := SkipBacktick(s, i);
      var c := SkipWhile(s, a, TokenChar);
      if c == a then None
      else
        var w := SkipBacktick(s, c);
        var d := SkipWhile(s, w, IsRegexSpace);
        if d == w || !OccursAt(s, "->", d) then None
        else
          var e := SkipWhile(s, d + 2, IsRegexSpace);
          if e == d + 2 then None
          else
            var f := SkipBacktick(s, e);
            var g := SkipWhile(s, f, TokenChar);
            if g == f then None
            else
              assert RenovateShape(s, i, a, c, w, d, e, f, g);
              Some(Span(a, c, f, g))
  }

  /** Any way the arrow pattern can match at `i` is found by the scanner,
      with the same first capture and a second capture extended as far as
      greedy matching takes it. */
  lemma RenovateComplete(s: string, i: nat, a: int, c: int, w: int, d: int, e: int, f: int, g: int)
    requires RenovateShape(s, i, a, c, w, d, e, f, g)
    ensures RenovateAt(s, i).Some?
    ensures RenovateAt(s, i).value.from0 == a && RenovateAt(s, i).value.from1 == c
    ensures RenovateAt(s, i).value.to0 == f && RenovateAt(s, i).value.to1 >= g
  {
    assert SkipBacktick(s, i) == a;
    SkipExact(s, a, c, TokenChar);
    assert SkipBacktick(s, c) == w;
    SkipExact(s, w, d, IsRegexSpace);
    SkipExact(s, d + 2, e, IsRegexSpace);
    assert SkipBacktick(s, e) == f;
    SkipAtLeast(s, f, g, TokenChar);
  }

  // ---------------------------------------------------------------------
  // Leftmost search and ExtractVersion

  ghost predicate DependabotMatchesAt(s: string, i: nat) {
    exists b, c, d, f, g :: DependabotShape(s, i, b, c, d, f, g)
  }

  ghost predicate RenovateMatchesAt(s: string, i: nat) {
    exists a, c, w, d, e, f, g :: RenovateShape(s, i, a, c, w, d, e, f, g)
  }

  lemma DependabotAtIff(s: string, i: nat)
    ensures DependabotAt(s, i).Some? <==> DependabotMatchesAt(s, i)
  {
    if DependabotMatchesAt(s, i) {
      var b, c, d, f, g :| DependabotShape(s, i, b, c, d, f, g);
      DependabotComplete(s, i, b, c, d, f, g);
    }
  }

  lemma RenovateAtIff(s: string, i: nat)
    ensures RenovateAt(s, i).Some? <==> RenovateMatchesAt(s, i)
  {
    if RenovateMatchesAt(s, i) {
      var a, c, w, d, e, f, g :| RenovateShape(s, i, a, c, w, d, e, f, g);
      RenovateComplete(s, i, a, c, w, d, e, f, g);
    }
  }

  datatype Found = Found(pos: nat, span: Span)

  /** The first position at or after `i` where `at` finds a match. */
  function Search(s: string, i: nat, at: (string, nat) -> Option<Span>): (r: Option<Found>)
    requires i <= |s|
    ensures r.Some? ==> i <= r.value.pos <= |s| && at(s, r.value.pos) == Some(r.value.span)
    ensures r.Some? ==> forall j :: i <= j < r.value.pos ==> at(s, j).None?
    ensures r.None? ==> forall j :: i <= j <= |s| ==> at(s, j).None?
    decreases |s| - i
  {
    match at(s, i)
    case Some(span) => Some(Found(i, span))
    case None => if i == |s| then None else Search(s, i + 1, at)
  }

  /** `fmt.Sprintf("%s -> %s", ...)` of the trimmed captures. */
  function Render(s: string, span: Span): string
    requires span.from0 <= span.from1 <= |s| && span.to0 <= span.to1 <= |s|
  {
    TrimSpace(s[span.from0..span.from1]) + " -> " + TrimSpace(s[span.to0..span.to1])
  }

  function RenderFound(s: string, r: Option<Found>, at: (string, nat) -> Option<Span>): (v: string)
    requires r.Some? ==> at(s, r.value.pos) == Some(r.value.span)
    requires r.Some? ==> r.value.span.from0 <= r.value.span.from1 <= |s| && r.value.span.to0 <= r.value.span.to1 <= |s|
    ensures r.None? <==> v == "-"
  {
    match r
    case None => "-"
    case Some(found) =>
      var v := Render(s, found.span);
      assert |v| >= 4;
      v
  }

  /** `ExtractVersion`: Dependabot bodies use the "from X to Y" pattern,
      Renovate and GitHub Actions the arrow pattern, other authors give "-".
      The result is "-" exactly when the pattern matches nowhere; otherwise
      it renders the captures of the leftmost match, the second one as long
      as it can be. */
  function ExtractVersion(body: string, bot: BotType): (r: string)
    ensures !IsKnownBot(bot) ==> r == "-"
    ensures bot == Dependabot ==>
      (r == "-" <==> forall i :: 0 <= i <= |body| ==> !DependabotMatchesAt(body, i))
    ensures bot == Renovate || bot == GitHubActions ==>
      (r == "-" <==> forall i :: 0 <= i <= |body| ==> !RenovateMatchesAt(body, i))
    ensures bot == Dependabot && r != "-" ==>
      exists i: nat, b, c, d, f, g :: DependabotShape(body, i, b, c, d, f, g)
        && (forall j: nat :: j < i ==> !DependabotMatchesAt(body, j))
        && (g == |body| || IsRegexSpace(body[g]))
        && r == TrimSpace(body[b..c]) + " -> " + TrimSpace(body[f..g])
    ensures (bot == Renovate || bot == GitHubActions) && r != "-" ==>
      exists i: nat, a, c, w, d, e, f, g :: RenovateShape(body, i, a, c, w, d, e, f, g)
        && (forall j: nat :: j < i ==> !RenovateMatchesAt(body, j))
        && (g == |body| || !TokenChar(body[g]))
        && r == TrimSpace(body[a..c]) + " -> " + TrimSpace(body[f..g])
  {
    if bot == Dependabot then ExtractDependabot(body)
    else if bot == Renovate || bot == GitHubActions then ExtractRenovate(body)
    else "-"
  }

  /** The "from X to Y" pattern's leftmost match, rendered. */
  function ExtractDependabot(body: string): (r: string)
    ensures r == "-" <==> forall i :: 0 <= i <= |body| ==> !DependabotMatchesAt(body, i)
    ensures r != "-" ==>
      exists i: nat, b, c, d, f, g :: DependabotShape(body, i, b, c, d, f, g)
        && (forall j: nat :: j < i ==> !DependabotMatchesAt(body, j))
        && (g == |body| || IsRegexSpace(body[g]))
        && r == TrimSpace(body[b..c]) + " -> " + TrimSpace(body[f..g])
  {
    var found := Search(body, 0, DependabotAt);
    DependabotSearchSpec(body, found);
    RenderFound(body, found, DependabotAt)
  }

  /** The arrow pattern's leftmost match, rendered. */
  function ExtractRenovate(body: string): (r: string)
    ensures r == "-" <==> forall i :: 0 <= i <= |body| ==> !RenovateMatchesAt(body, i)
    ensures r != "-" ==>
      exists i: nat, a, c, w, d, e, f, g :: RenovateShape(body, i, a, c, w, d, e, f, g)
        && (forall j: nat :: j < i ==> !RenovateMatchesAt(body, j))
        && (g == |body| || !TokenChar(body[g]))
        && r == TrimSpace(body[a..c]) + " -> " + TrimSpace(body[f..g])
  {
    var found := Search(body, 0, RenovateAt);
    RenovateSearchSpec(body, found);
    RenderFound(body, found, RenovateAt)
  }

  lemma DependabotSearchSpec(body: string, found: Option<Found>)
    requires found == Search(body, 0, DependabotAt)
    ensures found.None? <==> forall i :: 0 <= i <= |body| ==> !DependabotMatchesAt(body, i)
    ensures found.Some? ==>
      exists d :: DependabotShape(body, found.value.pos, found.value.span.from0, found.value.span.from1,
                                  d, found.value.span.to0, found.value.span.to1)
    ensures found.Some? ==> forall j: nat :: j < found.value.pos ==> !DependabotMatchesAt(body, j)
    ensures found.Some? ==> found.value.span.to1 == |body| || IsRegexSpace(body[found.value.span.to1])
  {
    forall i | 0 <= i <= |body|
      ensures DependabotAt(body, i).Some? <==> DependabotMatchesAt(body, i)
    {
      DependabotAtIff(body, i);
    }
    if found.Some? {
      assert DependabotAt(body, found.value.pos) == Some(found.value.span);
      forall j: nat | j < found.value.pos
        ensures !DependabotMatchesAt(body, j)
      {
        DependabotAtIff(body, j);
      }
    }
  }

  lemma RenovateSearchSpec(body: string, found: Option<Found>)
    requires found == Search(body, 0, RenovateAt)
    ensures found.None? <==> forall i :: 0 <= i <= |body| ==> !RenovateMatchesAt(body, i)
    ensures found.Some? ==>
      exists w, d, e :: RenovateShape(body, found.value.pos, found.value.span.from0, found.value.span.from1,
                                      w, d, e, found.value.span.to0, found.value.span.to1)
    ensures found.Some? ==> forall j: nat :: j < found.value.pos ==> !RenovateMatchesAt(body, j)
    ensures found.Some? ==> found.value.span.to1 == |body| || !TokenChar(body[found.value.span.to1])
  {
    forall i | 0 <= i <= |body|
      ensures RenovateAt(body, i).Some? <==> RenovateMatchesAt(body, i)
    {
      RenovateAtIff(body, i);
    }
    if found.Some? {
      assert RenovateAt(body, found.value.pos) == Some(found.value.span);
      forall j: nat | j < found.value.pos
        ensures !RenovateMatchesAt(body, j)
      {
        RenovateAtIff(body, j);
      }
    }
  }

  /** GitHub Actions pull requests are read with Renovate's pattern. */
  lemma GitHubActionsLikeRenovate(body: string)
    ensures ExtractVersion(body, GitHubActions) == ExtractVersion(body, Renovate)
  {
  }

  predicate NoSpace(x: string) {
    forall k :: 0 <= k < |x| ==> !IsSpace(x[k])
  }

  /** A Dependabot sentence "from X to Y" with space-free versions gives
      "X -> Y". Y runs to the next space, so "from 1 to 2." gives "1 -> 2.". */
  lemma DependabotSentence(x: string, y: string)
    requires |x| > 0 && |y| > 0 && NoSpace(x) && NoSpace(y)
    ensures ExtractVersion("from " + x + " to " + y, Dependabot) == x + " -> " + y
  {
    var s := "from " + x + " to " + y;
    var c := 5 + |x|;
    var f := c + 4;
    var span := Span(5, c, f, |s|);
    assert DependabotAt(s, 0) == Some(span) by {
      assert s[..5] == "from " && s[5..c] == x && s[c..c + 4] == " to " && s[f..] == y;
      assert DependabotShape(s, 0, 5, c, c + 1, f, |s|);
      DependabotComplete(s, 0, 5, c, c + 1, f, |s|);
    }
    assert Render(s, span) == x + " -> " + y by {
      assert s[5..c] == x && s[f..|s|] == y;
      TrimSpaceNoSpace(x);
      TrimSpaceNoSpace(y);
    }
    ExtractVersionAtStart(s, Dependabot, span);
  }

  /** Renovate's table cell "`X` -> `Y`" gives "X -> Y": the backticks are
      not captured. */
  lemma RenovateBackticked(x: string, y: string)
    requires |x| > 0 && |y| > 0 && NoSpace(x) && NoSpace(y) && '`' !in x && '`' !in y
    ensures ExtractVersion("`" + x + "` -> `" + y + "`", Renovate) == x + " -> " + y
  {
    var s := "`" + x + "` -> `" + y + "`";
    var c := 1 + |x|;
    var f := c + 6;
    var g := f + |y|;
    var span := Span(1, c, f, g);
    assert RenovateAt(s, 0) == Some(span) by {
      RenovateCellShape(x, y);
      RenovateComplete(s, 0, 1, c, c + 1, c + 2, c + 5, f, g);
      assert s[g] == '`';
      SkipExact(s, f, g, TokenChar);
    }
    assert Render(s, span) == x + " -> " + y by {
      assert s == "`" + x + "` -> `" + y + "`";
      assert s[1..c] == x;
      assert s[f..g] == y;
      TrimSpaceNoSpace(x);
      TrimSpaceNoSpace(y);
    }
    ExtractVersionAtStart(s, Renovate, span);
  }

  lemma RenovateCellShape(x: string, y: string)
    requires |x| > 0 && |y| > 0 && NoSpace(x) && NoSpace(y) && '`' !in x && '`' !in y
    ensures var s := "`" + x + "` -> `" + y + "`";
            var c := 1 + |x|;
            RenovateShape(s, 0, 1, c, c + 1, c + 2, c + 5, c + 6, c + 6 + |y|)
  {
    var s := "`" + x + "` -> `" + y + "`";
    var c := 1 + |x|;
    var f := c + 6;
    var g := f + |y|;
    assert forall k :: 1 <= k < c ==> s[k] == x[k - 1];
    assert forall k :: f <= k < g ==> s[k] == y[k - f];
    assert s[c..f] == "` -> `";
    assert s[0] == '`';
  }

  /** When the bot's pattern matches at the very start, that match is the
      one rendered. */
  lemma ExtractVersionAtStart(s: string, bot: BotType, span: Span)
    requires bot == Dependabot ==> DependabotAt(s, 0) == Some(span)
    requires bot == Renovate ==> RenovateAt(s, 0) == Some(span)
    requires bot == Dependabot || bot == Renovate
    ensures span.from0 <= span.from1 <= |s| && span.to0 <= span.to1 <= |s|
    ensures ExtractVersion(s, bot) == Render(s, span)
  {
    if bot == Dependabot {
      assert Search(s, 0, DependabotAt) == Some(Found(0, span));
    } else {
      assert Search(s, 0, RenovateAt) == Some(Found(0, span));
    }
  }

  lemma TrimSpaceNoSpace(x: string)
    requires |x| > 0 && NoSpace(x)
    ensures TrimSpace(x) == x
  {
    assert TrimStart(x) == 0;
  }
}
